=== FILE: README.md ===
# Travel-Rewired route handlers in Dafny

Travel-Rewired is an Express and MongoDB travel-planning server. Travellers plan trips
to destinations, book local guides, chat with them and review them afterwards. Guides
complete a profile, get vetted by an admin, and then accept or decline requests.
Everyone can write blog posts.

This project models the server's request handlers as pure functions. Each takes the
document store, the authenticated requester (`Option<AuthUser>`, `None` when no valid
token came along) and the request fields, and returns the reply together with the
store after the handler's writes.

- **The store** (`Model.Store`) is a record of sequences: users, guide profiles, trips,
  booking requests, reviews, blogs, chat messages and destinations.
- **Lookups.** A `findOne` is the first matching index (`Model.FirstIndex`). A
  `findById` distinguishes three cases (`Model.Locate`): an id that is not a 24-digit
  hex string (mongoose throws a CastError), an id that matches nothing, and a hit.
- **Replies** (`Model.Reply`) are Ok, a plain-text message, a redirect, 400, 403, 404
  and 500. There is also `NoResponse`, for an exception thrown by a handler without a
  try/catch: Express 4 never answers a rejected handler promise.
- **Form fields** are `Option<string>`, with `None` for `undefined`. JavaScript
  truthiness of a string is `Options.Truthy`.
- **Dates** are integer timestamps.
- **External inputs are parameters.** Fresh document ids, the current time, the random
  OTP draw, the bcrypt salt and the JWT `getUser` function are all passed in.

Modules follow the server's layout:

| module | models |
|---|---|
| `Text`, `Numerals`, `CommaList` | `trim`, `split`/`join`, `Number#toString`, `parseInt`, and the shared `split(',').map(trim)` parser |
| `Seqs` | order-preserving filter, splice, sort by key |
| `Model` | the schemas and the lookups |
| `Middleware` | `auth.js`, `authorization.js`, `checkAdmin.js` |
| `Accounts` | `models/User.js` and the signup / OTP / login routes of `routes/user.js` |
| `TripLists`, `TripPlanner` | `routes/tripPlanner.js` |
| `Bookings` | `routes/booking.js` |
| `Reviews` | `routes/reviews.js` |
| `Chat` | `routes/chat.js` |
| `Guides` | `routes/guide.js` |
| `Admin` | `routes/admin.js` |
| `Blogs` | `routes/blogs.js` |

Where a written description of the system and the code differ, the model follows the
code:

- GET `/guide/complete-profile` answers an existing guide with status 200 and a JSON
  redirect URL, not with an HTTP redirect.
- The trip "already added" check never fires (Finding 1).
- Booking creation stores two requests (Finding 2).

## Model

| member | source | states |
|---|---|---|
| `Middleware.ExtractToken` | server/middlewares/auth.js:7 | A non-empty cookie token wins. Otherwise the token is the second space-separated word of the Authorization header, and there is none when the header has no space. |
| `Middleware.BearerToken` | server/middlewares/auth.js:7 | Without a cookie, the header `scheme token` yields exactly `token`. |
| `Middleware.CookieFirst` | server/middlewares/auth.js:7 | A non-empty cookie token is used whatever the Authorization header says. |
| `Middleware.Authenticate` | server/middlewares/auth.js:3-28 | No token, or a token `getUser` rejects, leaves the requester null. A valid payload yields exactly `{id, email, role}` copied from it. The middleware never refuses a request. |
| `Middleware.Authorize` | server/middlewares/authorization.js:4-21 | Trip ownership gate: a missing trip is 404; a malformed id, or a missing requester, is a caught error (500); a non-owner is 403; the owner passes with the loaded trip, which has the requested id and belongs to the requester. |
| `Middleware.CheckAdmin` | server/middlewares/checkAdmin.js:1-6 | Passes exactly an authenticated admin; everyone else, with or without a user, gets 403. |
| `Model.ParseRole` | server/models/User.js:8 | The role enum accepts exactly the strings traveler, guide and admin. |
| `Model.ParseRoleName` | server/models/User.js:8 | Every role's name parses back to that role. |
| `Model.IsObjectId` | server/routes/blogs.js:74 | `ObjectId.isValid`: a valid id has exactly 24 characters; every 24-digit decimal string is valid; a letter beyond `f`/`F` or a space makes an id invalid. |
| `Model.Locate` | server/routes/blogs.js:74-82 | `findById`: a malformed id is a CastError, an id no document carries finds nothing, otherwise the found document carries the id. |
| `Model.FirstIndex` | server/routes/user.js:68 | `findOne`: the position found carries the key and no earlier document does; nothing is found exactly when no document carries the key. |
| `Accounts.PreSave` | server/models/User.js:19-29 | The hook touches only the password field; without a password change it changes nothing; after hashing a plain password exactly that password verifies. |
| `Accounts.VerifyPassword` | server/models/User.js:31-33 | A stored value that is not a bcrypt hash, or a hash of a hash, verifies no password; a hash of a plain password verifies that password whatever the salt. |
| `Accounts.HashedPasswordVerifies` | server/models/User.js:19-33 | After a save that hashes a new password, `verifyPassword` accepts exactly that password. |
| `Accounts.SaveWithoutPasswordChange` | server/models/User.js:19-21 | A save that does not modify `passwordHash` leaves the hash alone, so the password still verifies. Hashing again would lock the user out. |
| `Accounts.OtpOf` | server/routes/user.js:76 | The OTP is six decimal digits and denotes `100000 + draw`, so it lies in 100000..999999. |
| `Accounts.OtpInjective` | server/routes/user.js:76 | Different draws give different OTPs. |
| `Accounts.ChosenRole` | server/routes/user.js:83 | `role \|\| 'traveler'`: a falsy role is traveler; any other value must name a valid role. |
| `Accounts.Overwrite` | server/routes/user.js:79-86 | Re-signup rewrites the unverified user in place: same position, no other user changes, no email lookup moves. |
| `Accounts.Register` | server/routes/user.js:94-102 | A new user is appended and becomes the one user found by its email; lookups of other emails are unchanged. |
| `Accounts.Signup` | server/routes/user.js:60-112 | Missing email or password is 500 with no change (the 400 page's `render` throws inside the try, as server/index.js:29-31 sets no view engine); a verified account is 400 with no change; only the users change; a resend keeps the user count; a first signup adds one user. |
| `Accounts.SignupIssuesOtp` | server/routes/user.js:75-102 | A signup that writes leaves the account unverified with the drawn OTP and expiry `now + 600000`, the chosen role and name, and a password that verifies. |
| `Accounts.ResignupOverwrites` | server/routes/user.js:79-90 | Re-signup of an unverified email creates no user; it overwrites name, password, role, OTP and expiry at the same position. |
| `Accounts.OverwriteKeepsAccounts` | server/routes/user.js:79-86 | Overwriting one user leaves the state of every other email unchanged. |
| `Accounts.RegisterKeepsAccounts` | server/routes/user.js:94-102 | Registering one user leaves the state of every other email unchanged. |
| `Accounts.SignupLeavesOtherEmails` | server/routes/user.js:68-102 | A signup never changes the verification state of any other email. |
| `Accounts.HomeFor` | server/routes/user.js:142 | The redirect is `/guide/home` exactly for guides, else `/home`. |
| `Accounts.VerifyOtp` | server/routes/user.js:115-148 | Checks, in order: unknown email 400; already verified changes nothing; wrong OTP 400, checked before expiry; expired only when `otpExpires < now`. Success sets `isVerified` and clears the OTP and expiry. No other email changes. |
| `Accounts.Login` | server/routes/user.js:150-178 | Checks, in order: missing fields 400, unknown user 404, unverified 403, wrong password 401. On success the redirect depends only on the role. |
| `Accounts.SignupSendsOtp` | server/routes/user.js:79-107 | With the mail sent, a first signup answers "OTP sent" and a re-signup of an unverified email answers "OTP resent". |
| `Accounts.SignupLeavesUnverified` | server/routes/user.js:75-102 | A signup past its checks leaves the email unverified, holding the new OTP and its ten-minute expiry, under the chosen role and the new password. |
| `Accounts.VerifyThenLogin` | server/routes/user.js:115-178 | An unverified user who enters the OTP by its expiry can then log in with their password and is sent to their role's home page. |
| `Accounts.SignupVerifyLogin` | server/routes/user.js:60-178 | Signing up, verifying with the issued OTP up to the expiry instant, then logging in with the same password succeeds. |
| `Accounts.OverwriteKeepsUsersValid` | server/models/User.js:6-16 | Overwriting a user with a valid one keeps emails unique, verified users OTP-free and passwords hashed. |
| `Accounts.RegisterKeepsUsersValid` | server/models/User.js:6-16 | Appending a valid user under a new email keeps the same invariant. |
| `Accounts.SignupKeepsUsersValid` | server/routes/user.js:60-112 | Signup preserves unique emails, OTP-free verified users and hashed passwords. |
| `Accounts.VerifyKeepsUsersValid` | server/routes/user.js:126-129 | OTP verification preserves the same invariant. |
| `Accounts.PublicProfile` | server/routes/user.js:185-200 | A malformed id is 500. A profile is shown only for an existing user whose role is not guide. |
| `CommaList.TrimAll` | server/routes/admin.js:52 | `map(item => item.trim())` trims each piece and keeps the count. |
| `CommaList.ParseList` | server/routes/tripPlanner.js:131 | `split(',').map(trim)` yields commas + 1 entries; entry i is piece i of the split, trimmed, so each is trimmed and comma-free. |
| `CommaList.TrimmedPieces` | server/routes/guide.js:26 | Trimming comma-free pieces leaves them trimmed and comma-free. |
| `CommaList.TrimKeepsAbsent` | server/routes/guide.js:169 | Trimming never introduces a character. |
| `CommaList.OptionalList` | server/routes/admin.js:51-53 | A falsy field gives the empty list; otherwise exactly the list `ParseList` reads from the field (commas + 1 trimmed pieces). |
| `CommaList.ParseEmpty` | server/routes/tripPlanner.js:131 | An empty string parses to one empty piece, not to an empty list. |
| `CommaList.BlankPiecesKept` | server/routes/admin.js:83 | A blank piece between commas survives as an empty string. |
| `CommaList.ParseJoined` | server/routes/tripPlanner.js:131 | Joining trimmed, comma-free items with commas and parsing gives the items back. |
| `CommaList.ParseStable` | server/routes/guide.js:26 | Parsing is stable: re-joining a parsed list and parsing again changes nothing. |
| `Text.Trim` | server/routes/tripPlanner.js:158 | `trim()` yields a trimmed string that is empty exactly for blank input, and leaves trimmed input alone. |
| `Text.TrimIsInfix` | server/routes/chat.js:82 | The trimmed string is the input with a blank prefix and a blank suffix removed. |
| `Text.TrimIdempotent` | server/routes/chat.js:59-82 | Trimming twice is trimming once. |
| `Text.SplitJoin` | server/routes/tripPlanner.js:131 | `split` inverts `join` for separator-free pieces. |
| `Text.IsWhitespace` | server/routes/chat.js:59 | The ASCII space, tab, line feed, carriage return, no-break space and byte-order mark are whitespace; digits, letters, comma and minus are not. |
| `Text.Split` | server/routes/tripPlanner.js:131 | `split(',')` gives one piece more than there are separators, no piece contains the separator, and joining the pieces gives back the input. |
| `Text.Join` | server/routes/tripPlanner.js:131 | The first part starts the joined string and, when more parts follow, the separator comes right after it. The server never joins; `join` is the partner that `split` inverts. |
| `Numerals.ParseIntToString` | server/routes/tripPlanner.js:177 | `parseInt` reads back every integer's decimal rendering. |
| `Numerals.IntToStringInjective` | server/routes/tripPlanner.js:250 | Distinct days render to distinct strings. |
| `Numerals.SixDigits` | server/routes/user.js:76 | Every number in 100000..999999 renders to six decimal digits. |
| `Numerals.IntToString` | server/routes/tripPlanner.js:250 | `Number#toString` of an integer: a leading minus exactly for negatives, then decimal digits with no leading zero. |
| `Numerals.ParseInt` | server/routes/tripPlanner.js:177 | `parseInt`: blank input is NaN; after leading whitespace, a decimal digit (not a `0x` prefix) gives a non-negative number; any other non-sign character gives NaN; a negative result needs a leading minus. |
| `Seqs.SortBy` | server/routes/blogs.js:16 | The sorted result is ordered by the key and is a permutation of the input. |
| `Seqs.FilterByCounts` | server/routes/guide.js:261 | A filter keeps every passing element exactly as often as it occurs and nothing else, so its length is the number of matching documents `countDocuments` reports. |
| `TripLists.AddPackingItem` | server/routes/tripPlanner.js:158-162 | A missing or blank item leaves the list unchanged. Otherwise exactly one unpacked item, named by the trimmed non-empty input, is appended. |
| `TripLists.AddPackingItemIgnoresPadding` | server/routes/tripPlanner.js:158 | Surrounding whitespace makes no difference to the stored item. |
| `TripLists.ToggleAt` | server/routes/tripPlanner.js:177-181 | A valid index flips `packed` at that index only. An invalid, negative or NaN index leaves the list unchanged. |
| `TripLists.ToggleTwice` | server/routes/tripPlanner.js:177-181 | Toggling the same index twice restores the list. |
| `TripLists.ToggleCommutes` | server/routes/tripPlanner.js:177-181 | Toggles at two indexes commute. |
| `TripLists.DeleteAt` | server/routes/tripPlanner.js:194-197 | A valid index removes exactly that item and shifts the rest down. Any other index, or NaN, leaves the list unchanged. |
| `TripLists.DeleteAtKeepsOrder` | server/routes/tripPlanner.js:194-197 | Deletion keeps the remaining items in order. |
| `TripLists.DeleteAtRemovesOne` | server/routes/tripPlanner.js:196 | Deletion removes one occurrence of the item at the index and nothing else, as multisets. |
| `TripLists.DeleteLastAdded` | server/routes/tripPlanner.js:158-197 | Deleting the last index right after adding a non-blank item restores the packing list. |
| `TripLists.DeleteRenderedLastAdded` | server/routes/tripPlanner.js:158-197 | The same when the index comes as its decimal rendering and is read back with `parseInt`. |
| `TripLists.DeleteCategory` | server/routes/tripPlanner.js:216 | Exactly the entries of other categories remain, each as many times as it was stored, in their original order. |
| `TripLists.DeleteCategoryIdempotent` | server/routes/tripPlanner.js:216 | Deleting a category twice is deleting it once. |
| `TripLists.DeleteAbsentCategory` | server/routes/tripPlanner.js:216 | Deleting a category nobody uses changes nothing. |
| `TripLists.DeleteDay` | server/routes/tripPlanner.js:250 | The filter throws exactly when some entry has no day. Otherwise exactly the entries whose rendered day differs from the parameter remain, each as many times as stored, in order. |
| `TripLists.DeleteAddedDay` | server/routes/tripPlanner.js:131-250 | Deleting a day number after appending an entry for that number gives what deleting it before gives, throw included. |
| `TripLists.UndatedEntryBlocksDelete` | server/routes/tripPlanner.js:250 | One entry without a day makes every delete-by-day throw, whatever the parameter. |
| `TripLists.DeleteRenderedDay` | server/routes/tripPlanner.js:250 | When the filter does not throw, passing a day's own rendering removes exactly the entries for that day. |
| `TripLists.DeleteZeroPaddedDay` | server/routes/tripPlanner.js:250 | A zero-padded parameter such as `07` matches no day, so when the filter does not throw nothing is deleted. |
| `TripLists.NewItineraryDay` | server/routes/tripPlanner.js:131 | The activities are the comma list read from the field: piece i of the split, trimmed, commas + 1 of them. |
| `TripLists.EmptyActivities` | server/routes/tripPlanner.js:131 | An empty activities field stores a single empty activity. |
| `TripLists.ActivitiesRoundTrip` | server/routes/tripPlanner.js:131 | Clean activities joined with commas are stored exactly. |
| `TripLists.FirstWithStatus` | server/routes/tripPlanner.js:106-108 | `bookings.find(b => b.status === s)`: the first booking with that status, or none. |
| `TripLists.ActiveBooking` | server/routes/tripPlanner.js:106-110 | The first accepted booking if any exists, else the first pending one. It is none exactly when every booking is rejected, and is never a rejected booking. |
| `TripLists.AcceptedBeatsPending` | server/routes/tripPlanner.js:110 | An accepted booking anywhere makes the active booking an accepted one. |
| `TripLists.RejectedNeverActive` | server/routes/tripPlanner.js:106-110 | Adding a rejected booking never changes which booking is active. |
| `TripPlanner.GateReply` | server/middlewares/authorization.js:8-20 | The reply of a refused ownership gate carries the gate's status. |
| `TripPlanner.WithTrip` | server/routes/tripPlanner.js:132 | Saving a trip replaces that trip only. |
| `TripPlanner.WithTripTwice` | server/routes/tripPlanner.js:132 | Saving the same trip twice keeps only the second save. |
| `TripPlanner.AddTripWith` | server/routes/tripPlanner.js:56-78 | An existing trip for the owner key answers 200 and creates nothing. Otherwise a start after the end is 400 with no change. Otherwise a missing date is 500 with no change, since the schema requires both dates. Otherwise, with both dates present and in order, the answer is 200 and exactly one trip for the requester is appended. |
| `TripPlanner.AddTripAsWritten` | server/routes/tripPlanner.js:58 | As written, the duplicate check is keyed on `req.user._id`, which authentication never sets. |
| `TripPlanner.AddTripAsWrittenDuplicates` | server/routes/tripPlanner.js:58-71 | As written, and with the undefined owner sent as `null`, adding a destination the requester already has stores a second trip for it. |
| `TripPlanner.AddTrip` | server/routes/tripPlanner.js:56-78 | Corrected: a requester who already has a trip to the destination gets 200 and no new trip. For a first trip to the destination, reversed dates are 400, a missing date 500, and dates present and in order create exactly that trip. A new trip has dates in order and belongs to the requester. |
| `TripPlanner.AddTripRejectsReversedDates` | server/routes/tripPlanner.js:62-64 | A start date after the end date is 400 and creates nothing. |
| `TripPlanner.AddTripKeepsOneTripPerDestination` | server/routes/tripPlanner.js:58-59 | Corrected trip creation keeps at most one trip per (user, destination). |
| `TripPlanner.MyTrips` | server/routes/tripPlanner.js:80-88 | Lists exactly the requester's trips, each as often as stored, in store order. A missing requester is 500. |
| `TripPlanner.ViewOf` | server/routes/tripPlanner.js:105-119 | `showBookingButton` holds exactly when there is no active booking. The active booking is never rejected and is accepted whenever an accepted booking exists. |
| `TripPlanner.TripBookings` | server/routes/tripPlanner.js:100-103 | Exactly this traveler's bookings for this trip, each as often as it is stored, newest first. |
| `TripPlanner.TripDetails` | server/routes/tripPlanner.js:92-125 | The page is shown exactly when the ownership gate passes; otherwise the gate's refusal. The page holds the trip, with the view built from the requester's bookings for it. |
| `TripPlanner.BookingButtonIffNoActiveBooking` | server/routes/tripPlanner.js:117 | The booking button shows exactly when all of the requester's bookings for the trip are rejected. |
| `TripPlanner.AcceptedBookingShown` | server/routes/tripPlanner.js:106-110 | If the requester has an accepted booking for the trip, the page shows an accepted booking. |
| `TripPlanner.BookingDetails` | server/routes/tripPlanner.js:12-38 | Behind the ownership gate, the booking is shown only when it belongs to this trip and this traveler, and it is shown whenever it does and the traveler's user document exists. A booking of this trip whose traveler document is gone throws with no answer; another traveler's is 403. A malformed booking id gets no answer; an unknown one is 403. |
| `TripPlanner.BookGuide` | server/routes/tripPlanner.js:42-54 | A malformed id is 500, an unknown trip 404. For an existing trip the list is shown exactly when its destination document exists, and then it holds exactly the verified guides located at the destination's name, each as often as stored, in store order. |
| `TripPlanner.EditOwnedTrip` | server/routes/tripPlanner.js:132 | The trip the gate found (carrying the requested id and owned by the requester) becomes the saved trip; every other trip and every other collection is unchanged. |
| `TripPlanner.AddItinerary` | server/routes/tripPlanner.js:128-134 | Behind the ownership gate, a request with activities always succeeds and appends one parsed entry; a missing `day` is stored as an entry without a day. Missing activities throw with no answer and no change. |
| `TripPlanner.AddBudget` | server/routes/tripPlanner.js:137-150 | Behind the ownership gate, one budget line is appended. |
| `TripPlanner.DeleteBudget` | server/routes/tripPlanner.js:205-224 | Behind the ownership gate, the category is filtered out of the owned trip's budget. |
| `TripPlanner.DeleteBudgetRemovesCategory` | server/routes/tripPlanner.js:216 | Afterwards no line has the category, every other line remains as many times as it was stored, and the order is kept. |
| `TripPlanner.UpdateNotes` | server/routes/tripPlanner.js:226-242 | Behind the ownership gate, the notes are replaced, possibly by nothing. |
| `TripPlanner.DeleteItineraryDay` | server/routes/tripPlanner.js:245-254 | Behind the ownership gate, the day is filtered out by its rendering, and this succeeds whenever every entry has a day. When the trip holds an entry without a day, the filter throws: no answer and no change, exactly then. |
| `TripPlanner.GateAfterEdit` | server/middlewares/authorization.js:4-21 | An edit that keeps the trip's id and owner leaves the ownership gate open for the next request, at the same trip. |
| `TripPlanner.AddThenDeleteBudget` | server/routes/tripPlanner.js:137-224 | Adding a budget line and then deleting its category is the same as deleting the category. |
| `TripPlanner.NotesLastWins` | server/routes/tripPlanner.js:226-242 | Two notes updates leave the second one's notes. |
| `TripPlanner.AddThenDeleteDay` | server/routes/tripPlanner.js:128-254 | Adding a day and then deleting that day's number answers as deleting the number alone, and leaves the same store whenever that delete goes through. |
| `TripPlanner.UndatedDayBlocksDeletes` | server/routes/tripPlanner.js:128-254 | When the owner adds an entry without a day, every later delete-by-day on the trip goes unanswered and changes nothing. |
| `TripPlanner.AddPacking` | server/routes/tripPlanner.js:153-169 | No ownership check. A malformed id is 500, an unknown trip 404. Otherwise the item is added to that trip only. |
| `TripPlanner.TogglePacking` | server/routes/tripPlanner.js:172-188 | No ownership check. The toggle applies at `parseInt(index)` of that trip only. |
| `TripPlanner.DeletePacking` | server/routes/tripPlanner.js:190-201 | No ownership check and no try: a malformed id gets no answer. Otherwise the bounded delete applies to that trip only. |
| `TripPlanner.TogglePackingTwice` | server/routes/tripPlanner.js:172-188 | Toggling the same index twice through the route restores the store. |
| `TripPlanner.AddThenDeletePacking` | server/routes/tripPlanner.js:153-201 | Adding a non-blank item and then deleting the last index restores the store. |
| `TripPlanner.RemoveTrip` | server/routes/tripPlanner.js:275 | Exactly one trip disappears iff some trip carries the id: the first such one, with the trips before it and the order of the rest kept; otherwise the list is unchanged. |
| `TripPlanner.DeleteTrip` | server/routes/tripPlanner.js:257-283 | No ownership check. A pending or accepted booking for the trip is 400 with no change. A well-formed id with no such booking always succeeds: the trip's rejected bookings and the first trip with the id are removed and nothing else changes. A malformed id is 500. |
| `TripPlanner.DeleteTripLeavesNoBookings` | server/routes/tripPlanner.js:262-275 | After a successful delete, no booking refers to the trip, other trips' bookings are untouched and in order, and exactly one trip is gone if it existed. |
| `Bookings.BookingForm` | server/routes/booking.js:11-21 | 404 unless both the guide and the trip exist. A malformed id gets no answer (no try). |
| `Bookings.NewBooking` | server/models/BookingRequest.js:38-42 | A created booking is pending and names the trip, the requester and the guide. |
| `Bookings.Checked` | server/routes/booking.js:27-35 | Reversed dates are 400 before any lookup. Then an absent, malformed or unknown trip gets no answer, and dates outside the trip are 400. A request inside an existing trip passes exactly when it has a requester, a well-formed guide id and every required field; otherwise it is 500. |
| `Bookings.CreateBookingAsWritten` | server/routes/booking.js:38-58 | As written, a valid request appends two pending bookings. |
| `Bookings.CreateBooking` | server/routes/booking.js:23-65 | Corrected: a valid request appends one booking; every refusal leaves the store unchanged. |
| `Bookings.ReversedDatesRefusedFirst` | server/routes/booking.js:27-29 | A start after the end is 400 and creates nothing, whatever the trip. |
| `Bookings.OutsideTripRefused` | server/routes/booking.js:32-35 | Dates outside the trip are 400 and create nothing. |
| `Bookings.CreatedBookingInsideTrip` | server/routes/booking.js:27-47 | A created booking is pending, ordered, and lies within an existing trip's dates. |
| `Bookings.CreatedBookingShown` | server/routes/tripPlanner.js:12-38 | The trip's owner is shown a request they have just created on the trip's booking page. |
| `Bookings.CreateBookingAsWrittenTwice` | server/routes/booking.js:38-58 | The two inserted records are identical apart from their ids, and both are pending. The program stamps each with its own `Date.now()`, which may differ by milliseconds; the model takes one `now` for both. |
| `Bookings.SetStatus` | server/routes/guide.js:95 | Changes the status of one booking only. |
| `Bookings.Decide` | server/routes/guide.js:92-115 | A malformed or unknown id is a caught error (500). Otherwise the status is set regardless of the prior one. |
| `Bookings.DecideLastWins` | server/routes/guide.js:92-115 | Two decisions on a booking leave the second one's status. |
| `Bookings.DuplicateOutlivesDecline` | server/routes/booking.js:38-58 | As written, declining the first inserted copy leaves its pending twin, so the trip still cannot be deleted. |
| `Bookings.DeclineUnblocksDelete` | server/routes/tripPlanner.js:262-269 | Corrected: declining the one request created makes the trip deletable again. |
| `Reviews.Eligible` | server/routes/reviews.js:22-31 | In order: a malformed id throws; a missing booking or non-owner is 403; a missing requester throws; 400 until strictly after the end date. |
| `Reviews.ReviewForm` | server/routes/reviews.js:6-20 | The form is shown exactly when the same owner and end-date checks pass. |
| `Reviews.CreateReview` | server/routes/reviews.js:22-50 | A second review of the same booking is 400 and adds nothing. An out-of-range rating throws. An eligible first review with a valid rating always succeeds, and exactly one review is appended. |
| `Reviews.CreatedReviewFields` | server/routes/reviews.js:39-45 | A stored review names the booking, its guide and the requester. Its rating is 1..5 and its comment is trimmed. |
| `Reviews.CreateReviewKeepsOnePerBooking` | server/routes/reviews.js:34-37 | At most one review per (booking, traveler) is preserved. |
| `Reviews.SecondReviewRefused` | server/routes/reviews.js:34-37 | A second attempt is 400 and changes nothing. |
| `Chat.GuideUserOf` | server/routes/chat.js:15-23 | The user behind the booking's guide exists only when both the guide and its user exist. |
| `Chat.Thread` | server/routes/chat.js:41-44 | Exactly the booking's messages, in ascending `createdAt`. |
| `Chat.ReadChat` | server/routes/chat.js:8-51 | A malformed id or missing documents are 500, an unknown booking 404, a non-participant 403. A participant sees the thread. |
| `Chat.PostChat` | server/routes/chat.js:53-91 | An empty message is 400 before any lookup. An unknown booking is 404, a missing guide 500, a non-participant 403. A participant's non-empty message on an existing booking always succeeds, and the trimmed message is appended with the requester as sender. |
| `Chat.PostedMessageTrimmed` | server/routes/chat.js:79-83 | A stored message is non-empty and trimmed, from the requester, in that booking. |
| `Chat.PostThenRead` | server/routes/chat.js:33-83 | A message a participant posts appears when that participant reads the chat. |
| `Guides.GuideOf` | server/routes/guide.js:17 | The first guide profile of the user, or none when the user has none. |
| `Guides.SetUserImage` | server/routes/guide.js:34 | Only the user with the id gets the new profile image. |
| `Guides.OrElse` | server/routes/guide.js:21-24 | A falsy submitted value keeps the stored one. |
| `Guides.Merge` | server/routes/guide.js:21-32 | bio, expertise, pricePerHour and location keep the stored value when the submitted one is falsy. Languages are replaced only when supplied. The image changes only with an upload. Identity and status are kept. |
| `Guides.MergeEmptyForm` | server/routes/guide.js:21-27 | An empty form without a file changes nothing. |
| `Guides.MergeIdempotent` | server/routes/guide.js:21-32 | Submitting the same form twice is submitting it once. |
| `Guides.UpdateProfile` | server/routes/guide.js:15-44 | No requester is 500, no profile 404. Otherwise the merged profile, and with an upload the user's image, are the only changes. |
| `Guides.ProfilePage` | server/routes/guide.js:47-61 | The requester's own profile with the destinations, or 404. |
| `Guides.Home` | server/routes/guide.js:212-215 | A requester is always answered with their profile, possibly null; a missing requester throws. |
| `Guides.NewestBookings` | server/routes/guide.js:72-81 | Exactly the guide's matching bookings, each as often as it is stored, newest first. |
| `Guides.AcceptedRequests` | server/routes/guide.js:63-88 | A user with a guide profile is shown exactly that profile's accepted bookings, each as often as stored, newest first. A user with no profile is redirected to complete it. |
| `Guides.Requests` | server/routes/guide.js:118-140 | A user with a guide profile is shown all of that profile's bookings, each as often as stored, newest first. A user with no profile is redirected. |
| `Guides.Accept` | server/routes/guide.js:92-102 | Sets the booking accepted whatever its prior status or guide. It changes nothing else. |
| `Guides.Decline` | server/routes/guide.js:105-115 | Sets the booking rejected whatever its prior status or guide. It changes nothing else. |
| `Guides.DeclineAfterAccept` | server/routes/guide.js:92-115 | A decline after an accept overrides it. |
| `Guides.AcceptThenListed` | server/routes/guide.js:63-140 | A request to the guide's profile is listed among the accepted ones after it is accepted, and among all requests. |
| `Guides.DeclineThenUnlisted` | server/routes/guide.js:63-140 | A declined request leaves the accepted list and stays among all requests. |
| `Guides.Search` | server/routes/guide.js:143-153 | Exactly the verified guides at the selected location, each as often as stored, in store order; none when no location is selected. |
| `Guides.GuideReviewList` | server/routes/guide.js:226-228 | Exactly the guide's reviews, each as often as it is stored, newest first; so the list is as long as the count of the guide's reviews. |
| `Guides.GuidePage` | server/routes/guide.js:243-279 | The page is shown exactly for an existing guide. "Other guides" are exactly the verified guides with the same location, excluding this one. The page has at most three newest reviews, and `totalReviewsCount` is the number of stored reviews of the guide. A malformed id is 500, an unknown one 404. |
| `Guides.GuideReviews` | server/routes/guide.js:218-240 | Shown exactly for an existing guide: the guide with all its reviews, newest first. A malformed id is 500, an unknown one 404. |
| `Guides.NewGuide` | server/routes/guide.js:163-179 | A new profile belongs to the requester, is pending, and takes expertise from `experience`. |
| `Guides.CompleteProfile` | server/routes/guide.js:155-190 | An existing profile redirects home with no change. Missing languages or uploads are 500. A first submission with languages and both uploads always succeeds: one pending profile is appended and the user's image is set. |
| `Guides.CompleteProfileForm` | server/routes/guide.js:194-207 | With a profile, the JSON redirect home; without one, the destinations. A missing requester throws. |
| `Guides.CompleteProfileKeepsOneGuidePerUser` | server/routes/guide.js:160-181 | Completing a profile never gives a user a second guide profile. |
| `Guides.AppendKeepsOneGuidePerUser` | server/routes/guide.js:160-179 | Appending a profile for a user who has none keeps every user at one profile at most. |
| `Guides.CompletedProfileRedirects` | server/routes/guide.js:194-198 | After completing, the form only points home. |
| `Admin.GuideQueue` | server/routes/admin.js:13-22 | An admin is always shown exactly the pending guides and exactly the verified guides, each as often as stored, in store order. |
| `Admin.SetGuideStatus` | server/routes/admin.js:24-32 | Changes only the status of the guide with the id. An unknown id is 200 with no change. A malformed id throws (no try). |
| `Admin.Approve` | server/routes/admin.js:24-27 | For an admin and an existing guide the answer is 200 and the guide is verified; any change makes the guide verified. |
| `Admin.Reject` | server/routes/admin.js:29-32 | For an admin and an existing guide the answer is 200 and the guide is rejected; any change makes the guide rejected. |
| `Admin.ApprovedGuideSearchable` | server/routes/admin.js:24-27 | An approved guide with a location appears in the search for that location. |
| `Admin.RejectedGuideHidden` | server/routes/admin.js:29-32 | A rejected guide appears in no location search. |
| `Admin.ApprovedGuideBookable` | server/routes/admin.js:24-27 | An approved guide located at a trip's destination is offered on that trip's book-guide page. |
| `Admin.AddDestination` | server/routes/admin.js:47-69 | Missing required fields are 500. Otherwise one destination is appended: mustVisit is the parsed list or empty, and the image URL is `''` without an upload. |
| `Admin.EditDestinationForm` | server/routes/admin.js:72-76 | The destination, or 404; a malformed id throws. |
| `Admin.Amend` | server/routes/admin.js:81-92 | Supplied name, description and best time replace the stored ones. mustVisit is always replaced. imageUrl changes only with an upload. |
| `Admin.AmendIdempotent` | server/routes/admin.js:81-92 | The same edit twice is the edit once. |
| `Admin.EditDestination` | server/routes/admin.js:79-98 | Only the destination with the id is amended. An unknown id is 200 with no change; a malformed id is 500. |
| `Admin.EditThenForm` | server/routes/admin.js:72-98 | After an edit, the edit form shows the amended destination. |
| `Admin.DeleteDestination` | server/routes/admin.js:101-109 | The first destination with the id is removed and the rest keep their order. An unknown id changes nothing. |
| `Admin.AddThenDelete` | server/routes/admin.js:47-109 | Adding a destination under a new id, then deleting that id, restores the store. |
| `Admin.RowOf` | server/routes/admin.js:128-133 | A guide-role user gets the id of a guide whose user matches, or null when there is none. Other users get no guideId. |
| `Admin.UserListing` | server/routes/admin.js:123-140 | An admin is always shown every user, in store order, each joined as above. |
| `Admin.CompletedGuideListed` | server/routes/admin.js:128-133 | After a guide-role user completes a profile, the listing shows that profile's id. |
| `Admin.TripListing` | server/routes/admin.js:142-165 | An admin is always shown every trip, most recently added first, each with exactly its own accepted bookings, as often as stored, in store order. |
| `Admin.BlogListing` | server/routes/admin.js:167-179 | An admin is always shown every post, newest first. |
| `Admin.DeleteBlog` | server/routes/admin.js:181-196 | An unknown post is 404 and a malformed id 500. Otherwise the first post with the id is removed, whoever wrote it, and the rest keep their order. |
| `Admin.DeletedBlogNotFound` | server/routes/admin.js:185-189 | A post an admin deleted is not found afterwards. |
| `Blogs.Index` | server/routes/blogs.js:12-24 | Every post, newest first. |
| `Blogs.Manage` | server/routes/blogs.js:55-67 | A requester is always shown exactly their own posts, each as often as stored, newest first. |
| `Blogs.Create` | server/routes/blogs.js:32-50 | A new post's author and role are the requester's. Its image is the upload's URL or none. Missing title or description is 500. |
| `Blogs.CreateThenManage` | server/routes/blogs.js:32-67 | A post someone writes appears on their manage page. |
| `Blogs.AuthorGate` | server/routes/blogs.js:97-113 | A malformed id is rejected before any lookup, then an unknown post. Only the author passes. |
| `Blogs.EditForm` | server/routes/blogs.js:70-94 | The edit form is shown exactly to the author. |
| `Blogs.Revise` | server/routes/blogs.js:116-122 | Title and description are replaced. The image changes only with an uploaded URL. |
| `Blogs.Update` | server/routes/blogs.js:97-130 | Only the author changes a post, and only that post; the author's update with a title and a description always succeeds. A title or description the schema refuses is 500 with no change. |
| `Blogs.Delete` | server/routes/blogs.js:133-158 | Only the author removes a post. |
| `Blogs.View` | server/routes/blogs.js:160-178 | A malformed id is 500; an unknown post gets the plain message; an existing post is shown. |
| `Blogs.UpdateThenView` | server/routes/blogs.js:97-178 | Readers then see the updated title and description. |
| `Blogs.RemovedIdGone` | server/routes/blogs.js:152 | With unique ids, the removed post's id is no longer present. |
| `Blogs.DeleteThenNotFound` | server/routes/blogs.js:133-178 | A post its author deleted is not found afterwards. |
| `Blogs.OthersCannotChange` | server/routes/blogs.js:111-113 | A non-author's update or delete gets the refusal message and changes nothing. |

## Left out

- Client code under `client/src`: rendering and routing only.
- Database mechanics (connections, `populate`, projections). Sorted queries are modelled by a sort on the key; the order among documents with equal keys is not promised, as MongoDB does not promise it either.
- Foreign calls:
  - bcrypt is an injective encoding (`Secret`).
  - JWT verification is the `getUser` parameter.
  - The `roleCheck` middleware (`allowRoles`) is not part of this model. Every handler is modelled as entered after it has passed.
- Uploads, Cloudinary and e-mail delivery. An upload is its storage URL and file name; whether the OTP mail was sent is a parameter.
- Floating point:
  - `Number(amount)` for budget lines: the amount is taken as an integer.
  - The `Number` cast of a guide's `pricePerHour`: it is kept as the submitted string.
  - Average ratings with `toFixed`: not modelled.
- Date parsing: dates are integer timestamps and a missing date is `None`.
- Concurrency and atomicity: each handler runs alone.
- Fresh document ids and creation times are parameters. Their uniqueness is a precondition only where a lemma needs it.
- Mongoose's acceptance of 12-byte strings as ids: an id is valid exactly when it is 24 hex digits.
- `routes/destinations.js`, `routes/contact.js`, and the admin analytics, destination and contact listings: pass-through reads with no logic.
- The traveller profile routes of `routes/user.js` (remove image, view and update own profile) and logout: single updates with no decision logic.
- `TripPlanner.AddItinerary`: takes the day as an optional integer; the `Number` cast of the form value is not modelled, so a non-numeric day (a cast error on save, unanswered) and a fractional day are not represented.
- `TripPlanner.DeleteItineraryDay`: a trip missing after the gate (deleted in between) is not modelled, because each handler runs alone.
- `Model.Locate`: ids are compared as exact strings. Mongoose casts an id with upper-case hex digits to the same ObjectId as its lower-case form, so the program finds a document the model reports missing. The same holds for every id comparison of the model (`FirstIndex` on ids, `Blocks`, `ReviewFor`, the chat filters). All stored ids are taken to be lower-case.
- `Reviews.CreateReview`: the rating is an optional integer. The schema's `Number` cast also accepts fractional ratings such as 4.5, and a non-numeric rating makes `save` throw outside any try, with no answer; neither is represented.
- `Chat.PostChat`: a `message` that is a JSON number, array or object is not representable (`Option<string>`). In the program `.trim()` throws inside the try and the reply is 500, except for the number 0, which is falsy and gets 400.
- `TripPlanner.AddPacking`: an `item` that is a JSON number or array is not representable; in the program `.trim()` throws inside the try and the reply is 500.
- `TripPlanner.TripTo`: an `undefined` query value is taken to be sent as `null`, matching no stored trip. Mongoose can instead drop an undefined key (its `findById` documentation says `findOne({ _id: undefined })` acts like `findOne({})`); then the as-written duplicate check matches any user's trip to the destination. No Mongoose version is fixed, so the model keeps the `null` reading; `Model.FindOne` makes the same assumption.
- `Admin.Amend`: undefined update keys are taken to be dropped, which is what Mongoose 6 and later do. Mongoose 5 set such keys to `null`, so a field left out of the form would be cleared rather than kept.
- `TripPlanner.UpdateNotes`: missing notes are stored as `None`. Mongoose unsets the field, and the schema default `''` fills it in when the trip is next loaded, so a later read sees `''`.
- `NoResponse` outcomes assume Express 4, where a rejected handler promise is never answered; under Express 5 each would be a 500. No package manifest fixes the version.
- `NoResponse` outcomes also assume that the process survives the unhandled rejection. Node 15 and later exit by default, which stops the server; the model keeps serving with the store unchanged.
- `Bookings.Checked`: `days` and `numberOfPeople` are optional integers; the schema's `Number` cast is not modelled. A non-numeric value makes the first `create` fail inside the try, so the program answers 500 with nothing stored, and a fractional value is stored as it is; neither is represented by `Option<int>`.
- `Chat.Thread`: does not state `|r| <= |messages|`, which follows from the membership statement for duplicate-free stores only.

## Findings

| source | as written | input that shows it | evidently intended | confidence | as-written member | corrected member |
|---|---|---|---|---|---|---|
| server/routes/tripPlanner.js:58 | The duplicate check filters on `req.user._id`, which `checkForAuthentication` never sets (it sets `id`). The model reads that filter as `{user: null, destination}`, which matches only trips with no user, so the check never fires. Under the other reading, where the undefined key is dropped, the filter matches any user's trip to D: the same requester is then refused a second trip, but any other traveler's trip to D blocks the add. | A user who already has a trip to destination D posts `/add/D` again. | Look up `req.user.id`, so a second trip to the same destination is not created. | not executed | `TripPlanner.AddTripAsWrittenDuplicates` | `TripPlanner.AddTripKeepsOneTripPerDestination` |
| server/routes/booking.js:38-58 | Every valid booking request is inserted twice. | A traveler books a guide once; the guide declines the request they see. | One request per submission, so a decline releases the trip. | not executed | `Bookings.DuplicateOutlivesDecline` | `Bookings.DeclineUnblocksDelete` |

=== FILE: accounts.dfy ===
/** Accounts: the user schema's defaults and password hook, and the signup / verify-otp /
    login / public-profile handlers, which together form the verification state machine
    no user -> unverified (with an OTP and its expiry) -> verified (OTP cleared). */
module Accounts {
  import opened Options
  import opened Model
  import Numerals
  import Text

  /** How long an OTP stays valid: ten minutes, in milliseconds. */
  const OtpLifetime: int := 10 * 60 * 1000

  /** The pre-save hook: hash `passwordHash` only when it was modified since the last save.
      Nothing but the password field ever changes; after hashing a plain password exactly
      that password verifies. */
  function PreSave(u: User, passwordModified: bool, salt: nat): (r: User)
    ensures r.(passwordHash := u.passwordHash) == u
    ensures !passwordModified ==> r == u
    ensures passwordModified ==> forall p :: VerifyPassword(r, p) <==> u.passwordHash == Plain(p)
  {
    if passwordModified then u.(passwordHash := Hashed(u.passwordHash, salt)) else u
  }

  /** `verifyPassword`: bcrypt's compare of a plain password with the stored hash. A
      stored value that is not a bcrypt hash never matches. */
  function VerifyPassword(u: User, plain: string): (r: bool)
    ensures !u.passwordHash.Hashed? ==> !r
    ensures u.passwordHash.Hashed? && u.passwordHash.input.Hashed? ==> !r
    ensures forall salt :: u.passwordHash == Hashed(Plain(plain), salt) ==> r
  {
    u.passwordHash.Hashed? && u.passwordHash.input == Plain(plain)
  }

  /** A password assigned and then saved is accepted by `verifyPassword`, and no other is. */
  lemma HashedPasswordVerifies(u: User, password: string, attempt: string, salt: nat)
    ensures VerifyPassword(PreSave(u.(passwordHash := Plain(password)), true, salt), attempt)
            <==> attempt == password
  {
  }

  /** A save that does not touch the password leaves the hash alone, so the password
      keeps working; hashing the hash again (what an unconditional hook would do) would
      lock the user out. */
  lemma SaveWithoutPasswordChange(u: User, password: string, salt: nat, salt': nat)
    requires u.passwordHash == Hashed(Plain(password), salt)
    ensures VerifyPassword(PreSave(u, false, salt'), password)
    ensures !VerifyPassword(PreSave(u, true, salt'), password)
  {
  }

  /** The OTP `Math.floor(100000 + Math.random() * 900000).toString()`; `draw` is the
      integer part of `Math.random() * 900000`. */
  function OtpOf(draw: nat): (otp: string)
    requires draw < 900000
    ensures |otp| == 6
    ensures forall i | 0 <= i < 6 :: Numerals.IsDecimalDigit(otp[i])
    ensures Numerals.ParseInt(otp) == Some(100000 + draw)
  {
    Numerals.SixDigits(100000 + draw);
    Numerals.IntToString(100000 + draw)
  }

  /** Different draws give different OTPs. */
  lemma OtpInjective(a: nat, b: nat)
    requires a < 900000 && b < 900000
    requires OtpOf(a) == OtpOf(b)
    ensures a == b
  {
  }

  /** Where an email stands in the verification state machine. */
  datatype Account = NoAccount | Unverified(otp: Option<string>, otpExpires: Option<Time>) | VerifiedAccount

  function AccountOf(users: seq<User>, email: string): Account {
    match FirstIndex(users, UserEmail, email)
    case None => NoAccount
    case Some(i) =>
      if users[i].isVerified then VerifiedAccount else Unverified(users[i].otp, users[i].otpExpires)
  }

  /** The user `findOne({email})` returns, if any. */
  function UserByEmail(users: seq<User>, email: string): Option<User> {
    match FirstIndex(users, UserEmail, email)
    case None => None
    case Some(i) => Some(users[i])
  }

  /** `role || 'traveler'` followed by the role enum validator (`None`: validation fails). */
  function ChosenRole(role: Option<string>): (r: Option<Role>)
    ensures !Truthy(role) ==> r == Some(Traveler)
    ensures r.Some? && Truthy(role) ==> RoleName(r.value) == role.value
  {
    if Truthy(role) then ParseRole(role.value) else Some(Traveler)
  }

  datatype SignupRequest = SignupRequest(name: Option<string>, email: Option<string>,
                                         password: Option<string>, role: Option<string>)

  datatype SignupOutcome = AlreadyExists | OtpResent | OtpSent | SignupFailed {
    function Status(): int {
      match this
      case AlreadyExists => 400
      case OtpResent => 200
      case OtpSent => 200
      case SignupFailed => 500
    }
  }

  /** A user as `User.create` stores it: the schema defaults fill the profile fields. */
  function NewUser(id: Id, name: Option<string>, email: string, password: string, role: Role,
                   otp: string, otpExpires: Time): User {
    User(id, name, email, Plain(password), role, "", "", "", "", false, Some(otp), Some(otpExpires))
  }

  /** The users after an unverified user at `i` is overwritten: same position, same
      email, nothing else moves. */
  function Overwrite(users: seq<User>, i: nat, u: User): (r: seq<User>)
    requires i < |users| && u.email == users[i].email
    ensures |r| == |users| && r[i] == u
    ensures forall j | 0 <= j < |users| && j != i :: r[j] == users[j]
    ensures forall e :: FirstIndex(r, UserEmail, e) == FirstIndex(users, UserEmail, e)
  {
    var r := users[i := u];
    forall e ensures FirstIndex(r, UserEmail, e) == FirstIndex(users, UserEmail, e) {
      FirstIndexAfterUpdate(users, UserEmail, i, u, e);
    }
    r
  }

  /** The users after a user with a new email is created: it is found at the end. */
  function Register(users: seq<User>, u: User): (r: seq<User>)
    requires FirstIndex(users, UserEmail, u.email).None?
    ensures |r| == |users| + 1 && r[|users|] == u && r[..|users|] == users
    ensures FirstIndex(r, UserEmail, u.email) == Some(|users|)
    ensures forall e | e != u.email :: FirstIndex(r, UserEmail, e) == FirstIndex(users, UserEmail, e)
  {
    var r := users + [u];
    forall e ensures FirstIndex(r, UserEmail, e) ==
                       if e == u.email then Some(|users|) else FirstIndex(users, UserEmail, e) {
      FirstIndexAfterAppend(users, UserEmail, u, e);
    }
    assert r[..|users|] == users;
    r
  }

  /** POST /signup. `draw` is the random OTP choice, `now` the clock, `freshId` the id a new
      document receives, `salt` bcrypt's salt and `mailSent` whether sending the OTP mail
      succeeded (a failure is caught after the user was saved and answers 500). Missing
      credentials are meant to be a 400 page, but with no view engine configured `render`
      throws inside the try, so the catch answers 500. */
  function Signup(store: Store, req: SignupRequest, draw: nat, now: Time, freshId: Id,
                  salt: nat, mailSent: bool): (r: Handled<SignupOutcome>)
    requires draw < 900000
    ensures !Truthy(req.email) || !Truthy(req.password) ==> r == Handled(SignupFailed, store)
    ensures (Truthy(req.email) && Truthy(req.password)
             && AccountOf(store.users, req.email.value).VerifiedAccount?) ==> r == Handled(AlreadyExists, store)
    ensures ChosenRole(req.role).None? ==> r.store == store && !r.out.OtpSent? && !r.out.OtpResent?
    ensures r.store.(users := store.users) == store
    ensures r.out.OtpResent? ==>
              AccountOf(store.users, req.email.value).Unverified? && |r.store.users| == |store.users|
    ensures r.out.OtpSent? ==>
              AccountOf(store.users, req.email.value).NoAccount? && |r.store.users| == |store.users| + 1
  {
    if !Truthy(req.email) || !Truthy(req.password) then Handled(SignupFailed, store)
    else
      var email := req.email.value;
      var found := FirstIndex(store.users, UserEmail, email);
      if found.Some? && store.users[found.value].isVerified then Handled(AlreadyExists, store)
      else
        var otp := OtpOf(draw);
        var expires := now + OtpLifetime;
        match ChosenRole(req.role)
        case None => Handled(SignupFailed, store)
        case Some(role) =>
          if found.Some? then
            var i := found.value;
            var u := store.users[i].(name := req.name, passwordHash := Plain(req.password.value),
                                     role := role, otp := Some(otp), otpExpires := Some(expires));
            Handled(if mailSent then OtpResent else SignupFailed,
                    store.(users := Overwrite(store.users, i, PreSave(u, true, salt))))
          else
            var u := NewUser(freshId, req.name, email, req.password.value, role, otp, expires);
            Handled(if mailSent then OtpSent else SignupFailed,
                    store.(users := Register(store.users, PreSave(u, true, salt))))
  }

  /** Whenever signup writes, the email ends up unverified with the new OTP, expiring ten
      minutes from now, under the chosen role, name and password. */
  lemma SignupIssuesOtp(store: Store, req: SignupRequest, draw: nat, now: Time, freshId: Id,
                        salt: nat, mailSent: bool)
    requires draw < 900000
    ensures var r := Signup(store, req, draw, now, freshId, salt, mailSent);
            r.store != store ==>
              && Truthy(req.email) && Truthy(req.password) && ChosenRole(req.role).Some?
              && AccountOf(r.store.users, req.email.value) == Unverified(Some(OtpOf(draw)), Some(now + OtpLifetime))
              && var u := UserByEmail(r.store.users, req.email.value).value;
                 && u.role == ChosenRole(req.role).value && u.name == req.name
                 && VerifyPassword(u, req.password.value)
  {
  }

  /** A re-signup of an unverified email creates no user: it overwrites name, password,
      role, OTP and expiry in place and keeps id, email and profile fields. */
  lemma ResignupOverwrites(store: Store, req: SignupRequest, draw: nat, now: Time, freshId: Id,
                           salt: nat, mailSent: bool)
    requires draw < 900000
    requires Truthy(req.email) && Truthy(req.password) && ChosenRole(req.role).Some?
    requires AccountOf(store.users, req.email.value).Unverified?
    ensures var r := Signup(store, req, draw, now, freshId, salt, mailSent);
            var i := FirstIndex(store.users, UserEmail, req.email.value).value;
            var old_ := store.users[i];
            && |r.store.users| == |store.users|
            && r.store.users[i] == old_.(name := req.name, passwordHash := Hashed(Plain(req.password.value), salt),
                                        role := ChosenRole(req.role).value, otp := Some(OtpOf(draw)),
                                        otpExpires := Some(now + OtpLifetime))
            && forall j | 0 <= j < |store.users| && j != i :: r.store.users[j] == store.users[j]
  {
  }

  /** Overwriting one user leaves the account of every other email as it was. */
  lemma OverwriteKeepsAccounts(users: seq<User>, i: nat, u: User, other: string)
    requires i < |users| && u.email == users[i].email && other != u.email
    ensures AccountOf(Overwrite(users, i, u), other) == AccountOf(users, other)
  {
  }

  /** Registering a user leaves the account of every other email as it was. */
  lemma RegisterKeepsAccounts(users: seq<User>, u: User, other: string)
    requires FirstIndex(users, UserEmail, u.email).None? && other != u.email
    ensures AccountOf(Register(users, u), other) == AccountOf(users, other)
  {
  }

  /** Signup for one email leaves every other email's account as it was. */
  lemma SignupLeavesOtherEmails(store: Store, req: SignupRequest, draw: nat, now: Time, freshId: Id,
                                salt: nat, mailSent: bool, other: string)
    requires draw < 900000
    requires Truthy(req.email) && other != req.email.value
    ensures AccountOf(Signup(store, req, draw, now, freshId, salt, mailSent).store.users, other)
            == AccountOf(store.users, other)
  {
    var r := Signup(store, req, draw, now, freshId, salt, mailSent);
    var e := req.email.GetOr("");
    var found := FirstIndex(store.users, UserEmail, e);
    if Truthy(req.email) && Truthy(req.password) && !(found.Some? && store.users[found.value].isVerified)
       && ChosenRole(req.role).Some? {
      var role := ChosenRole(req.role).value;
      var otp := OtpOf(draw);
      if found.Some? {
        var i := found.value;
        var u := store.users[i].(name := req.name, passwordHash := Plain(req.password.value),
                                 role := role, otp := Some(otp), otpExpires := Some(now + OtpLifetime));
        assert r.store.users == Overwrite(store.users, i, PreSave(u, true, salt));
        OverwriteKeepsAccounts(store.users, i, PreSave(u, true, salt), other);
      } else {
        var u := NewUser(freshId, req.name, e, req.password.value, role, otp, now + OtpLifetime);
        assert r.store.users == Register(store.users, PreSave(u, true, salt));
        RegisterKeepsAccounts(store.users, PreSave(u, true, salt), other);
      }
    }
  }

  datatype VerifyOutcome = InvalidRequest | AlreadyVerified | IncorrectOtp | OtpExpired | VerifiedOk(redirectUrl: string) {
    function Status(): int {
      match this
      case InvalidRequest => 400
      case AlreadyVerified => 200
      case IncorrectOtp => 400
      case OtpExpired => 400
      case VerifiedOk(_) => 200
    }
  }

  /** Where a freshly authenticated user is sent. */
  function HomeFor(role: Role): (url: string)
    ensures url == "/guide/home" <==> role == Guide
    ensures role != Guide ==> url == "/home"
  {
    if role == Guide then "/guide/home" else "/home"
  }

  /** POST /verify-otp. The OTP check comes before the expiry check, and expiry rejects only
      when `otpExpires < now`. */
  function VerifyOtp(store: Store, email: Option<string>, otp: Option<string>, now: Time): (r: Handled<VerifyOutcome>)
    ensures email.None? ==> r == Handled(InvalidRequest, store)
    ensures r.store.(users := store.users) == store
    ensures email.Some? ==>
      var before := AccountOf(store.users, email.value);
      && (before.NoAccount? ==> r == Handled(InvalidRequest, store))
      && (before.VerifiedAccount? ==> r == Handled(AlreadyVerified, store))
      && (before.Unverified? && otp != before.otp ==> r == Handled(IncorrectOtp, store))
      && ((before.Unverified? && otp == before.otp && before.otpExpires.Some? && before.otpExpires.value < now)
            ==> r == Handled(OtpExpired, store))
      && ((before.Unverified? && otp == before.otp && (before.otpExpires.None? || now <= before.otpExpires.value))
            ==> r.out.VerifiedOk? && AccountOf(r.store.users, email.value) == VerifiedAccount
                && |r.store.users| == |store.users|
                && var u := UserByEmail(r.store.users, email.value).value;
                   var u0 := UserByEmail(store.users, email.value).value;
                   u == u0.(isVerified := true, otp := None, otpExpires := None)
                   && r.out.redirectUrl == HomeFor(u.role))
    ensures email.Some? ==>
              forall e | e != email.value :: AccountOf(r.store.users, e) == AccountOf(store.users, e)
  {
    match FindOne(store.users, UserEmail, email)
    case None => Handled(InvalidRequest, store)
    case Some(i) =>
      var u := store.users[i];
      if u.isVerified then Handled(AlreadyVerified, store)
      else if u.otp != otp then Handled(IncorrectOtp, store)
      else if u.otpExpires.Some? && u.otpExpires.value < now then Handled(OtpExpired, store)
      else
        var v := PreSave(u.(isVerified := true, otp := None, otpExpires := None), false, 0);
        var users := store.users[i := v];
        forall e ensures FirstIndex(users, UserEmail, e) == FirstIndex(store.users, UserEmail, e) {
          FirstIndexAfterUpdate(store.users, UserEmail, i, v, e);
        }
        Handled(VerifiedOk(HomeFor(v.role)), store.(users := users))
  }

  datatype LoginOutcome = LoginFieldsRequired | UserNotFound | NotVerified | InvalidCredentials | LoggedIn(redirectUrl: string) {
    function Status(): int {
      match this
      case LoginFieldsRequired => 400
      case UserNotFound => 404
      case NotVerified => 403
      case InvalidCredentials => 401
      case LoggedIn(_) => 200
    }
  }

  /** POST /login: missing fields, unknown user, unverified user and wrong password are
      checked in that order. Logging in writes nothing. */
  function Login(store: Store, email: Option<string>, password: Option<string>): (r: LoginOutcome)
    ensures !Truthy(email) || !Truthy(password) ==> r == LoginFieldsRequired
    ensures Truthy(email) && Truthy(password) ==>
      var acct := AccountOf(store.users, email.value);
      && (acct.NoAccount? ==> r == UserNotFound)
      && (acct.Unverified? ==> r == NotVerified)
      && (acct.VerifiedAccount? ==>
            var u := UserByEmail(store.users, email.value).value;
            && (!VerifyPassword(u, password.value) ==> r == InvalidCredentials)
            && (VerifyPassword(u, password.value) ==> r == LoggedIn(HomeFor(u.role))))
    ensures r.LoggedIn? ==> (r.redirectUrl == "/guide/home" <==>
                             UserByEmail(store.users, email.value).value.role == Guide)
  {
    if !Truthy(email) || !Truthy(password) then LoginFieldsRequired
    else match FirstIndex(store.users, UserEmail, email.value)
      case None => UserNotFound
      case Some(i) =>
        var u := store.users[i];
        if !u.isVerified then NotVerified
        else if !VerifyPassword(u, password.value) then InvalidCredentials
        else LoggedIn(HomeFor(u.role))
  }

  /** A signup that gets past its checks and sends its mail answers with the OTP: sent to a
      new email, resent to an unverified one. */
  lemma SignupSendsOtp(store: Store, req: SignupRequest, draw: nat, now: Time, freshId: Id, salt: nat)
    requires draw < 900000
    requires Truthy(req.email) && Truthy(req.password) && ChosenRole(req.role).Some?
    requires !AccountOf(store.users, req.email.value).VerifiedAccount?
    ensures var out := Signup(store, req, draw, now, freshId, salt, true).out;
            (out.OtpSent? <==> AccountOf(store.users, req.email.value).NoAccount?)
            && (out.OtpResent? <==> AccountOf(store.users, req.email.value).Unverified?)
  {
  }

  /** A signup that gets past its checks leaves the email unverified, holding the new OTP
      and its expiry, under the chosen role and the new password. */
  lemma SignupLeavesUnverified(store: Store, req: SignupRequest, draw: nat, now: Time, freshId: Id,
                               salt: nat, mailSent: bool)
    requires draw < 900000
    requires Truthy(req.email) && Truthy(req.password) && ChosenRole(req.role).Some?
    requires !AccountOf(store.users, req.email.value).VerifiedAccount?
    ensures var r := Signup(store, req, draw, now, freshId, salt, mailSent);
            && AccountOf(r.store.users, req.email.value) == Unverified(Some(OtpOf(draw)), Some(now + OtpLifetime))
            && var u := UserByEmail(r.store.users, req.email.value).value;
               u.role == ChosenRole(req.role).value && VerifyPassword(u, req.password.value)
  {
    var r := Signup(store, req, draw, now, freshId, salt, mailSent);
    var e := req.email.value;
    var role := ChosenRole(req.role).value;
    var otp := OtpOf(draw);
    match FirstIndex(store.users, UserEmail, e)
    case Some(i) =>
      assert !store.users[i].isVerified;
      var u := store.users[i].(name := req.name, passwordHash := Plain(req.password.value),
                               role := role, otp := Some(otp), otpExpires := Some(now + OtpLifetime));
      var v := PreSave(u, true, salt);
      var users := Overwrite(store.users, i, v);
      assert r.store.users == users;
      assert FirstIndex(users, UserEmail, e) == Some(i) && users[i] == v;
    case None =>
      var u := NewUser(freshId, req.name, e, req.password.value, role, otp, now + OtpLifetime);
      var v := PreSave(u, true, salt);
      var users := Register(store.users, v);
      assert r.store.users == users;
      assert FirstIndex(users, UserEmail, e) == Some(|store.users|) && users[|store.users|] == v;
  }

  /** Signing up, entering the mailed OTP in time and logging in with the same password
      succeeds, whatever state an unverified earlier signup left behind. */
  lemma SignupVerifyLogin(store: Store, req: SignupRequest, draw: nat, now: Time, freshId: Id,
                          salt: nat, later: Time)
    requires draw < 900000
    requires Truthy(req.email) && Truthy(req.password) && ChosenRole(req.role).Some?
    requires !AccountOf(store.users, req.email.value).VerifiedAccount?
    requires later <= now + OtpLifetime
    ensures var s1 := Signup(store, req, draw, now, freshId, salt, true);
            && s1.out.Status() == 200
            && var s2 := VerifyOtp(s1.store, req.email, Some(OtpOf(draw)), later);
               && s2.out.VerifiedOk?
               && Login(s2.store, req.email, req.password) == LoggedIn(HomeFor(ChosenRole(req.role).value))
  {
    SignupSendsOtp(store, req, draw, now, freshId, salt);
    SignupLeavesUnverified(store, req, draw, now, freshId, salt, true);
    var s1 := Signup(store, req, draw, now, freshId, salt, true);
    VerifyThenLogin(s1.store, req.email.value, req.password.value, OtpOf(draw), now + OtpLifetime, later);
  }

  /** An unverified user who enters the OTP by its expiry can then log in with their
      password, and is sent to the home page of their role. */
  lemma VerifyThenLogin(store: Store, email: string, password: string, otp: string, expires: Time, later: Time)
    requires |email| > 0 && |password| > 0
    requires AccountOf(store.users, email) == Unverified(Some(otp), Some(expires)) && later <= expires
    requires VerifyPassword(UserByEmail(store.users, email).value, password)
    ensures var s2 := VerifyOtp(store, Some(email), Some(otp), later);
            && s2.out.VerifiedOk?
            && Login(s2.store, Some(email), Some(password)) == LoggedIn(HomeFor(UserByEmail(store.users, email).value.role))
  {
    var u1 := UserByEmail(store.users, email).value;
    var s2 := VerifyOtp(store, Some(email), Some(otp), later);
    var u2 := UserByEmail(s2.store.users, email).value;
    assert u2 == u1.(isVerified := true, otp := None, otpExpires := None);
    assert VerifyPassword(u2, password);
  }

  /** Every email belongs to at most one user (the unique index on `email`). */
  predicate UniqueEmails(users: seq<User>) {
    forall i, j | 0 <= i < |users| && 0 <= j < |users| && users[i].email == users[j].email :: i == j
  }

  /** A verified user carries no OTP and no expiry. */
  predicate VerifiedHaveNoOtp(users: seq<User>) {
    forall i | 0 <= i < |users| && users[i].isVerified :: users[i].otp.None? && users[i].otpExpires.None?
  }

  /** Every stored password is the bcrypt hash of a plain password. */
  predicate PasswordsHashed(users: seq<User>) {
    forall i | 0 <= i < |users| :: users[i].passwordHash.Hashed? && users[i].passwordHash.input.Plain?
  }

  predicate UsersValid(users: seq<User>) {
    UniqueEmails(users) && VerifiedHaveNoOtp(users) && PasswordsHashed(users)
  }

  /** The facts `UsersValid` asks of a single user. */
  predicate UserValid(u: User) {
    (u.isVerified ==> u.otp.None? && u.otpExpires.None?)
    && u.passwordHash.Hashed? && u.passwordHash.input.Plain?
  }

  lemma OverwriteKeepsUsersValid(users: seq<User>, i: nat, u: User)
    requires UsersValid(users) && i < |users| && u.email == users[i].email && UserValid(u)
    ensures UsersValid(Overwrite(users, i, u))
  {
    var r := Overwrite(users, i, u);
    forall a, b | 0 <= a < |r| && 0 <= b < |r| && r[a].email == r[b].email
      ensures a == b
    {
      assert r[a].email == users[a].email && r[b].email == users[b].email;
    }
  }

  lemma RegisterKeepsUsersValid(users: seq<User>, u: User)
    requires UsersValid(users) && FirstIndex(users, UserEmail, u.email).None? && UserValid(u)
    ensures UsersValid(Register(users, u))
  {
    var r := Register(users, u);
    assert forall j | 0 <= j < |users| :: r[j] == users[j] by {
      forall j | 0 <= j < |users| ensures r[j] == users[j] {
        assert r[j] == r[..|users|][j];
      }
    }
  }

  /** Signup keeps emails unique, keeps verified users OTP-free and stores only hashes. */
  lemma SignupKeepsUsersValid(store: Store, req: SignupRequest, draw: nat, now: Time, freshId: Id,
                              salt: nat, mailSent: bool)
    requires draw < 900000
    requires UsersValid(store.users)
    ensures UsersValid(Signup(store, req, draw, now, freshId, salt, mailSent).store.users)
  {
    var r := Signup(store, req, draw, now, freshId, salt, mailSent);
    var e := req.email.GetOr("");
    var found := FirstIndex(store.users, UserEmail, e);
    if Truthy(req.email) && Truthy(req.password) && !(found.Some? && store.users[found.value].isVerified)
       && ChosenRole(req.role).Some? {
      var role := ChosenRole(req.role).value;
      var otp := OtpOf(draw);
      if found.Some? {
        var i := found.value;
        var u := store.users[i].(name := req.name, passwordHash := Plain(req.password.value),
                                 role := role, otp := Some(otp), otpExpires := Some(now + OtpLifetime));
        assert r.store.users == Overwrite(store.users, i, PreSave(u, true, salt));
        OverwriteKeepsUsersValid(store.users, i, PreSave(u, true, salt));
      } else {
        var u := NewUser(freshId, req.name, e, req.password.value, role, otp, now + OtpLifetime);
        assert r.store.users == Register(store.users, PreSave(u, true, salt));
        RegisterKeepsUsersValid(store.users, PreSave(u, true, salt));
      }
    }
  }

  /** Verification keeps the same three facts. */
  lemma VerifyKeepsUsersValid(store: Store, email: Option<string>, otp: Option<string>, now: Time)
    requires UsersValid(store.users)
    ensures UsersValid(VerifyOtp(store, email, otp, now).store.users)
  {
    var r := VerifyOtp(store, email, otp, now);
    if r.store != store {
      var i := FindOne(store.users, UserEmail, email).value;
      assert forall j | 0 <= j < |store.users| && j != i :: r.store.users[j] == store.users[j];
    }
  }

  datatype ProfileOutcome = ProfileError | ProfileNotFound | ProfileOf(user: User) {
    function Status(): int {
      match this
      case ProfileError => 500
      case ProfileNotFound => 404
      case ProfileOf(_) => 200
    }
  }

  /** GET /:id: only travelers' and admins' profiles are public; a guide's answers 404. */
  function PublicProfile(store: Store, id: string): (r: ProfileOutcome)
    ensures r.ProfileError? <==> !IsObjectId(id)
    ensures r.ProfileOf? ==> r.user in store.users && r.user.id == id && r.user.role != Guide
    ensures Locate(store.users, UserId, id).At? ==>
              (r.ProfileOf? <==> store.users[Locate(store.users, UserId, id).index].role != Guide)
  {
    match Locate(store.users, UserId, id)
    case BadId => ProfileError
    case Missing => ProfileNotFound
    case At(i) =>
      var u := store.users[i];
      if u.role != Traveler && u.role != Admin then
        assert u.role == Guide;
        ProfileNotFound
      else ProfileOf(u)
  }
}

=== FILE: admin.dfy ===
/** The admin routes: vetting guides, maintaining the destination catalogue, and the
    user, trip and blog overviews. Every route sits behind `checkAdmin`. */
module Admin {
  import opened Options
  import opened Model
  import opened Seqs
  import Middleware
  import TripPlanner
  import CommaList
  import Guides
  import Blogs

  /** `checkAdmin` turned away everyone but an authenticated admin. */
  predicate Denied(user: Option<AuthUser>) {
    Middleware.CheckAdmin(user).AdminDenied?
  }

  // ---- Guides ----

  predicate HasStatus(g: GuideProfile, s: GuideStatus) {
    g.status == s
  }

  /** GET /guides: the pending and the verified guides. */
  function GuideQueue(store: Store, user: Option<AuthUser>): (r: Shown<(seq<GuideProfile>, seq<GuideProfile>)>)
    ensures Denied(user) <==> r == Refused(Forbidden)
    ensures r.Shown? ==> forall g :: g in r.view.0 <==> g in store.guides && g.status == GuidePending
    ensures r.Shown? ==> forall g :: g in r.view.1 <==> g in store.guides && g.status == GuideVerified
    ensures !Denied(user) ==> r.Shown?
    ensures r.Shown? ==> IsSubsequence(r.view.0, store.guides) && IsSubsequence(r.view.1, store.guides)
    ensures r.Shown? ==> forall g :: multiset(r.view.0)[g] ==
                           if g.status == GuidePending then multiset(store.guides)[g] else 0
    ensures r.Shown? ==> forall g :: multiset(r.view.1)[g] ==
                           if g.status == GuideVerified then multiset(store.guides)[g] else 0
  {
    if Denied(user) then Refused(Forbidden)
    else
      FilterByCounts(HasStatus, GuidePending, store.guides);
      FilterByCounts(HasStatus, GuideVerified, store.guides);
      Shown((FilterBy(HasStatus, GuidePending, store.guides), FilterBy(HasStatus, GuideVerified, store.guides)))
  }

  /** POST /guides/:id/approve and /reject: `findByIdAndUpdate` outside any try, so a
      malformed id gets no answer; an unknown id is still answered 200. Only the status
      changes. */
  function SetGuideStatus(store: Store, user: Option<AuthUser>, guideId: string, s: GuideStatus): (r: Handled<Reply>)
    ensures Denied(user) ==> r == Handled(Forbidden, store)
    ensures !Denied(user) && !IsObjectId(guideId) ==> r == Handled(NoResponse, store)
    ensures !Denied(user) && Locate(store.guides, GuideId, guideId).Missing? ==> r == Handled(Ok, store)
    ensures !Denied(user) && Locate(store.guides, GuideId, guideId).At? ==>
              var i := Locate(store.guides, GuideId, guideId).index;
              && r.out == Ok
              && |r.store.guides| == |store.guides|
              && r.store.guides[i] == store.guides[i].(status := s)
              && (forall j | 0 <= j < |store.guides| && j != i :: r.store.guides[j] == store.guides[j])
              && r.store.(guides := store.guides) == store
  {
    if Denied(user) then Handled(Forbidden, store)
    else match Locate(store.guides, GuideId, guideId)
      case BadId => Handled(NoResponse, store)
      case Missing => Handled(Ok, store)
      case At(i) => Handled(Ok, store.(guides := store.guides[i := store.guides[i].(status := s)]))
  }

  function Approve(store: Store, user: Option<AuthUser>, guideId: string): (r: Handled<Reply>)
    ensures r.store != store ==>
              && Locate(store.guides, GuideId, guideId).At? && |r.store.guides| == |store.guides|
              && r.store.guides[Locate(store.guides, GuideId, guideId).index].status == GuideVerified
    ensures !Denied(user) && Locate(store.guides, GuideId, guideId).At? ==>
              r.out == Ok && r.store.guides[Locate(store.guides, GuideId, guideId).index].status == GuideVerified
  {
    SetGuideStatus(store, user, guideId, GuideVerified)
  }

  function Reject(store: Store, user: Option<AuthUser>, guideId: string): (r: Handled<Reply>)
    ensures r.store != store ==>
              && Locate(store.guides, GuideId, guideId).At? && |r.store.guides| == |store.guides|
              && r.store.guides[Locate(store.guides, GuideId, guideId).index].status == GuideRejected
    ensures !Denied(user) && Locate(store.guides, GuideId, guideId).At? ==>
              r.out == Ok && r.store.guides[Locate(store.guides, GuideId, guideId).index].status == GuideRejected
  {
    SetGuideStatus(store, user, guideId, GuideRejected)
  }

  /** Approval is what puts a guide into the location search. */
  lemma ApprovedGuideSearchable(store: Store, user: Option<AuthUser>, guideId: string, location: string)
    requires !Denied(user) && Locate(store.guides, GuideId, guideId).At?
    requires store.guides[Locate(store.guides, GuideId, guideId).index].location == Some(location)
    requires location != ""
    ensures var s1 := Approve(store, user, guideId).store;
            s1.guides[Locate(store.guides, GuideId, guideId).index] in Guides.Search(s1, Some(location))
  {
    var i := Locate(store.guides, GuideId, guideId).index;
    var s1 := Approve(store, user, guideId).store;
    assert s1.guides[i] in s1.guides;
  }

  /** An approved guide at a trip's destination is offered on that trip's book-guide page. */
  lemma ApprovedGuideBookable(store: Store, user: Option<AuthUser>, guideId: string, tripId: string, k: nat)
    requires !Denied(user) && Locate(store.guides, GuideId, guideId).At?
    requires Locate(store.trips, TripId, tripId).At?
    requires FirstIndex(store.destinations, DestinationId,
                        store.trips[Locate(store.trips, TripId, tripId).index].destination) == Some(k)
    requires store.guides[Locate(store.guides, GuideId, guideId).index].location == Some(store.destinations[k].name)
    ensures var s1 := Approve(store, user, guideId).store;
            var r := TripPlanner.BookGuide(s1, tripId);
            r.Shown? && s1.guides[Locate(store.guides, GuideId, guideId).index] in r.view
  {
    var i := Locate(store.guides, GuideId, guideId).index;
    var s1 := Approve(store, user, guideId).store;
    assert s1.trips == store.trips && s1.destinations == store.destinations;
    assert s1.guides[i] in s1.guides;
  }

  /** A rejected guide drops out of every location search. */
  lemma RejectedGuideHidden(store: Store, user: Option<AuthUser>, guideId: string, location: Option<string>)
    requires !Denied(user) && Locate(store.guides, GuideId, guideId).At?
    ensures var s1 := Reject(store, user, guideId).store;
            s1.guides[Locate(store.guides, GuideId, guideId).index] !in Guides.Search(s1, location)
  {
  }

  // ---- Destinations ----

  /** A field the schema's `required` rule refuses: missing or empty. */
  predicate Blank(v: Option<string>) {
    !Truthy(v)
  }

  /** POST /destinations/add. A missing name, description or best time fails validation
      inside the try: 500. Without an upload the image URL is the empty string. */
  function AddDestination(store: Store, user: Option<AuthUser>, name: Option<string>, description: Option<string>,
                          bestTime: Option<string>, mustVisit: Option<string>, file: Option<Upload>,
                          freshId: Id): (r: Handled<Reply>)
    ensures Denied(user) ==> r == Handled(Forbidden, store)
    ensures !Denied(user) && (Blank(name) || Blank(description) || Blank(bestTime)) ==> r == Handled(ServerError, store)
    ensures r.out == Ok <==> !Denied(user) && !Blank(name) && !Blank(description) && !Blank(bestTime)
    ensures r.out == Ok ==>
              && r.store.(destinations := store.destinations) == store
              && |r.store.destinations| == |store.destinations| + 1
              && r.store.destinations[..|store.destinations|] == store.destinations
              && var d := r.store.destinations[|store.destinations|];
                 && d.id == freshId && d.name == name.value && d.description == description.value
                 && d.bestTimeToVisit == bestTime.value
                 && d.imageUrl == (if file.Some? then file.value.path else "")
                 && d.mustVisit == CommaList.OptionalList(mustVisit)
  {
    if Denied(user) then Handled(Forbidden, store)
    else if Blank(name) || Blank(description) || Blank(bestTime) then Handled(ServerError, store)
    else
      var d := Destination(freshId, name.value, description.value, bestTime.value,
                           if file.Some? then file.value.path else "", CommaList.OptionalList(mustVisit));
      Handled(Ok, store.(destinations := store.destinations + [d]))
  }

  /** GET /destinations/edit/:id: `findById` outside any try. */
  function EditDestinationForm(store: Store, user: Option<AuthUser>, destinationId: string): (r: Shown<Destination>)
    ensures Denied(user) ==> r == Refused(Forbidden)
    ensures !Denied(user) && !IsObjectId(destinationId) ==> r == Refused(NoResponse)
    ensures !Denied(user) && Locate(store.destinations, DestinationId, destinationId).Missing? ==> r == Refused(NotFound)
    ensures r.Shown? <==> !Denied(user) && Locate(store.destinations, DestinationId, destinationId).At?
    ensures r.Shown? ==> r.view in store.destinations && r.view.id == destinationId
  {
    if Denied(user) then Refused(Forbidden)
    else match Locate(store.destinations, DestinationId, destinationId)
      case BadId => Refused(NoResponse)
      case Missing => Refused(NotFound)
      case At(i) => Shown(store.destinations[i])
  }

  /** The update `findByIdAndUpdate` applies. Keys whose value is `undefined` are dropped
      from the update, so a missing name, description or best time leaves the stored one;
      the must-visit list is always replaced; the image only with an upload. */
  function Amend(d: Destination, name: Option<string>, description: Option<string>, bestTime: Option<string>,
                 mustVisit: Option<string>, file: Option<Upload>): (r: Destination)
    ensures r.id == d.id
    ensures r.name == name.GetOr(d.name) && r.description == description.GetOr(d.description)
    ensures r.bestTimeToVisit == bestTime.GetOr(d.bestTimeToVisit)
    ensures r.mustVisit == CommaList.OptionalList(mustVisit)
    ensures file.Some? ==> r.imageUrl == file.value.path
    ensures file.None? ==> r.imageUrl == d.imageUrl
  {
    d.(name := name.GetOr(d.name), description := description.GetOr(d.description),
       bestTimeToVisit := bestTime.GetOr(d.bestTimeToVisit), mustVisit := CommaList.OptionalList(mustVisit),
       imageUrl := if file.Some? then file.value.path else d.imageUrl)
  }

  /** Submitting the same edit twice is submitting it once. */
  lemma AmendIdempotent(d: Destination, name: Option<string>, description: Option<string>, bestTime: Option<string>,
                        mustVisit: Option<string>, file: Option<Upload>)
    ensures Amend(Amend(d, name, description, bestTime, mustVisit, file), name, description, bestTime, mustVisit, file)
         == Amend(d, name, description, bestTime, mustVisit, file)
  {
  }

  /** POST /destinations/edit/:id. A malformed id is a CastError caught by the try: 500; an
      unknown id is answered 200 without any change. */
  function EditDestination(store: Store, user: Option<AuthUser>, destinationId: string, name: Option<string>,
                           description: Option<string>, bestTime: Option<string>, mustVisit: Option<string>,
                           file: Option<Upload>): (r: Handled<Reply>)
    ensures Denied(user) ==> r == Handled(Forbidden, store)
    ensures !Denied(user) && !IsObjectId(destinationId) ==> r == Handled(ServerError, store)
    ensures !Denied(user) && Locate(store.destinations, DestinationId, destinationId).Missing? ==> r == Handled(Ok, store)
    ensures !Denied(user) && Locate(store.destinations, DestinationId, destinationId).At? ==>
              var i := Locate(store.destinations, DestinationId, destinationId).index;
              && r.out == Ok
              && r.store == store.(destinations := store.destinations[i :=
                                    Amend(store.destinations[i], name, description, bestTime, mustVisit, file)])
  {
    if Denied(user) then Handled(Forbidden, store)
    else match Locate(store.destinations, DestinationId, destinationId)
      case BadId => Handled(ServerError, store)
      case Missing => Handled(Ok, store)
      case At(i) =>
        var d := Amend(store.destinations[i], name, description, bestTime, mustVisit, file);
        Handled(Ok, store.(destinations := store.destinations[i := d]))
  }

  /** After an edit the edit form shows the edited destination. */
  lemma EditThenForm(store: Store, user: Option<AuthUser>, destinationId: string, name: Option<string>,
                     description: Option<string>, bestTime: Option<string>, mustVisit: Option<string>,
                     file: Option<Upload>)
    requires !Denied(user) && Locate(store.destinations, DestinationId, destinationId).At?
    ensures var s1 := EditDestination(store, user, destinationId, name, description, bestTime, mustVisit, file).store;
            var i := Locate(store.destinations, DestinationId, destinationId).index;
            EditDestinationForm(s1, user, destinationId)
              == Shown(Amend(store.destinations[i], name, description, bestTime, mustVisit, file))
  {
    var i := Locate(store.destinations, DestinationId, destinationId).index;
    var d := Amend(store.destinations[i], name, description, bestTime, mustVisit, file);
    FirstIndexAfterUpdate(store.destinations, DestinationId, i, d, destinationId);
  }

  /** POST /destinations/delete/:id: `findByIdAndDelete` inside the try; an unknown id is
      answered 200 without any change. */
  function DeleteDestination(store: Store, user: Option<AuthUser>, destinationId: string): (r: Handled<Reply>)
    ensures Denied(user) ==> r == Handled(Forbidden, store)
    ensures !Denied(user) && !IsObjectId(destinationId) ==> r == Handled(ServerError, store)
    ensures !Denied(user) && Locate(store.destinations, DestinationId, destinationId).Missing? ==> r == Handled(Ok, store)
    ensures !Denied(user) && Locate(store.destinations, DestinationId, destinationId).At? ==>
              && r.out == Ok
              && r.store.(destinations := store.destinations) == store
              && |r.store.destinations| == |store.destinations| - 1
              && IsSubsequence(r.store.destinations, store.destinations)
    ensures !Denied(user) && Locate(store.destinations, DestinationId, destinationId).At? ==>
              var i := Locate(store.destinations, DestinationId, destinationId).index;
              && store.destinations[i].id == destinationId
              && (forall k | 0 <= k < i :: store.destinations[k].id != destinationId)
              && r.store.destinations == store.destinations[..i] + store.destinations[i + 1..]
  {
    if Denied(user) then Handled(Forbidden, store)
    else match Locate(store.destinations, DestinationId, destinationId)
      case BadId => Handled(ServerError, store)
      case Missing => Handled(Ok, store)
      case At(i) =>
        RemoveAtIsSubsequence(store.destinations, i);
        Handled(Ok, store.(destinations := RemoveAt(store.destinations, i)))
  }

  /** Adding a destination under a new id and deleting that id gives back the catalogue. */
  lemma AddThenDelete(store: Store, user: Option<AuthUser>, name: Option<string>, description: Option<string>,
                      bestTime: Option<string>, mustVisit: Option<string>, file: Option<Upload>, freshId: Id)
    requires AddDestination(store, user, name, description, bestTime, mustVisit, file, freshId).out == Ok
    requires IsObjectId(freshId)
    requires forall d | d in store.destinations :: d.id != freshId
    ensures var s1 := AddDestination(store, user, name, description, bestTime, mustVisit, file, freshId).store;
            DeleteDestination(s1, user, freshId) == Handled(Ok, store)
  {
    var s1 := AddDestination(store, user, name, description, bestTime, mustVisit, file, freshId).store;
    var n := |store.destinations|;
    assert forall j | 0 <= j < n :: DestinationId(s1.destinations[j]) != freshId by {
      forall j | 0 <= j < n ensures DestinationId(s1.destinations[j]) != freshId {
        assert s1.destinations[j] == store.destinations[j];
        assert store.destinations[j] in store.destinations;
      }
    }
    FirstIndexAfterAppend(store.destinations, DestinationId, s1.destinations[n], freshId);
    assert FirstIndex(store.destinations, DestinationId, freshId).None?;
    assert RemoveAt(s1.destinations, n) == store.destinations;
  }

  // ---- Overviews ----

  /** A user row of GET /users. `guideId` is absent for users whose role is not guide, and
      for a guide is the id of their guide profile or `null`. */
  datatype UserRow = UserRow(user: User, guideId: Option<Option<Id>>)

  function RowOf(guides: seq<GuideProfile>, u: User): (r: UserRow)
    ensures r.user == u
    ensures r.guideId.Some? <==> u.role == Guide
    ensures r.guideId == Some(None) <==> u.role == Guide && forall g | g in guides :: g.user != u.id
    ensures r.guideId.Some? && r.guideId.value.Some? ==>
              exists g | g in guides :: g.user == u.id && g.id == r.guideId.value.value
  {
    if u.role != Guide then UserRow(u, None)
    else match FirstIndex(guides, GuideUser, u.id)
      case None =>
        assert forall g | g in guides :: g.user != u.id by {
          forall g | g in guides ensures g.user != u.id {
            var k :| 0 <= k < |guides| && guides[k] == g;
            assert GuideUser(guides[k]) != u.id;
          }
        }
        UserRow(u, Some(None))
      case Some(k) =>
        assert guides[k] in guides;
        UserRow(u, Some(Some(guides[k].id)))
  }

  /** GET /users: every user, in store order, each guide joined to their profile. */
  function UserListing(store: Store, user: Option<AuthUser>): (r: Shown<seq<UserRow>>)
    ensures Denied(user) <==> r == Refused(Forbidden)
    ensures !Denied(user) ==> r.Shown?
    ensures r.Shown? ==> |r.view| == |store.users|
    ensures r.Shown? ==> forall k | 0 <= k < |r.view| :: r.view[k] == RowOf(store.guides, store.users[k])
  {
    if Denied(user) then Refused(Forbidden)
    else Shown(seq(|store.users|, k requires 0 <= k < |store.users| => RowOf(store.guides, store.users[k])))
  }

  /** A user who completes a guide profile is listed with its id from then on. */
  lemma CompletedGuideListed(store: Store, requester: AuthUser, form: Guides.ProfileForm, files: Guides.ProfileFiles,
                             freshId: Id, admin: Option<AuthUser>, k: nat)
    requires Guides.CompleteProfile(store, Some(requester), form, files, freshId).out == Ok
    requires !Denied(admin)
    requires k < |store.users| && store.users[k].id == requester.id && store.users[k].role == Guide
    ensures var s1 := Guides.CompleteProfile(store, Some(requester), form, files, freshId).store;
            UserListing(s1, admin).view[k].guideId == Some(Some(freshId))
  {
    var s1 := Guides.CompleteProfile(store, Some(requester), form, files, freshId).store;
    var g := Guides.NewGuide(freshId, requester.id, form, files);
    FirstIndexAfterAppend(store.guides, GuideUser, g, requester.id);
    assert s1.users[k].id == requester.id && s1.users[k].role == Guide;
  }

  /** A trip row of GET /trips: the trip with its accepted bookings. */
  datatype TripRow = TripRow(trip: TripPlan, bookings: seq<BookingRequest>)

  predicate AcceptedOn(b: BookingRequest, tripId: Id) {
    b.trip == tripId && b.status == Accepted
  }

  function AddedNewestFirst(t: TripPlan): int {
    -t.addedAt
  }

  function TripsOf(rows: seq<TripRow>): seq<TripPlan> {
    seq(|rows|, k requires 0 <= k < |rows| => rows[k].trip)
  }

  /** GET /trips: every trip, most recently added first, each with only its own accepted
      bookings. */
  function TripListing(store: Store, user: Option<AuthUser>): (r: Shown<seq<TripRow>>)
    ensures Denied(user) <==> r == Refused(Forbidden)
    ensures !Denied(user) ==> r.Shown?
    ensures r.Shown? ==> multiset(TripsOf(r.view)) == multiset(store.trips)
    ensures r.Shown? ==> SortedBy(AddedNewestFirst, TripsOf(r.view))
    ensures r.Shown? ==> forall k, b | 0 <= k < |r.view| ::
              b in r.view[k].bookings <==> b in store.bookings && b.trip == r.view[k].trip.id && b.status == Accepted
    ensures r.Shown? ==> forall k | 0 <= k < |r.view| :: IsSubsequence(r.view[k].bookings, store.bookings)
    ensures r.Shown? ==> forall k, b | 0 <= k < |r.view| ::
              multiset(r.view[k].bookings)[b] ==
                if b.trip == r.view[k].trip.id && b.status == Accepted then multiset(store.bookings)[b] else 0
  {
    if Denied(user) then Refused(Forbidden)
    else
      var trips := SortBy(AddedNewestFirst, store.trips);
      var rows := seq(|trips|, k requires 0 <= k < |trips| => TripRow(trips[k], FilterBy(AcceptedOn, trips[k].id, store.bookings)));
      assert TripsOf(rows) == trips;
      forall k | 0 <= k < |rows|
        ensures forall b :: multiset(rows[k].bookings)[b] ==
                  if AcceptedOn(b, rows[k].trip.id) then multiset(store.bookings)[b] else 0
      {
        FilterByCounts(AcceptedOn, trips[k].id, store.bookings);
      }
      Shown(rows)
  }

  // ---- Blogs ----

  /** GET /blogs: every post, newest first, with the guide catalogue. */
  function BlogListing(store: Store, user: Option<AuthUser>): (r: Shown<(seq<Blog>, seq<GuideProfile>)>)
    ensures Denied(user) <==> r == Refused(Forbidden)
    ensures !Denied(user) ==> r.Shown?
    ensures r.Shown? ==> multiset(r.view.0) == multiset(store.blogs) && SortedBy(Blogs.NewestFirst, r.view.0)
  {
    if Denied(user) then Refused(Forbidden) else Shown(Blogs.Index(store))
  }

  /** POST /blogs/:blogId/delete: an admin removes any post, whoever wrote it. A malformed id
      is a CastError caught by the try: 500; an unknown one 404. */
  function DeleteBlog(store: Store, user: Option<AuthUser>, blogId: string): (r: Handled<Reply>)
    ensures Denied(user) ==> r == Handled(Forbidden, store)
    ensures !Denied(user) && !IsObjectId(blogId) ==> r == Handled(ServerError, store)
    ensures !Denied(user) && Locate(store.blogs, BlogId, blogId).Missing? ==> r == Handled(NotFound, store)
    ensures r.out == Ok <==> !Denied(user) && Locate(store.blogs, BlogId, blogId).At?
    ensures r.out == Ok ==>
              && r.store.(blogs := store.blogs) == store
              && |r.store.blogs| == |store.blogs| - 1
              && IsSubsequence(r.store.blogs, store.blogs)
    ensures r.out == Ok ==>
              var i := Locate(store.blogs, BlogId, blogId).index;
              && store.blogs[i].id == blogId
              && (forall k | 0 <= k < i :: store.blogs[k].id != blogId)
              && r.store.blogs == store.blogs[..i] + store.blogs[i + 1..]
  {
    if Denied(user) then Handled(Forbidden, store)
    else match Locate(store.blogs, BlogId, blogId)
      case BadId => Handled(ServerError, store)
      case Missing => Handled(NotFound, store)
      case At(i) =>
        RemoveAtIsSubsequence(store.blogs, i);
        Handled(Ok, store.(blogs := RemoveAt(store.blogs, i)))
  }

  /** A post an admin deleted is gone for readers too. */
  lemma DeletedBlogNotFound(store: Store, user: Option<AuthUser>, blogId: string)
    requires Blogs.UniqueBlogIds(store.blogs)
    requires DeleteBlog(store, user, blogId).out == Ok
    ensures Blogs.View(DeleteBlog(store, user, blogId).store, blogId) == Refused(Message("Blog not found"))
  {
    Blogs.RemovedIdGone(store.blogs, Locate(store.blogs, BlogId, blogId).index);
  }
}

=== FILE: blogs.dfy ===
/** The blog routes: anyone signed in may write a blog post, only its author may edit,
    update or delete it, and everyone may read them. */
module Blogs {
  import opened Options
  import opened Model
  import opened Seqs

  function NewestFirst(b: Blog): int {
    -b.createdAt
  }

  predicate ByAuthor(b: Blog, author: Id) {
    b.author == author
  }

  /** GET /: every post, newest first, with the guide catalogue. */
  function Index(store: Store): (r: (seq<Blog>, seq<GuideProfile>))
    ensures multiset(r.0) == multiset(store.blogs)
    ensures SortedBy(NewestFirst, r.0)
    ensures r.1 == store.guides
  {
    (SortBy(NewestFirst, store.blogs), store.guides)
  }

  /** GET /manage: the requester's own posts, newest first. Reading `req.user.id` without a
      requester throws inside the try: 500. */
  function Manage(store: Store, user: Option<AuthUser>): (r: Shown<seq<Blog>>)
    ensures user.None? <==> r == Refused(ServerError)
    ensures user.Some? ==> r.Shown?
    ensures r.Shown? ==> forall b :: b in r.view <==> b in store.blogs && b.author == user.value.id
    ensures r.Shown? ==> SortedBy(NewestFirst, r.view)
    ensures r.Shown? ==>
              forall b :: multiset(r.view)[b] == if b.author == user.value.id then multiset(store.blogs)[b] else 0
  {
    if user.None? then Refused(ServerError)
    else
      var mine := FilterBy(ByAuthor, user.value.id, store.blogs);
      var r := SortBy(NewestFirst, mine);
      FilterByCounts(ByAuthor, user.value.id, store.blogs);
      assert forall b :: b in r <==> b in multiset(mine);
      Shown(r)
  }

  /** A title or description the schema's `required` rule refuses: missing or empty. */
  predicate Incomplete(title: Option<string>, description: Option<string>) {
    !Truthy(title) || !Truthy(description)
  }

  /** POST /new: the post carries the requester as author and the requester's role; an
      upload's URL becomes its image. A post the schema refuses is a 500. */
  function Create(store: Store, user: Option<AuthUser>, title: Option<string>, description: Option<string>,
                  file: Option<Upload>, freshId: Id, now: Time): (r: Handled<Reply>)
    ensures (user.None? || Incomplete(title, description)) ==> r == Handled(ServerError, store)
    ensures r.out == Ok <==> user.Some? && !Incomplete(title, description)
    ensures r.out == Ok ==>
              && |r.store.blogs| == |store.blogs| + 1 && r.store.blogs[..|store.blogs|] == store.blogs
              && r.store.(blogs := store.blogs) == store
              && var b := r.store.blogs[|store.blogs|];
                 && b.author == user.value.id && b.role == user.value.role
                 && b.title == title.value && b.description == description.value
                 && b.image == (if file.Some? then Some(file.value.path) else None)
  {
    if user.None? || Incomplete(title, description) then Handled(ServerError, store)
    else
      var image := if file.Some? then Some(file.value.path) else None;
      var b := Blog(freshId, title.value, description.value, image, user.value.id, user.value.role, now);
      Handled(Ok, store.(blogs := store.blogs + [b]))
  }

  /** A post someone writes shows up on their manage page. */
  lemma CreateThenManage(store: Store, user: Option<AuthUser>, title: Option<string>, description: Option<string>,
                         file: Option<Upload>, freshId: Id, now: Time)
    requires Create(store, user, title, description, file, freshId, now).out == Ok
    ensures var s1 := Create(store, user, title, description, file, freshId, now).store;
            s1.blogs[|store.blogs|] in Manage(s1, user).view
  {
    var s1 := Create(store, user, title, description, file, freshId, now).store;
    assert s1.blogs[|store.blogs|] in s1.blogs;
  }

  /** The outcome of the checks the edit, update and delete routes share. */
  datatype Access = Deny(reply: Reply) | Grant(index: nat)

  /** The shared checks in their order: a malformed id is answered before any lookup, then an
      unknown post, then (reading `req.user.id`) a missing requester, then anyone but the
      author. `refusal` is the route's own wording for the last case. */
  function AuthorGate(store: Store, user: Option<AuthUser>, blogId: string, refusal: string): (r: Access)
    ensures !IsObjectId(blogId) ==> r == Deny(Message("Invalid blog ID"))
    ensures Locate(store.blogs, BlogId, blogId).Missing? ==> r == Deny(Message("Blog not found"))
    ensures r.Grant? <==>
              && Locate(store.blogs, BlogId, blogId).At? && user.Some?
              && store.blogs[Locate(store.blogs, BlogId, blogId).index].author == user.value.id
    ensures r.Grant? ==> r.index == Locate(store.blogs, BlogId, blogId).index
    ensures Locate(store.blogs, BlogId, blogId).At? && user.Some? && r.Deny? ==> r.reply == Message(refusal)
  {
    match Locate(store.blogs, BlogId, blogId)
    case BadId => Deny(Message("Invalid blog ID"))
    case Missing => Deny(Message("Blog not found"))
    case At(i) =>
      if user.None? then Deny(ServerError)
      else if store.blogs[i].author != user.value.id then Deny(Message(refusal))
      else Grant(i)
  }

  const EditRefusal := "You are not authorized to edit this blog"
  const DeleteRefusal := "You are not authorized to delete this blog"

  /** GET /:id/edit: the post, for its author only. */
  function EditForm(store: Store, user: Option<AuthUser>, blogId: string): (r: Shown<Blog>)
    ensures r.Shown? <==> AuthorGate(store, user, blogId, EditRefusal).Grant?
    ensures r.Refused? ==> r.reply == AuthorGate(store, user, blogId, EditRefusal).reply
    ensures r.Shown? ==> r.view in store.blogs && r.view.id == blogId && r.view.author == user.value.id
  {
    match AuthorGate(store, user, blogId, EditRefusal)
    case Deny(reply) => Refused(reply)
    case Grant(i) => Shown(store.blogs[i])
  }

  /** The document `blog.save()` writes: title and description are replaced, the image only
      when an upload with a URL came along. */
  function Revise(b: Blog, title: Option<string>, description: Option<string>, file: Option<Upload>): (r: Blog)
    requires !Incomplete(title, description)
    ensures r.id == b.id && r.author == b.author && r.role == b.role && r.createdAt == b.createdAt
    ensures r.title == title.value && r.description == description.value
    ensures (file.Some? && file.value.path != "") ==> r.image == Some(file.value.path)
    ensures !(file.Some? && file.value.path != "") ==> r.image == b.image
  {
    b.(title := title.value, description := description.value,
       image := if file.Some? && file.value.path != "" then Some(file.value.path) else b.image)
  }

  /** PUT /:id. Only the author changes a post; a revision the schema refuses is a 500. */
  function Update(store: Store, user: Option<AuthUser>, blogId: string, title: Option<string>,
                  description: Option<string>, file: Option<Upload>): (r: Handled<Reply>)
    ensures AuthorGate(store, user, blogId, EditRefusal).Deny? ==>
              r == Handled(AuthorGate(store, user, blogId, EditRefusal).reply, store)
    ensures AuthorGate(store, user, blogId, EditRefusal).Grant? && Incomplete(title, description) ==>
              r == Handled(ServerError, store)
    ensures r.out == Ok ==>
              && AuthorGate(store, user, blogId, EditRefusal).Grant? && !Incomplete(title, description)
              && var i := AuthorGate(store, user, blogId, EditRefusal).index;
                 && store.blogs[i].author == user.value.id
                 && r.store == store.(blogs := store.blogs[i := Revise(store.blogs[i], title, description, file)])
    ensures r.out != Ok ==> r.store == store
    ensures AuthorGate(store, user, blogId, EditRefusal).Grant? && !Incomplete(title, description) ==> r.out == Ok
  {
    match AuthorGate(store, user, blogId, EditRefusal)
    case Deny(reply) => Handled(reply, store)
    case Grant(i) =>
      if Incomplete(title, description) then Handled(ServerError, store)
      else Handled(Ok, store.(blogs := store.blogs[i := Revise(store.blogs[i], title, description, file)]))
  }

  /** POST /:id/delete. Only the author removes a post. */
  function Delete(store: Store, user: Option<AuthUser>, blogId: string): (r: Handled<Reply>)
    ensures AuthorGate(store, user, blogId, DeleteRefusal).Deny? ==>
              r == Handled(AuthorGate(store, user, blogId, DeleteRefusal).reply, store)
    ensures r.out == Ok <==> AuthorGate(store, user, blogId, DeleteRefusal).Grant?
    ensures r.out == Ok ==>
              && var i := AuthorGate(store, user, blogId, DeleteRefusal).index;
                 && store.blogs[i].author == user.value.id
                 && r.store == store.(blogs := RemoveAt(store.blogs, i))
  {
    match AuthorGate(store, user, blogId, DeleteRefusal)
    case Deny(reply) => Handled(reply, store)
    case Grant(i) => Handled(Ok, store.(blogs := RemoveAt(store.blogs, i)))
  }

  /** GET /:id: the id is not checked first, so a malformed one is a CastError caught by the
      try: 500. An unknown post is answered with a plain message. */
  function View(store: Store, blogId: string): (r: Shown<(Blog, seq<GuideProfile>)>)
    ensures !IsObjectId(blogId) <==> r == Refused(ServerError)
    ensures Locate(store.blogs, BlogId, blogId).Missing? <==> r == Refused(Message("Blog not found"))
    ensures r.Shown? <==> Locate(store.blogs, BlogId, blogId).At?
    ensures r.Shown? ==> r.view.0 in store.blogs && r.view.0.id == blogId && r.view.1 == store.guides
  {
    match Locate(store.blogs, BlogId, blogId)
    case BadId => Refused(ServerError)
    case Missing => Refused(Message("Blog not found"))
    case At(i) => Shown((store.blogs[i], store.guides))
  }

  /** An author's update is what readers then see. */
  lemma UpdateThenView(store: Store, user: Option<AuthUser>, blogId: string, title: Option<string>,
                       description: Option<string>, file: Option<Upload>)
    requires Update(store, user, blogId, title, description, file).out == Ok
    ensures var r := View(Update(store, user, blogId, title, description, file).store, blogId);
            r.Shown? && r.view.0.title == title.value && r.view.0.description == description.value
  {
    var i := AuthorGate(store, user, blogId, EditRefusal).index;
    FirstIndexAfterUpdate(store.blogs, BlogId, i, Revise(store.blogs[i], title, description, file), blogId);
  }

  /** Post ids are unique (they are the collection's `_id`). */
  predicate UniqueBlogIds(blogs: seq<Blog>) {
    forall i, j | 0 <= i < j < |blogs| :: blogs[i].id != blogs[j].id
  }

  /** With unique ids, removing a post removes the only post with its id. */
  lemma {:induction false} RemovedIdGone(blogs: seq<Blog>, i: nat)
    requires UniqueBlogIds(blogs) && i < |blogs|
    ensures forall j | 0 <= j < |RemoveAt(blogs, i)| :: BlogId(RemoveAt(blogs, i)[j]) != blogs[i].id
  {
    var rest := RemoveAt(blogs, i);
    forall j | 0 <= j < |rest| ensures BlogId(rest[j]) != blogs[i].id {
      if j < i {
        assert rest[j] == blogs[j];
      } else {
        assert rest[j] == blogs[j + 1];
      }
    }
  }

  /** Once its author deletes a post, reading it finds nothing. */
  lemma DeleteThenNotFound(store: Store, user: Option<AuthUser>, blogId: string)
    requires UniqueBlogIds(store.blogs)
    requires Delete(store, user, blogId).out == Ok
    ensures View(Delete(store, user, blogId).store, blogId) == Refused(Message("Blog not found"))
  {
    RemovedIdGone(store.blogs, AuthorGate(store, user, blogId, DeleteRefusal).index);
  }

  /** Someone other than the author changes nothing, whatever they send. */
  lemma OthersCannotChange(store: Store, user: AuthUser, blogId: string, title: Option<string>,
                           description: Option<string>, file: Option<Upload>)
    requires Locate(store.blogs, BlogId, blogId).At?
    requires store.blogs[Locate(store.blogs, BlogId, blogId).index].author != user.id
    ensures Update(store, Some(user), blogId, title, description, file) == Handled(Message(EditRefusal), store)
    ensures Delete(store, Some(user), blogId) == Handled(Message(DeleteRefusal), store)
  {
  }
}

=== FILE: bookings.dfy ===
/** Booking requests: the booking form lookup, the date-window checks and creation of a
    request, and the status change a guide's accept or decline makes. */
module Bookings {
  import opened Options
  import opened Model
  import opened Seqs
  import TripPlanner
  import Middleware

  /** GET /:guideId?trip=…: the guide and the trip the booking form is for. No try: a
      malformed guide id or trip id throws and gets no answer; an absent `trip` query
      finds nothing. */
  function BookingForm(store: Store, guideId: string, tripId: Option<string>): (r: Shown<(GuideProfile, TripPlan)>)
    ensures !IsObjectId(guideId) ==> r == Refused(NoResponse)
    ensures IsObjectId(guideId) && tripId.Some? && !IsObjectId(tripId.value) ==> r == Refused(NoResponse)
    ensures r.Shown? <==>
              Locate(store.guides, GuideId, guideId).At? && LocateOptional(store.trips, TripId, tripId).At?
    ensures r.Refused? && IsObjectId(guideId) && (tripId.None? || IsObjectId(tripId.value)) ==>
              r == Refused(NotFound)
    ensures r.Shown? ==> r.view.0 in store.guides && r.view.0.id == guideId
                         && r.view.1 in store.trips && Some(r.view.1.id) == tripId
  {
    var guide := Locate(store.guides, GuideId, guideId);
    var trip := LocateOptional(store.trips, TripId, tripId);
    if guide.BadId? || trip.BadId? then Refused(NoResponse)
    else if guide.Missing? || trip.Missing? then Refused(NotFound)
    else Shown((store.guides[guide.index], store.trips[trip.index]))
  }

  /** The booking request form. Dates are `None` when missing or not parseable; `days` and
      `numberOfPeople` are `None` when missing. */
  datatype Request = Request(startDate: Option<Time>, endDate: Option<Time>, tripId: Option<string>,
                             days: Option<int>, numberOfPeople: Option<int>, message: Option<string>)

  /** A booking inside its trip: `trip.start <= start` and `end <= trip.end`. A date that is
      not a valid date compares false both ways, so it is never outside. */
  predicate OutsideTrip(req: Request, trip: TripPlan) {
    (req.startDate.Some? && req.startDate.value < trip.startDate)
    || (req.endDate.Some? && req.endDate.value > trip.endDate)
  }

  /** The record `BookingRequest.create` stores: status defaults to pending. */
  function NewBooking(id: Id, tripId: Id, traveler: Id, guideId: Id, req: Request, now: Time): (b: BookingRequest)
    requires req.days.Some? && req.numberOfPeople.Some? && req.startDate.Some? && req.endDate.Some?
    ensures b.status == Pending && b.trip == tripId && b.traveler == traveler && b.guide == guideId
  {
    BookingRequest(id, tripId, traveler, guideId, req.days.value, req.numberOfPeople.value, req.message,
                   req.startDate.value, req.endDate.value, Pending, now)
  }

  /** Everything `create` needs: a requester, a well-formed guide id and the required fields. */
  predicate Creatable(user: Option<AuthUser>, guideId: string, req: Request) {
    user.Some? && IsObjectId(guideId) && req.days.Some? && req.numberOfPeople.Some?
    && req.startDate.Some? && req.endDate.Some?
  }

  /** The checks of POST /:guideId up to the first insert, in their order: reversed dates
      (400, before any lookup), then the trip lookup with no try around it (a malformed,
      absent or unknown trip id throws and gets no answer), then the window (400), then
      the inserts, which fail inside the try (500) when `create` cannot store the record. */
  function Checked(store: Store, user: Option<AuthUser>, guideId: string, req: Request): (r: Option<Reply>)
    ensures TripPlanner.StartsAfterEnd(req.startDate, req.endDate) ==> r == Some(BadRequest)
    ensures r.None? ==>
              && req.tripId.Some? && Locate(store.trips, TripId, req.tripId.value).At?
              && !OutsideTrip(req, store.trips[Locate(store.trips, TripId, req.tripId.value).index])
              && Creatable(user, guideId, req)
    ensures r.Some? ==> r.value != Ok
    ensures !TripPlanner.StartsAfterEnd(req.startDate, req.endDate) ==>
              var trip := LocateOptional(store.trips, TripId, req.tripId);
              && (!trip.At? ==> r == Some(NoResponse))
              && (trip.At? && OutsideTrip(req, store.trips[trip.index]) ==> r == Some(BadRequest))
              && (trip.At? && !OutsideTrip(req, store.trips[trip.index]) ==>
                    (r.None? <==> Creatable(user, guideId, req))
                    && (!Creatable(user, guideId, req) ==> r == Some(ServerError)))
  {
    if TripPlanner.StartsAfterEnd(req.startDate, req.endDate) then Some(BadRequest)
    else match LocateOptional(store.trips, TripId, req.tripId)
      case BadId => Some(NoResponse)
      case Missing => Some(NoResponse)
      case At(i) =>
        if OutsideTrip(req, store.trips[i]) then Some(BadRequest)
        else if !Creatable(user, guideId, req) then Some(ServerError)
        else None
  }

  /** POST /:guideId as written: the request is inserted twice, identical but for the id. */
  function CreateBookingAsWritten(store: Store, user: Option<AuthUser>, guideId: string, req: Request,
                                  id1: Id, id2: Id, now: Time): (r: Handled<Reply>)
    ensures Checked(store, user, guideId, req).Some? ==>
              r == Handled(Checked(store, user, guideId, req).value, store)
    ensures Checked(store, user, guideId, req).None? ==>
              && r.out == Ok
              && r.store == store.(bookings := store.bookings +
                                   [NewBooking(id1, req.tripId.value, user.value.id, guideId, req, now),
                                    NewBooking(id2, req.tripId.value, user.value.id, guideId, req, now)])
  {
    match Checked(store, user, guideId, req)
    case Some(reply) => Handled(reply, store)
    case None =>
      var b1 := NewBooking(id1, req.tripId.value, user.value.id, guideId, req, now);
      var b2 := NewBooking(id2, req.tripId.value, user.value.id, guideId, req, now);
      Handled(Ok, store.(bookings := store.bookings + [b1, b2]))
  }

  /** POST /:guideId with a single insert. */
  function CreateBooking(store: Store, user: Option<AuthUser>, guideId: string, req: Request,
                         id: Id, now: Time): (r: Handled<Reply>)
    ensures Checked(store, user, guideId, req).Some? ==>
              r == Handled(Checked(store, user, guideId, req).value, store)
    ensures Checked(store, user, guideId, req).None? ==>
              && r.out == Ok
              && r.store == store.(bookings := store.bookings +
                                   [NewBooking(id, req.tripId.value, user.value.id, guideId, req, now)])
  {
    match Checked(store, user, guideId, req)
    case Some(reply) => Handled(reply, store)
    case None =>
      Handled(Ok, store.(bookings := store.bookings + [NewBooking(id, req.tripId.value, user.value.id, guideId, req, now)]))
  }

  /** Reversed dates are refused with 400 before the trip is looked up, so even an unknown
      trip id gets an answer, and nothing is created. */
  lemma ReversedDatesRefusedFirst(store: Store, user: Option<AuthUser>, guideId: string, req: Request, id: Id, now: Time)
    requires TripPlanner.StartsAfterEnd(req.startDate, req.endDate)
    ensures CreateBooking(store, user, guideId, req, id, now) == Handled(BadRequest, store)
  {
  }

  /** A booking that starts before its trip or ends after it is refused with 400. */
  lemma OutsideTripRefused(store: Store, user: Option<AuthUser>, guideId: string, req: Request, id: Id, now: Time)
    requires !TripPlanner.StartsAfterEnd(req.startDate, req.endDate)
    requires req.tripId.Some? && Locate(store.trips, TripId, req.tripId.value).At?
    requires OutsideTrip(req, store.trips[Locate(store.trips, TripId, req.tripId.value).index])
    ensures CreateBooking(store, user, guideId, req, id, now) == Handled(BadRequest, store)
  {
  }

  /** A created booking lies inside its trip's dates and starts no later than it ends. */
  lemma CreatedBookingInsideTrip(store: Store, user: Option<AuthUser>, guideId: string, req: Request, id: Id, now: Time)
    requires CreateBooking(store, user, guideId, req, id, now).out == Ok
    ensures var b := CreateBooking(store, user, guideId, req, id, now).store.bookings[|store.bookings|];
            && b.status == Pending && b.traveler == user.value.id && b.guide == guideId
            && b.startDate <= b.endDate
            && exists t | t in store.trips :: t.id == b.trip && t.startDate <= b.startDate && b.endDate <= t.endDate
  {
    var i := Locate(store.trips, TripId, req.tripId.value).index;
    assert store.trips[i] in store.trips;
  }

  /** The traveler who owns the trip is shown a request they have just created on the
      trip's booking page, as long as their user document exists. */
  lemma CreatedBookingShown(store: Store, user: Option<AuthUser>, guideId: string, req: Request, id: Id, now: Time)
    requires CreateBooking(store, user, guideId, req, id, now).out == Ok
    requires IsObjectId(id) && FirstIndex(store.bookings, BookingId, id).None?
    requires Middleware.Authorize(store, user, req.tripId.value).Pass?
    requires FirstIndex(store.users, UserId, user.value.id).Some?
    ensures var s1 := CreateBooking(store, user, guideId, req, id, now).store;
            TripPlanner.BookingDetails(s1, user, req.tripId.value, id) == Shown(s1.bookings[|store.bookings|])
  {
    var s1 := CreateBooking(store, user, guideId, req, id, now).store;
    var n := |store.bookings|;
    FirstIndexAfterAppend(store.bookings, BookingId, s1.bookings[n], id);
    assert Locate(s1.bookings, BookingId, id) == At(n);
    assert s1.trips == store.trips && s1.users == store.users;
    assert Middleware.Authorize(s1, user, req.tripId.value) == Middleware.Authorize(store, user, req.tripId.value);
  }

  /** The as-written handler creates two pending records for the same trip, traveler and
      guide. */
  lemma CreateBookingAsWrittenTwice(store: Store, user: Option<AuthUser>, guideId: string, req: Request,
                                    id1: Id, id2: Id, now: Time)
    requires CreateBookingAsWritten(store, user, guideId, req, id1, id2, now).out == Ok
    ensures var after := CreateBookingAsWritten(store, user, guideId, req, id1, id2, now).store.bookings;
            var n := |store.bookings|;
            && |after| == n + 2
            && after[n].(id := id2) == after[n + 1]
            && after[n].status == Pending && after[n + 1].status == Pending
  {
  }

  /** `booking.status = s; booking.save()` on the booking with id `id`: only the status of
      that booking changes, whatever it was before. */
  function SetStatus(bookings: seq<BookingRequest>, i: nat, s: BookingStatus): (r: seq<BookingRequest>)
    requires i < |bookings|
    ensures |r| == |bookings| && r[i] == bookings[i].(status := s)
    ensures forall j | 0 <= j < |bookings| && j != i :: r[j] == bookings[j]
  {
    bookings[i := bookings[i].(status := s)]
  }

  /** Accept or decline: the lookup throws on a malformed id and the status assignment on a
      missing booking, both inside the try: 500. */
  function Decide(store: Store, bookingId: string, s: BookingStatus): (r: Handled<Reply>)
    ensures !Locate(store.bookings, BookingId, bookingId).At? ==> r == Handled(ServerError, store)
    ensures Locate(store.bookings, BookingId, bookingId).At? ==>
              r == Handled(Ok, store.(bookings := SetStatus(store.bookings, Locate(store.bookings, BookingId, bookingId).index, s)))
  {
    match Locate(store.bookings, BookingId, bookingId)
    case BadId => Handled(ServerError, store)
    case Missing => Handled(ServerError, store)
    case At(i) => Handled(Ok, store.(bookings := SetStatus(store.bookings, i, s)))
  }

  /** Deciding twice the same way is deciding once, and the later decision wins. */
  lemma DecideLastWins(store: Store, bookingId: string, s: BookingStatus, s': BookingStatus)
    ensures Decide(Decide(store, bookingId, s).store, bookingId, s') == Decide(store, bookingId, s')
  {
    var s1 := Decide(store, bookingId, s).store;
    match Locate(store.bookings, BookingId, bookingId)
    case BadId =>
    case Missing =>
    case At(i) =>
      FirstIndexAfterUpdate(store.bookings, BookingId, i, s1.bookings[i], bookingId);
      assert s1.bookings[i := s1.bookings[i].(status := s')] == store.bookings[i := store.bookings[i].(status := s')];
  }

  /** With the duplicate insert, declining the request the guide sees leaves its twin
      pending, so the traveler still cannot delete the trip. */
  lemma DuplicateOutlivesDecline(store: Store, user: Option<AuthUser>, guideId: string, req: Request,
                                 id1: Id, id2: Id, now: Time)
    requires CreateBookingAsWritten(store, user, guideId, req, id1, id2, now).out == Ok
    requires IsObjectId(id1) && FirstIndex(store.bookings, BookingId, id1).None? && id1 != id2
    ensures var s1 := CreateBookingAsWritten(store, user, guideId, req, id1, id2, now).store;
            var s2 := Decide(s1, id1, Rejected).store;
            TripPlanner.DeleteTrip(s2, req.tripId.value).out != Ok
  {
    var s1 := CreateBookingAsWritten(store, user, guideId, req, id1, id2, now).store;
    var n := |store.bookings|;
    FirstIndexAfterAppend(store.bookings, BookingId, s1.bookings[n], id1);
    assert s1.bookings == store.bookings + [s1.bookings[n]] + [s1.bookings[n + 1]];
    FirstIndexAfterAppend(store.bookings + [s1.bookings[n]], BookingId, s1.bookings[n + 1], id1);
    var s2 := Decide(s1, id1, Rejected).store;
    assert s2.bookings[n + 1] == s1.bookings[n + 1];
    assert s2.bookings[n + 1] in s2.bookings && TripPlanner.Blocks(s2.bookings[n + 1], req.tripId.value);
  }

  /** With a single insert, declining the request unblocks the trip's deletion when it was
      the trip's only open request. */
  lemma DeclineUnblocksDelete(store: Store, user: Option<AuthUser>, guideId: string, req: Request,
                              id: Id, now: Time)
    requires CreateBooking(store, user, guideId, req, id, now).out == Ok
    requires IsObjectId(id) && FirstIndex(store.bookings, BookingId, id).None?
    requires forall b | b in store.bookings :: !TripPlanner.Blocks(b, req.tripId.value)
    ensures var s1 := CreateBooking(store, user, guideId, req, id, now).store;
            var s2 := Decide(s1, id, Rejected).store;
            TripPlanner.DeleteTrip(s2, req.tripId.value).out == Ok
  {
    var s1 := CreateBooking(store, user, guideId, req, id, now).store;
    var n := |store.bookings|;
    FirstIndexAfterAppend(store.bookings, BookingId, s1.bookings[n], id);
    var s2 := Decide(s1, id, Rejected).store;
    assert Locate(s1.bookings, BookingId, id) == At(n);
    forall b | b in s2.bookings ensures !TripPlanner.Blocks(b, req.tripId.value) {
      var k :| 0 <= k < |s2.bookings| && s2.bookings[k] == b;
      if k < n {
        assert b == store.bookings[k];
      }
    }
    assert IsObjectId(req.tripId.value);
  }
}

=== FILE: chat.dfy ===
/** The chat attached to a booking: who may read and post, how a posted message is
    cleaned, and the order messages are listed in. */
module Chat {
  import opened Options
  import opened Model
  import opened Seqs
  import Text

  /** `booking.guide.user._id` after populating the guide and its user: `None` when the
      guide document or its user document is gone (reading `_id` of null then throws). */
  function GuideUserOf(store: Store, b: BookingRequest): (r: Option<Id>)
    ensures r.Some? ==> exists g | g in store.guides :: g.id == b.guide && g.user == r.value
    ensures r.Some? ==> exists u | u in store.users :: u.id == r.value
  {
    match FirstIndex(store.guides, GuideId, b.guide)
    case None => None
    case Some(k) =>
      var g := store.guides[k];
      assert g in store.guides;
      match FirstIndex(store.users, UserId, g.user)
      case None => None
      case Some(j) =>
        assert store.users[j] in store.users;
        Some(g.user)
  }

  /** The participant check: the booking's traveler, the user behind its guide, or an admin. */
  predicate MayChat(user: AuthUser, traveler: Id, guideUser: Id) {
    user.id == traveler || user.id == guideUser || user.role == Admin
  }

  predicate InBooking(m: ChatMessage, bookingId: Id) {
    m.booking == bookingId
  }

  function SentAt(m: ChatMessage): int {
    m.createdAt
  }

  /** `ChatMessage.find({booking}).sort('createdAt')`: the booking's messages, oldest first. */
  function Thread(messages: seq<ChatMessage>, bookingId: Id): (r: seq<ChatMessage>)
    ensures forall m :: m in r <==> m in messages && m.booking == bookingId
    ensures SortedBy(SentAt, r)
  {
    var mine := FilterBy(InBooking, bookingId, messages);
    var r := SortBy(SentAt, mine);
    forall m ensures m in r <==> m in messages && m.booking == bookingId {
      assert m in r <==> m in multiset(mine);
      assert m in mine <==> m in messages && InBooking(m, bookingId);
    }
    r
  }

  datatype ChatView = ChatView(booking: BookingRequest, messages: seq<ChatMessage>)

  /** GET /:bookingId. Everything is inside the try: a malformed id, a missing requester,
      and a traveler, guide or guide user document that is gone all answer 500. */
  function ReadChat(store: Store, user: Option<AuthUser>, bookingId: string): (r: Shown<ChatView>)
    ensures !IsObjectId(bookingId) ==> r == Refused(ServerError)
    ensures Locate(store.bookings, BookingId, bookingId).Missing? ==> r == Refused(NotFound)
    ensures r.Shown? ==>
              && user.Some? && Locate(store.bookings, BookingId, bookingId).At?
              && var b := store.bookings[Locate(store.bookings, BookingId, bookingId).index];
                 && r.view.booking == b
                 && GuideUserOf(store, b).Some?
                 && MayChat(user.value, b.traveler, GuideUserOf(store, b).value)
                 && r.view.messages == Thread(store.messages, bookingId)
    ensures (Locate(store.bookings, BookingId, bookingId).At? && user.Some?
             && var b := store.bookings[Locate(store.bookings, BookingId, bookingId).index];
                FirstIndex(store.users, UserId, b.traveler).Some? && GuideUserOf(store, b).Some?) ==>
              var b := store.bookings[Locate(store.bookings, BookingId, bookingId).index];
              (r.Shown? <==> MayChat(user.value, b.traveler, GuideUserOf(store, b).value))
              && (r.Refused? ==> r.reply == Forbidden)
  {
    match Locate(store.bookings, BookingId, bookingId)
    case BadId => Refused(ServerError)
    case Missing => Refused(NotFound)
    case At(i) =>
      var b := store.bookings[i];
      if user.None? || FirstIndex(store.users, UserId, b.traveler).None? then Refused(ServerError)
      else match GuideUserOf(store, b)
        case None => Refused(ServerError)
        case Some(guideUser) =>
          if !MayChat(user.value, b.traveler, guideUser) then Refused(Forbidden)
          else Shown(ChatView(b, Thread(store.messages, bookingId)))
  }

  /** `!message || message.trim() === ''`. */
  predicate EmptyMessage(message: Option<string>) {
    message.None? || Text.IsBlank(message.value)
  }

  /** POST /:bookingId. `req.user.id` is read first, so a missing requester is a 500; an
      empty message is refused before the booking is looked up. */
  function PostChat(store: Store, user: Option<AuthUser>, bookingId: string, message: Option<string>,
                    freshId: Id, now: Time): (r: Handled<Reply>)
    ensures user.None? ==> r == Handled(ServerError, store)
    ensures user.Some? && EmptyMessage(message) ==> r == Handled(BadRequest, store)
    ensures user.Some? && !EmptyMessage(message) && Locate(store.bookings, BookingId, bookingId).Missing? ==>
              r == Handled(NotFound, store)
    ensures r.out == Forbidden ==>
              && user.Some? && Locate(store.bookings, BookingId, bookingId).At?
              && var b := store.bookings[Locate(store.bookings, BookingId, bookingId).index];
                 GuideUserOf(store, b).Some? && !MayChat(user.value, b.traveler, GuideUserOf(store, b).value)
    ensures r.out == Ok ==>
              && user.Some? && !EmptyMessage(message) && Locate(store.bookings, BookingId, bookingId).At?
              && var b := store.bookings[Locate(store.bookings, BookingId, bookingId).index];
                 && GuideUserOf(store, b).Some? && MayChat(user.value, b.traveler, GuideUserOf(store, b).value)
                 && r.store == store.(messages := store.messages +
                                      [ChatMessage(freshId, bookingId, user.value.id, Text.Trim(message.value), now)])
    ensures r.out != Ok ==> r.store == store
    ensures user.Some? && !EmptyMessage(message) && Locate(store.bookings, BookingId, bookingId).At? ==>
              var b := store.bookings[Locate(store.bookings, BookingId, bookingId).index];
              && (GuideUserOf(store, b).None? ==> r == Handled(ServerError, store))
              && (GuideUserOf(store, b).Some? && MayChat(user.value, b.traveler, GuideUserOf(store, b).value) ==>
                    r.out == Ok)
  {
    if user.None? then Handled(ServerError, store)
    else if EmptyMessage(message) then Handled(BadRequest, store)
    else match Locate(store.bookings, BookingId, bookingId)
      case BadId => Handled(ServerError, store)
      case Missing => Handled(NotFound, store)
      case At(i) =>
        var b := store.bookings[i];
        match GuideUserOf(store, b)
        case None => Handled(ServerError, store)
        case Some(guideUser) =>
          if !MayChat(user.value, b.traveler, guideUser) then Handled(Forbidden, store)
          else
            var m := ChatMessage(freshId, bookingId, user.value.id, Text.Trim(message.value), now);
            Handled(Ok, store.(messages := store.messages + [m]))
  }

  /** A stored message is the non-empty, trimmed input, sent by the requester. */
  lemma PostedMessageTrimmed(store: Store, user: Option<AuthUser>, bookingId: string, message: Option<string>,
                             freshId: Id, now: Time)
    requires PostChat(store, user, bookingId, message, freshId, now).out == Ok
    ensures var m := PostChat(store, user, bookingId, message, freshId, now).store.messages[|store.messages|];
            && m.sender == user.value.id && m.booking == bookingId
            && |m.message| > 0 && Text.IsTrimmed(m.message)
  {
  }

  /** A message a participant posts shows up when that participant reads the chat, as long
      as the traveler's user document exists. */
  lemma PostThenRead(store: Store, user: Option<AuthUser>, bookingId: string, message: Option<string>,
                     freshId: Id, now: Time)
    requires PostChat(store, user, bookingId, message, freshId, now).out == Ok
    requires FirstIndex(store.users, UserId, store.bookings[Locate(store.bookings, BookingId, bookingId).index].traveler).Some?
    ensures var s1 := PostChat(store, user, bookingId, message, freshId, now).store;
            var r := ReadChat(s1, user, bookingId);
            && r.Shown?
            && s1.messages[|store.messages|] in r.view.messages
  {
    var s1 := PostChat(store, user, bookingId, message, freshId, now).store;
    var b := store.bookings[Locate(store.bookings, BookingId, bookingId).index];
    assert GuideUserOf(s1, b) == GuideUserOf(store, b);
    assert s1.messages[|store.messages|] in s1.messages;
  }
}

=== FILE: comma_list.dfy ===
/** The comma-list reader shared by five handlers: `s.split(',').map(x => x.trim())`. */
module CommaList {
  import opened Options
  import Text

  /** `map(x => x.trim())`. */
  function TrimAll(parts: seq<string>): (r: seq<string>)
    ensures |r| == |parts|
    ensures forall i | 0 <= i < |r| :: r[i] == Text.Trim(parts[i])
    decreases |parts|
  {
    if |parts| == 0 then [] else [Text.Trim(parts[0])] + TrimAll(parts[1..])
  }

  /** `s.split(',').map(x => x.trim())`: one entry per comma-separated piece, each trimmed. */
  function ParseList(s: string): (r: seq<string>)
    ensures |r| == Text.Count(s, ',') + 1
    ensures forall i | 0 <= i < |r| :: Text.IsTrimmed(r[i])
    ensures forall i | 0 <= i < |r| :: ',' !in r[i]
    ensures |r| == |Text.Split(s, ',')|
    ensures forall i | 0 <= i < |r| :: r[i] == Text.Trim(Text.Split(s, ',')[i])
  {
    var pieces := Text.Split(s, ',');
    TrimmedPieces(pieces);
    TrimAll(pieces)
  }

  lemma TrimmedPieces(pieces: seq<string>)
    requires forall i | 0 <= i < |pieces| :: ',' !in pieces[i]
    ensures forall i | 0 <= i < |pieces| :: Text.IsTrimmed(TrimAll(pieces)[i])
    ensures forall i | 0 <= i < |pieces| :: ',' !in TrimAll(pieces)[i]
  {
    forall i | 0 <= i < |pieces| ensures ',' !in TrimAll(pieces)[i] {
      TrimKeepsAbsent(pieces[i], ',');
    }
  }

  /** Trimming never introduces a character. */
  lemma TrimKeepsAbsent(s: string, c: char)
    requires c !in s
    ensures c !in Text.Trim(s)
  {
    var t := Text.TrimStart(s);
    assert forall x | x in t :: x in s;
    var r := Text.TrimEnd(t);
    assert forall x | x in r :: x in t;
  }

  /** `v ? v.split(',').map(x => x.trim()) : []`: the list an optional form field denotes. */
  function OptionalList(v: Option<string>): (r: seq<string>)
    ensures !Truthy(v) ==> r == []
    ensures Truthy(v) ==> |r| == Text.Count(v.value, ',') + 1
    ensures Truthy(v) ==> r == ParseList(v.value)
  {
    if Truthy(v) then ParseList(v.value) else []
  }

  /** An empty field still yields one (empty) entry. */
  lemma ParseEmpty()
    ensures ParseList("") == [""]
  {
  }

  /** A blank piece between two commas is kept as an empty entry, never dropped. */
  lemma BlankPiecesKept(s: string, i: nat)
    requires i < |Text.Split(s, ',')|
    requires Text.IsBlank(Text.Split(s, ',')[i])
    ensures ParseList(s)[i] == ""
  {
    var pieces := Text.Split(s, ',');
    assert ParseList(s) == TrimAll(pieces);
    assert |Text.Trim(pieces[i])| == 0;
  }

  /** Reading a list written with `join(',')` gives the list back, provided each entry is
      already trimmed and has no comma. */
  lemma ParseJoined(items: seq<string>)
    requires |items| > 0
    requires forall i | 0 <= i < |items| :: Text.IsTrimmed(items[i]) && ',' !in items[i]
    ensures ParseList(Text.Join(items, ',')) == items
  {
    Text.SplitJoin(items, ',');
  }

  /** Writing the parsed list back and reading it again changes nothing. */
  lemma ParseStable(s: string)
    ensures ParseList(Text.Join(ParseList(s), ',')) == ParseList(s)
  {
    ParseJoined(ParseList(s));
  }
}

=== FILE: guides.dfy ===
/** The guide routes: a guide's own profile (completing it once, then merging edits), the
    booking requests addressed to a guide and the accept / decline decisions, and the
    catalogue queries over verified guides. */
module Guides {
  import opened Options
  import opened Model
  import opened Seqs
  import CommaList
  import TripPlanner
  import Bookings

  /** `Guide.findOne({user})`. */
  function GuideOf(store: Store, userId: Id): (r: Option<nat>)
    ensures r.Some? ==> r.value < |store.guides| && store.guides[r.value].user == userId
    ensures r.None? <==> forall i | 0 <= i < |store.guides| :: store.guides[i].user != userId
  {
    FirstIndex(store.guides, GuideUser, userId)
  }

  /** `User.findByIdAndUpdate(id, {profileImage: path})`: no user with that id, no change. */
  function SetUserImage(users: seq<User>, id: Id, path: string): (r: seq<User>)
    ensures |r| == |users|
    ensures forall j | 0 <= j < |users| :: r[j] == (if FirstIndex(users, UserId, id) == Some(j)
                                                   then users[j].(profileImage := path) else users[j])
  {
    match FirstIndex(users, UserId, id)
    case None => users
    case Some(j) => users[j := users[j].(profileImage := path)]
  }

  /** The profile form. `expertise` is what the edit form sends, `experience` what the
      complete-profile form sends. */
  datatype ProfileForm = ProfileForm(bio: Option<string>, expertise: Option<string>, experience: Option<string>,
                                     pricePerHour: Option<string>, location: Option<string>,
                                     languages: Option<string>)

  /** `submitted || old`. */
  function OrElse(submitted: Option<string>, stored: Option<string>): (r: Option<string>)
    ensures Truthy(submitted) ==> r == submitted
    ensures !Truthy(submitted) ==> r == stored
  {
    if Truthy(submitted) then submitted else stored
  }

  /** The merge POST /profile makes: a falsy submitted field keeps the stored value,
      languages are replaced only when supplied, and an upload replaces the profile image. */
  function Merge(g: GuideProfile, form: ProfileForm, file: Option<Upload>): (r: GuideProfile)
    ensures r.id == g.id && r.user == g.user && r.idProof == g.idProof && r.status == g.status
    ensures r.bio == OrElse(form.bio, g.bio) && r.expertise == OrElse(form.expertise, g.expertise)
    ensures r.pricePerHour == OrElse(form.pricePerHour, g.pricePerHour)
    ensures r.location == OrElse(form.location, g.location)
    ensures r.languages == if Truthy(form.languages) then CommaList.ParseList(form.languages.value) else g.languages
    ensures r.profileImage == if file.Some? then Image(Some(file.value.path), Some(file.value.filename)) else g.profileImage
  {
    g.(bio := OrElse(form.bio, g.bio),
       expertise := OrElse(form.expertise, g.expertise),
       pricePerHour := OrElse(form.pricePerHour, g.pricePerHour),
       location := OrElse(form.location, g.location),
       languages := if Truthy(form.languages) then CommaList.ParseList(form.languages.value) else g.languages,
       profileImage := if file.Some? then Image(Some(file.value.path), Some(file.value.filename)) else g.profileImage)
  }

  /** Submitting an empty form without a file changes nothing. */
  lemma MergeEmptyForm(g: GuideProfile, bio: Option<string>, expertise: Option<string>, experience: Option<string>,
                       price: Option<string>, location: Option<string>, languages: Option<string>)
    requires !Truthy(bio) && !Truthy(expertise) && !Truthy(price) && !Truthy(location) && !Truthy(languages)
    ensures Merge(g, ProfileForm(bio, expertise, experience, price, location, languages), None) == g
  {
  }

  /** Merging the same form twice is merging it once. */
  lemma MergeIdempotent(g: GuideProfile, form: ProfileForm, file: Option<Upload>)
    ensures Merge(Merge(g, form, file), form, file) == Merge(g, form, file)
  {
  }

  /** POST /profile. Inside the try: no requester is a 500, no guide profile a 404. */
  function UpdateProfile(store: Store, user: Option<AuthUser>, form: ProfileForm, file: Option<Upload>): (r: Handled<Reply>)
    ensures user.None? ==> r == Handled(ServerError, store)
    ensures user.Some? && GuideOf(store, user.value.id).None? ==> r == Handled(NotFound, store)
    ensures user.Some? && GuideOf(store, user.value.id).Some? ==>
              var i := GuideOf(store, user.value.id).value;
              && r.out == Ok
              && r.store.guides == store.guides[i := Merge(store.guides[i], form, file)]
              && r.store.users == (if file.Some? then SetUserImage(store.users, user.value.id, file.value.path) else store.users)
              && r.store.(guides := store.guides, users := store.users) == store
  {
    if user.None? then Handled(ServerError, store)
    else match GuideOf(store, user.value.id)
      case None => Handled(NotFound, store)
      case Some(i) =>
        var users := if file.Some? then SetUserImage(store.users, user.value.id, file.value.path) else store.users;
        Handled(Ok, store.(guides := store.guides[i := Merge(store.guides[i], form, file)], users := users))
  }

  /** GET /profile: the requester's guide profile with the destination catalogue. */
  function ProfilePage(store: Store, user: Option<AuthUser>): (r: Shown<(GuideProfile, seq<Destination>)>)
    ensures user.None? ==> r == Refused(ServerError)
    ensures user.Some? ==> (r.Shown? <==> GuideOf(store, user.value.id).Some?)
    ensures r.Refused? && user.Some? ==> r.reply == NotFound
    ensures r.Shown? ==> r.view.0.user == user.value.id && r.view.0 in store.guides && r.view.1 == store.destinations
  {
    if user.None? then Refused(ServerError)
    else match GuideOf(store, user.value.id)
      case None => Refused(NotFound)
      case Some(i) => Shown((store.guides[i], store.destinations))
  }

  /** GET /home: `findOne({user: req.user.id})` outside any try; the answer may be null. */
  function Home(store: Store, user: Option<AuthUser>): (r: Shown<Option<GuideProfile>>)
    ensures user.None? <==> r == Refused(NoResponse)
    ensures user.Some? ==> r.Shown?
    ensures r.Shown? ==> (r.view.Some? <==> GuideOf(store, user.value.id).Some?)
    ensures r.Shown? && r.view.Some? ==> r.view.value in store.guides && r.view.value.user == user.value.id
  {
    if user.None? then Refused(NoResponse)
    else match GuideOf(store, user.value.id)
      case None => Shown(None)
      case Some(i) => Shown(Some(store.guides[i]))
  }

  // ---- Requests addressed to a guide ----

  predicate ForGuide(b: BookingRequest, guideId: Id) {
    b.guide == guideId
  }

  predicate AcceptedFor(b: BookingRequest, guideId: Id) {
    b.guide == guideId && b.status == Accepted
  }

  /** The guide's bookings passing `keep`, newest first. */
  function NewestBookings(bookings: seq<BookingRequest>, keep: (BookingRequest, Id) -> bool, guideId: Id): (r: seq<BookingRequest>)
    ensures forall b :: b in r <==> b in bookings && keep(b, guideId)
    ensures forall b :: multiset(r)[b] == if keep(b, guideId) then multiset(bookings)[b] else 0
    ensures SortedBy(TripPlanner.NewestFirst, r)
  {
    var mine := FilterBy(keep, guideId, bookings);
    var r := SortBy(TripPlanner.NewestFirst, mine);
    FilterByCounts(keep, guideId, bookings);
    forall b ensures b in r <==> b in bookings && keep(b, guideId) {
      assert b in r <==> b in multiset(mine);
    }
    r
  }

  /** GET /bookings: the accepted requests of the requester's guide profile, newest first;
      a guide without a profile is sent to complete it. */
  function AcceptedRequests(store: Store, user: Option<AuthUser>): (r: Shown<seq<BookingRequest>>)
    ensures user.None? ==> r == Refused(ServerError)
    ensures user.Some? && GuideOf(store, user.value.id).None? ==> r == Refused(Redirect("/guide/complete-profile"))
    ensures r.Shown? ==>
              && user.Some? && GuideOf(store, user.value.id).Some?
              && var g := store.guides[GuideOf(store, user.value.id).value];
                 && (forall b :: b in r.view <==> b in store.bookings && b.guide == g.id && b.status == Accepted)
                 && (forall b :: multiset(r.view)[b] ==
                       if b.guide == g.id && b.status == Accepted then multiset(store.bookings)[b] else 0)
                 && SortedBy(TripPlanner.NewestFirst, r.view)
    ensures user.Some? && GuideOf(store, user.value.id).Some? ==> r.Shown?
  {
    if user.None? then Refused(ServerError)
    else match GuideOf(store, user.value.id)
      case None => Refused(Redirect("/guide/complete-profile"))
      case Some(i) => Shown(NewestBookings(store.bookings, AcceptedFor, store.guides[i].id))
  }

  /** GET /requests: every request to the requester's guide profile, newest first. */
  function Requests(store: Store, user: Option<AuthUser>): (r: Shown<seq<BookingRequest>>)
    ensures user.None? ==> r == Refused(ServerError)
    ensures user.Some? && GuideOf(store, user.value.id).None? ==> r == Refused(Redirect("/guide/complete-profile"))
    ensures r.Shown? ==>
              && user.Some? && GuideOf(store, user.value.id).Some?
              && var g := store.guides[GuideOf(store, user.value.id).value];
                 && (forall b :: b in r.view <==> b in store.bookings && b.guide == g.id)
                 && (forall b :: multiset(r.view)[b] == if b.guide == g.id then multiset(store.bookings)[b] else 0)
                 && SortedBy(TripPlanner.NewestFirst, r.view)
    ensures user.Some? && GuideOf(store, user.value.id).Some? ==> r.Shown?
  {
    if user.None? then Refused(ServerError)
    else match GuideOf(store, user.value.id)
      case None => Refused(Redirect("/guide/complete-profile"))
      case Some(i) => Shown(NewestBookings(store.bookings, ForGuide, store.guides[i].id))
  }

  /** POST /requests/:id/accept: any requester with the guide role may accept any request,
      whatever its status was. */
  function Accept(store: Store, bookingId: string): (r: Handled<Reply>)
    ensures !Locate(store.bookings, BookingId, bookingId).At? ==> r == Handled(ServerError, store)
    ensures Locate(store.bookings, BookingId, bookingId).At? ==>
              var i := Locate(store.bookings, BookingId, bookingId).index;
              && r.out == Ok && |r.store.bookings| == |store.bookings|
              && r.store.bookings[i] == store.bookings[i].(status := Accepted)
              && (forall j | 0 <= j < |store.bookings| && j != i :: r.store.bookings[j] == store.bookings[j])
              && r.store.(bookings := store.bookings) == store
  {
    Bookings.Decide(store, bookingId, Accepted)
  }

  /** POST /requests/:id/decline, the same with status rejected. */
  function Decline(store: Store, bookingId: string): (r: Handled<Reply>)
    ensures !Locate(store.bookings, BookingId, bookingId).At? ==> r == Handled(ServerError, store)
    ensures Locate(store.bookings, BookingId, bookingId).At? ==>
              var i := Locate(store.bookings, BookingId, bookingId).index;
              && r.out == Ok && |r.store.bookings| == |store.bookings|
              && r.store.bookings[i] == store.bookings[i].(status := Rejected)
              && (forall j | 0 <= j < |store.bookings| && j != i :: r.store.bookings[j] == store.bookings[j])
              && r.store.(bookings := store.bookings) == store
  {
    Bookings.Decide(store, bookingId, Rejected)
  }

  /** A request to the requester's guide profile is listed among the accepted ones once it
      is accepted, and among all requests whatever the decision. */
  lemma AcceptThenListed(store: Store, user: AuthUser, bookingId: string)
    requires GuideOf(store, user.id).Some? && Locate(store.bookings, BookingId, bookingId).At?
    requires store.bookings[Locate(store.bookings, BookingId, bookingId).index].guide
             == store.guides[GuideOf(store, user.id).value].id
    ensures var i := Locate(store.bookings, BookingId, bookingId).index;
            var s1 := Accept(store, bookingId).store;
            && AcceptedRequests(s1, Some(user)).Shown?
            && s1.bookings[i] in AcceptedRequests(s1, Some(user)).view
            && s1.bookings[i] in Requests(s1, Some(user)).view
  {
    var i := Locate(store.bookings, BookingId, bookingId).index;
    var s1 := Accept(store, bookingId).store;
    assert s1.guides == store.guides;
    assert s1.bookings[i] in s1.bookings;
  }

  /** A declined request leaves the accepted list but stays among all requests. */
  lemma DeclineThenUnlisted(store: Store, user: AuthUser, bookingId: string)
    requires GuideOf(store, user.id).Some? && Locate(store.bookings, BookingId, bookingId).At?
    requires store.bookings[Locate(store.bookings, BookingId, bookingId).index].guide
             == store.guides[GuideOf(store, user.id).value].id
    ensures var i := Locate(store.bookings, BookingId, bookingId).index;
            var s1 := Decline(store, bookingId).store;
            && AcceptedRequests(s1, Some(user)).Shown?
            && s1.bookings[i] !in AcceptedRequests(s1, Some(user)).view
            && s1.bookings[i] in Requests(s1, Some(user)).view
  {
    var i := Locate(store.bookings, BookingId, bookingId).index;
    var s1 := Decline(store, bookingId).store;
    assert s1.guides == store.guides;
    assert s1.bookings[i] in s1.bookings;
  }

  /** Declining an accepted request takes it back: nothing checks the prior status. */
  lemma DeclineAfterAccept(store: Store, bookingId: string)
    ensures Decline(Accept(store, bookingId).store, bookingId) == Decline(store, bookingId)
  {
    Bookings.DecideLastWins(store, bookingId, Accepted, Rejected);
  }

  // ---- Catalogue queries ----

  /** GET /?location=…: verified guides at the selected location, none when nothing is
      selected. */
  function Search(store: Store, location: Option<string>): (r: seq<GuideProfile>)
    ensures !Truthy(location) ==> r == []
    ensures Truthy(location) ==> forall g :: g in r <==> g in store.guides && VerifiedAt(g, location.value)
    ensures IsSubsequence(r, store.guides) || r == []
    ensures Truthy(location) ==>
              forall g :: multiset(r)[g] == if VerifiedAt(g, location.value) then multiset(store.guides)[g] else 0
  {
    if Truthy(location) then
      FilterByCounts(VerifiedAt, location.value, store.guides);
      FilterBy(VerifiedAt, location.value, store.guides)
    else []
  }

  /** `{_id: {$ne: guide._id}, location: guide.location, status: 'verified'}`. A guide with
      no location is compared as `null`, which matches the other guides with no location. */
  predicate OtherVerifiedAt(g: GuideProfile, self: GuideProfile) {
    g.id != self.id && g.location == self.location && g.status == GuideVerified
  }

  predicate ReviewFor(v: Review, guideId: Id) {
    v.guideId == guideId
  }

  function ReviewNewestFirst(v: Review): int {
    -v.createdAt
  }

  /** The reviews of a guide, newest first: every review of the guide as often as it is
      stored, so the list is as long as the count of the guide's reviews. */
  function GuideReviewList(reviews: seq<Review>, guideId: Id): (r: seq<Review>)
    ensures forall v :: v in r <==> v in reviews && v.guideId == guideId
    ensures forall v :: multiset(r)[v] == if v.guideId == guideId then multiset(reviews)[v] else 0
    ensures |r| == CountWhere(ReviewFor, guideId, reviews)
    ensures SortedBy(ReviewNewestFirst, r)
  {
    var mine := FilterBy(ReviewFor, guideId, reviews);
    var r := SortBy(ReviewNewestFirst, mine);
    FilterByCounts(ReviewFor, guideId, reviews);
    assert |r| == |multiset(r)| == |multiset(mine)| == |mine|;
    forall v ensures v in r <==> v in reviews && v.guideId == guideId {
      assert v in r <==> v in multiset(mine);
    }
    r
  }

  datatype GuidePageView = GuidePageView(guide: GuideProfile, otherGuides: seq<GuideProfile>,
                                         reviews: seq<Review>, totalReviewsCount: nat)

  /** GET /:id: the guide, the other verified guides at its location, its three newest
      reviews and its review count. A malformed id answers 500, an unknown one 404. */
  function GuidePage(store: Store, guideId: string): (r: Shown<GuidePageView>)
    ensures !IsObjectId(guideId) ==> r == Refused(ServerError)
    ensures Locate(store.guides, GuideId, guideId).Missing? ==> r == Refused(NotFound)
    ensures r.Shown? ==>
              && Locate(store.guides, GuideId, guideId).At?
              && r.view.guide == store.guides[Locate(store.guides, GuideId, guideId).index]
              && (forall g :: g in r.view.otherGuides <==> g in store.guides && OtherVerifiedAt(g, r.view.guide))
              && r.view.guide !in r.view.otherGuides
              && r.view.totalReviewsCount == CountWhere(ReviewFor, guideId, store.reviews)
              && r.view.totalReviewsCount == |GuideReviewList(store.reviews, guideId)|
              && |r.view.reviews| == (if r.view.totalReviewsCount < 3 then r.view.totalReviewsCount else 3)
              && r.view.reviews == GuideReviewList(store.reviews, guideId)[..|r.view.reviews|]
    ensures r.Shown? <==> Locate(store.guides, GuideId, guideId).At?
  {
    match Locate(store.guides, GuideId, guideId)
    case BadId => Refused(ServerError)
    case Missing => Refused(NotFound)
    case At(i) =>
      var g := store.guides[i];
      var all := GuideReviewList(store.reviews, guideId);
      var top := if |all| <= 3 then all else all[..3];
      Shown(GuidePageView(g, FilterBy(OtherVerifiedAt, g, store.guides), top, |all|))
  }

  /** GET /:id/reviews: the guide and all its reviews, newest first. */
  function GuideReviews(store: Store, guideId: string): (r: Shown<(GuideProfile, seq<Review>)>)
    ensures !IsObjectId(guideId) ==> r == Refused(ServerError)
    ensures Locate(store.guides, GuideId, guideId).Missing? ==> r == Refused(NotFound)
    ensures r.Shown? ==>
              && Locate(store.guides, GuideId, guideId).At?
              && r.view.0 == store.guides[Locate(store.guides, GuideId, guideId).index]
              && r.view.1 == GuideReviewList(store.reviews, guideId)
    ensures r.Shown? <==> Locate(store.guides, GuideId, guideId).At?
  {
    match Locate(store.guides, GuideId, guideId)
    case BadId => Refused(ServerError)
    case Missing => Refused(NotFound)
    case At(i) => Shown((store.guides[i], GuideReviewList(store.reviews, guideId)))
  }

  // ---- Completing a guide profile ----

  /** The two uploads the complete-profile form carries. */
  datatype ProfileFiles = ProfileFiles(idProof: Option<Upload>, profileImage: Option<Upload>)

  /** The guide `Guide.create` stores: `expertise` comes from the form's `experience`,
      status is pending. */
  function NewGuide(id: Id, userId: Id, form: ProfileForm, files: ProfileFiles): (g: GuideProfile)
    requires form.languages.Some? && files.idProof.Some? && files.profileImage.Some?
    ensures g.user == userId && g.status == GuidePending && g.expertise == form.experience
  {
    GuideProfile(id, userId, form.bio, form.experience, form.pricePerHour, form.location,
                 CommaList.ParseList(form.languages.value),
                 Image(Some(files.profileImage.value.path), Some(files.profileImage.value.filename)),
                 Image(Some(files.idProof.value.path), Some(files.idProof.value.filename)),
                 GuidePending)
  }

  /** POST /complete-profile. A requester who already has a guide profile is redirected;
      missing languages or a missing upload throws inside the try: 500. */
  function CompleteProfile(store: Store, user: Option<AuthUser>, form: ProfileForm, files: ProfileFiles,
                           freshId: Id): (r: Handled<Reply>)
    ensures user.None? ==> r == Handled(ServerError, store)
    ensures user.Some? && GuideOf(store, user.value.id).Some? ==> r == Handled(Redirect("/guide/home"), store)
    ensures (user.Some? && GuideOf(store, user.value.id).None?
             && (form.languages.None? || files.idProof.None? || files.profileImage.None?)) ==>
              r == Handled(ServerError, store)
    ensures r.out == Ok ==>
              && user.Some? && GuideOf(store, user.value.id).None?
              && form.languages.Some? && files.idProof.Some? && files.profileImage.Some?
              && r.store == store.(guides := store.guides + [NewGuide(freshId, user.value.id, form, files)],
                                   users := SetUserImage(store.users, user.value.id, files.profileImage.value.path))
    ensures r.out != Ok ==> r.store == store
    ensures user.Some? && GuideOf(store, user.value.id).None? ==>
              form.languages.Some? && files.idProof.Some? && files.profileImage.Some? ==> r.out == Ok
  {
    if user.None? then Handled(ServerError, store)
    else if GuideOf(store, user.value.id).Some? then Handled(Redirect("/guide/home"), store)
    else if form.languages.None? || files.idProof.None? || files.profileImage.None? then Handled(ServerError, store)
    else
      Handled(Ok, store.(guides := store.guides + [NewGuide(freshId, user.value.id, form, files)],
                         users := SetUserImage(store.users, user.value.id, files.profileImage.value.path)))
  }

  /** What GET /complete-profile answers with status 200: the JSON `{redirectUrl: '/guide/home'}`
      for a requester who already has a profile, else the destination catalogue for the form. */
  datatype ProfileFormView = AlreadyComplete | Catalogue(destinations: seq<Destination>)

  /** GET /complete-profile: the lookup sits outside the try, so a missing requester gets no
      answer. */
  function CompleteProfileForm(store: Store, user: Option<AuthUser>): (r: Shown<ProfileFormView>)
    ensures user.None? <==> r == Refused(NoResponse)
    ensures user.Some? ==> r.Shown?
    ensures r.Shown? ==> (r.view.AlreadyComplete? <==> GuideOf(store, user.value.id).Some?)
    ensures r.Shown? && r.view.Catalogue? ==> r.view.destinations == store.destinations
  {
    if user.None? then Refused(NoResponse)
    else if GuideOf(store, user.value.id).Some? then Shown(AlreadyComplete)
    else Shown(Catalogue(store.destinations))
  }

  /** Every user has at most one guide profile (the unique index on `user`). */
  predicate OneGuidePerUser(guides: seq<GuideProfile>) {
    forall i, j | 0 <= i < j < |guides| :: guides[i].user != guides[j].user
  }

  /** Completing a profile never gives a user a second guide profile. */
  lemma CompleteProfileKeepsOneGuidePerUser(store: Store, user: Option<AuthUser>, form: ProfileForm,
                                            files: ProfileFiles, freshId: Id)
    requires OneGuidePerUser(store.guides)
    ensures OneGuidePerUser(CompleteProfile(store, user, form, files, freshId).store.guides)
  {
    var r := CompleteProfile(store, user, form, files, freshId);
    if r.out == Ok {
      var g := NewGuide(freshId, user.value.id, form, files);
      assert r.store.guides == store.guides + [g];
      AppendKeepsOneGuidePerUser(store.guides, g);
    }
  }

  /** Appending a profile for a user who has none keeps one profile per user. */
  lemma AppendKeepsOneGuidePerUser(guides: seq<GuideProfile>, g: GuideProfile)
    requires OneGuidePerUser(guides)
    requires forall i | 0 <= i < |guides| :: guides[i].user != g.user
    ensures OneGuidePerUser(guides + [g])
  {
    var gs := guides + [g];
    forall i, j | 0 <= i < j < |gs| ensures gs[i].user != gs[j].user {
      assert gs[i] == guides[i];
      if j < |guides| {
        assert gs[j] == guides[j];
      }
    }
  }

  /** Once a profile is completed, the complete-profile form only points back home. */
  lemma CompletedProfileRedirects(store: Store, user: Option<AuthUser>, form: ProfileForm,
                                  files: ProfileFiles, freshId: Id)
    requires CompleteProfile(store, user, form, files, freshId).out == Ok
    ensures var s1 := CompleteProfile(store, user, form, files, freshId).store;
            CompleteProfileForm(s1, user) == Shown(AlreadyComplete)
  {
    var s1 := CompleteProfile(store, user, form, files, freshId).store;
    assert s1.guides[|store.guides|].user == user.value.id;
  }
}

=== FILE: middleware.dfy ===
/** The three request middlewares: token authentication (never rejects), the trip-ownership
    gate and the admin gate. */
module Middleware {
  import opened Options
  import opened Model
  import Text

  /** The claims `getUser` decodes from a valid token. */
  datatype TokenPayload = TokenPayload(id: Id, email: string, role: Role)

  /** `req.cookies?.token || req.headers.authorization?.split(' ')[1]`. */
  function ExtractToken(cookieToken: Option<string>, authorization: Option<string>): (r: Option<string>)
    ensures Truthy(cookieToken) ==> r == cookieToken
    ensures !Truthy(cookieToken) && authorization.None? ==> r.None?
    ensures !Truthy(cookieToken) && authorization.Some? ==>
              (r.Some? <==> Text.Count(authorization.value, ' ') >= 1)
    ensures !Truthy(cookieToken) && r.Some? ==> ' ' !in r.value
  {
    if Truthy(cookieToken) then cookieToken
    else if authorization.None? then None
    else
      var words := Text.Split(authorization.value, ' ');
      if |words| >= 2 then Some(words[1]) else None
  }

  /** A `Bearer <token>` header yields the token when no cookie carries one. */
  lemma BearerToken(cookieToken: Option<string>, scheme: string, token: string)
    requires !Truthy(cookieToken)
    requires ' ' !in scheme && ' ' !in token
    ensures ExtractToken(cookieToken, Some(scheme + " " + token)) == Some(token)
  {
    Text.SplitJoin([scheme, token], ' ');
    assert Text.Join([scheme, token], ' ') == scheme + " " + token;
  }

  /** A cookie token wins over whatever the header says. */
  lemma CookieFirst(cookieToken: string, authorization: Option<string>)
    requires |cookieToken| > 0
    ensures ExtractToken(Some(cookieToken), authorization) == Some(cookieToken)
  {
  }

  /** `checkForAuthentication`: the `req.user` with which it always calls `next`.
      `getUser` (token verification) is a parameter; it answers `None` for a token it rejects. */
  function Authenticate(cookieToken: Option<string>, authorization: Option<string>,
                        getUser: string -> Option<TokenPayload>): (user: Option<AuthUser>)
    ensures user.Some? ==> Truthy(ExtractToken(cookieToken, authorization))
    ensures !Truthy(ExtractToken(cookieToken, authorization)) ==> user.None?
    ensures Truthy(ExtractToken(cookieToken, authorization)) ==>
              var p := getUser(ExtractToken(cookieToken, authorization).value);
              (p.None? ==> user.None?) &&
              (p.Some? ==> user == Some(AuthUser(p.value.id, p.value.email, p.value.role)))
  {
    var token := ExtractToken(cookieToken, authorization);
    if !Truthy(token) then None
    else match getUser(token.value)
      case None => None
      case Some(p) => Some(AuthUser(p.id, p.email, p.role))
  }

  /** The outcome of the trip-ownership middleware. */
  datatype TripGate = TripNotFound | AccessDenied | GateError | Pass(index: nat, trip: TripPlan) {
    function Status(): int {
      match this
      case TripNotFound => 404
      case AccessDenied => 403
      case GateError => 500
      case Pass(_, _) => 200
    }
  }

  /** The trip-ownership middleware: load the trip named by the URL, then compare its owner
      with `req.user.id`. A malformed id or a missing `req.user` throws inside its try
      block, which answers 500. */
  function Authorize(store: Store, user: Option<AuthUser>, tripId: string): (r: TripGate)
    ensures r.TripNotFound? <==> Locate(store.trips, TripId, tripId).Missing?
    ensures r.GateError? <==> !IsObjectId(tripId) || (Locate(store.trips, TripId, tripId).At? && user.None?)
    ensures r.AccessDenied? <==> Locate(store.trips, TripId, tripId).At? && user.Some?
                                 && store.trips[Locate(store.trips, TripId, tripId).index].user != user.value.id
    ensures r.Pass? ==> user.Some? && r.index < |store.trips| && r.trip == store.trips[r.index]
                        && r.trip.id == tripId && r.trip.user == user.value.id
  {
    match Locate(store.trips, TripId, tripId)
    case BadId => GateError
    case Missing => TripNotFound
    case At(i) =>
      if user.None? then GateError
      else if store.trips[i].user != user.value.id then AccessDenied
      else Pass(i, store.trips[i])
  }

  /** The outcome of `checkAdmin`. */
  datatype AdminGate = AdminDenied | AdminNext {
    function Status(): int {
      match this
      case AdminDenied => 403
      case AdminNext => 200
    }
  }

  /** `checkAdmin`: only an authenticated admin reaches `next`. */
  function CheckAdmin(user: Option<AuthUser>): (r: AdminGate)
    ensures r.AdminNext? <==> user.Some? && user.value.role == Admin
    ensures r.AdminDenied? ==> r.Status() == 403
  {
    if user.None? || user.value.role != Admin then AdminDenied else AdminNext
  }
}

=== FILE: model.dfy ===
/** The document store as an immutable record of sequences, one per collection, and the
    records the mongoose schemas describe. A handler is a function from a store (plus the
    requester and the request) to an outcome and a new store. */
module Model {
  import opened Options
  import Text

  /** A document id as the routes see it: `_id.toString()`, 24 hexadecimal characters. */
  type Id = string

  /** A `Date` as milliseconds since the epoch. */
  type Time = int

  /** `role`: enum ['traveler', 'guide', 'admin']. */
  datatype Role = Traveler | Guide | Admin

  function RoleName(r: Role): string {
    match r
    case Traveler => "traveler"
    case Guide => "guide"
    case Admin => "admin"
  }

  /** What the role enum validator accepts. */
  function ParseRole(s: string): (r: Option<Role>)
    ensures r.Some? ==> RoleName(r.value) == s
    ensures r.None? ==> forall role: Role :: RoleName(role) != s
  {
    if s == "traveler" then Some(Traveler)
    else if s == "guide" then Some(Guide)
    else if s == "admin" then Some(Admin)
    else
      assert forall role: Role :: RoleName(role) != s;
      None
  }

  /** Every role is accepted under its own name. */
  lemma ParseRoleName(role: Role)
    ensures ParseRole(RoleName(role)) == Some(role)
  {
  }

  /** `status` of a booking request: enum ['pending', 'accepted', 'rejected'], default 'pending'. */
  datatype BookingStatus = Pending | Accepted | Rejected

  /** `status` of a guide profile: enum ['pending', 'verified', 'rejected'], default 'pending'. */
  datatype GuideStatus = GuidePending | GuideVerified | GuideRejected

  /** `passwordHash`: either the plain text a handler just assigned (hashed by the next save)
      or the bcrypt hash of an earlier value with its salt. The hash is modelled as an
      injective encoding; that it cannot be inverted plays no part here. */
  datatype Secret = Plain(text: string) | Hashed(input: Secret, salt: nat)

  datatype User = User(
    id: Id,
    name: Option<string>,
    email: string,
    passwordHash: Secret,
    role: Role,
    phone: string,
    location: string,
    profileImage: string,
    aboutMe: string,
    isVerified: bool,
    otp: Option<string>,
    otpExpires: Option<Time>)

  /** An uploaded file as stored on a guide: `{url, public_id}`. */
  datatype Image = Image(url: Option<string>, publicId: Option<string>)

  datatype GuideProfile = GuideProfile(
    id: Id,
    user: Id,
    bio: Option<string>,
    expertise: Option<string>,
    pricePerHour: Option<string>,
    location: Option<string>,
    languages: seq<string>,
    profileImage: Image,
    idProof: Image,
    status: GuideStatus)

  datatype BudgetItem = BudgetItem(category: Option<string>, amount: int)

  datatype PackingItem = PackingItem(name: string, packed: bool)

  /** An itinerary entry. The schema does not require `day`, so an entry added without one is
      stored without it (`None`). */
  datatype ItineraryDay = ItineraryDay(day: Option<int>, title: Option<string>, activities: seq<string>)

  datatype TripPlan = TripPlan(
    id: Id,
    user: Id,
    destination: Id,
    startDate: Time,
    endDate: Time,
    notes: Option<string>,
    budget: seq<BudgetItem>,
    packingList: seq<PackingItem>,
    itinerary: seq<ItineraryDay>,
    addedAt: Time)

  datatype BookingRequest = BookingRequest(
    id: Id,
    trip: Id,
    traveler: Id,
    guide: Id,
    days: int,
    numberOfPeople: int,
    message: Option<string>,
    startDate: Time,
    endDate: Time,
    status: BookingStatus,
    createdAt: Time)

  datatype Review = Review(
    id: Id,
    bookingId: Id,
    travelerId: Id,
    guideId: Id,
    rating: int,
    comment: Option<string>,
    createdAt: Time)

  datatype Blog = Blog(
    id: Id,
    title: string,
    description: string,
    image: Option<string>,
    author: Id,
    role: Role,
    createdAt: Time)

  datatype ChatMessage = ChatMessage(id: Id, booking: Id, sender: Id, message: string, createdAt: Time)

  datatype Destination = Destination(
    id: Id,
    name: string,
    description: string,
    bestTimeToVisit: string,
    imageUrl: string,
    mustVisit: seq<string>)

  datatype Store = Store(
    users: seq<User>,
    guides: seq<GuideProfile>,
    trips: seq<TripPlan>,
    bookings: seq<BookingRequest>,
    reviews: seq<Review>,
    blogs: seq<Blog>,
    messages: seq<ChatMessage>,
    destinations: seq<Destination>)

  /** `req.user` as the authentication middleware builds it. */
  datatype AuthUser = AuthUser(id: Id, email: string, role: Role)

  /** An uploaded file as multer reports it: the storage URL and the storage file name. */
  datatype Upload = Upload(path: string, filename: string)

  /** What a handler produced: the reply it chose and the store after its writes. */
  datatype Handled<O> = Handled(out: O, store: Store)

  /** How a handler answered. `Message`: a plain-text body sent with status 200 in place of
      the handler's normal answer. `NoResponse`: an exception escaped a handler that has no
      try/catch of its own, and Express 4 sends nothing for a rejected handler promise. */
  datatype Reply = Ok | Message(text: string) | Redirect(url: string) | BadRequest | Forbidden | NotFound
                 | ServerError | NoResponse {
    predicate Answered() { !NoResponse? }

    function Status(): int
      requires Answered()
    {
      match this
      case Ok => 200
      case Message(_) => 200
      case Redirect(_) => 302
      case BadRequest => 400
      case Forbidden => 403
      case NotFound => 404
      case ServerError => 500
    }
  }

  /** A read handler either refuses with a reply or answers 200 with a view. */
  datatype Shown<V> = Refused(reply: Reply) | Shown(view: V)

  predicate IsHexDigit(c: char) {
    ('0' <= c <= '9') || ('a' <= c <= 'f') || ('A' <= c <= 'F')
  }

  /** Strings mongoose casts to an ObjectId; any other id makes a query throw a CastError. */
  predicate IsObjectId(s: string)
    ensures IsObjectId(s) ==> |s| == 24
    ensures |s| == 24 && (forall i | 0 <= i < |s| :: '0' <= s[i] <= '9') ==> IsObjectId(s)
    ensures (exists i | 0 <= i < |s| :: 'g' <= s[i] <= 'z' || 'G' <= s[i] <= 'Z' || s[i] == ' ') ==> !IsObjectId(s)
  {
    |s| == 24 && forall i | 0 <= i < |s| :: IsHexDigit(s[i])
  }

  function UserId(u: User): Id { u.id }
  function UserEmail(u: User): Id { u.email }
  function GuideId(g: GuideProfile): Id { g.id }
  function GuideUser(g: GuideProfile): Id { g.user }
  function TripId(t: TripPlan): Id { t.id }
  function BookingId(b: BookingRequest): Id { b.id }
  function BlogId(b: Blog): Id { b.id }
  function DestinationId(d: Destination): Id { d.id }

  /** The guide query `{location, status: 'verified'}`: a guide without a location never matches. */
  predicate VerifiedAt(g: GuideProfile, location: string) {
    g.status == GuideVerified && g.location == Some(location)
  }

  /** The position of the first document whose `key` is `k` (what `findOne` returns). */
  function FirstIndex<T>(xs: seq<T>, key: T -> string, k: string): (r: Option<nat>)
    ensures r.Some? ==> r.value < |xs| && key(xs[r.value]) == k
    ensures r.Some? ==> forall j | 0 <= j < r.value :: key(xs[j]) != k
    ensures r.None? <==> forall j | 0 <= j < |xs| :: key(xs[j]) != k
    decreases |xs|
  {
    if |xs| == 0 then None
    else if key(xs[0]) == k then Some(0)
    else match FirstIndex(xs[1..], key, k)
      case None => None
      case Some(i) => Some(i + 1)
  }

  /** `findOne({key: k})` where `k` may be `undefined`: the driver sends `null`, which
      matches no document whose key is set, and every stored key is set. */
  function FindOne<T>(xs: seq<T>, key: T -> string, k: Option<string>): (r: Option<nat>)
    ensures k.None? ==> r.None?
    ensures k.Some? ==> r == FirstIndex(xs, key, k.value)
  {
    if k.None? then None else FirstIndex(xs, key, k.value)
  }

  /** The result of `findById(id)` with an id taken from the URL. */
  datatype Lookup = BadId | Missing | At(index: nat)

  function Locate<T>(xs: seq<T>, key: T -> string, id: string): (r: Lookup)
    ensures r.BadId? <==> !IsObjectId(id)
    ensures r.Missing? <==> IsObjectId(id) && forall j | 0 <= j < |xs| :: key(xs[j]) != id
    ensures r.At? ==> r.index < |xs| && key(xs[r.index]) == id
    ensures r.At? ==> forall j | 0 <= j < r.index :: key(xs[j]) != id
  {
    if !IsObjectId(id) then BadId
    else match FirstIndex(xs, key, id)
      case None => Missing
      case Some(i) => At(i)
  }

  /** `findById(id)` where the id may be `undefined`: mongoose turns it into `null`,
      which finds nothing. */
  function LocateOptional<T>(xs: seq<T>, key: T -> string, id: Option<string>): (r: Lookup)
    ensures id.None? ==> r.Missing?
    ensures id.Some? ==> r == Locate(xs, key, id.value)
  {
    if id.None? then Missing else Locate(xs, key, id.value)
  }

  /** Rewriting a document without changing its key moves no `findOne` result. */
  lemma {:induction false} FirstIndexAfterUpdate<T>(xs: seq<T>, key: T -> string, i: nat, x: T, k: string)
    requires i < |xs| && key(x) == key(xs[i])
    ensures FirstIndex(xs[i := x], key, k) == FirstIndex(xs, key, k)
    decreases |xs|
  {
    if |xs| > 0 && i > 0 {
      assert xs[i := x][1..] == xs[1..][i - 1 := x];
      FirstIndexAfterUpdate(xs[1..], key, i - 1, x, k);
    }
  }

  /** Appending a document only matters to a `findOne` that found nothing before. */
  lemma {:induction false} FirstIndexAfterAppend<T>(xs: seq<T>, key: T -> string, x: T, k: string)
    ensures FirstIndex(xs + [x], key, k) ==
              if FirstIndex(xs, key, k).Some? then FirstIndex(xs, key, k)
              else if key(x) == k then Some(|xs|)
              else None
    decreases |xs|
  {
    if |xs| > 0 {
      assert (xs + [x])[1..] == xs[1..] + [x];
      FirstIndexAfterAppend(xs[1..], key, x, k);
    }
  }
}

=== FILE: numerals.dfy ===
/** Integers as JavaScript writes and reads them: `Number.prototype.toString()` for an
    integral value and `parseInt(s)` with no radix. */
module Numerals {
  import opened Options
  import Text

  predicate IsDecimalDigit(c: char) {
    '0' <= c <= '9'
  }

  function DigitChar(d: nat): (c: char)
    requires d < 10
    ensures IsDecimalDigit(c)
  {
    ('0' as int + d) as char
  }

  /** The value of `c` as a digit of `radix` (10 or 16), if it is one. */
  function DigitValue(c: char, radix: nat): Option<nat> {
    if '0' <= c <= '9' then Some(c as int - '0' as int)
    else if radix == 16 && 'a' <= c <= 'f' then Some(c as int - 'a' as int + 10)
    else if radix == 16 && 'A' <= c <= 'F' then Some(c as int - 'A' as int + 10)
    else None
  }

  predicate AllDigits(s: string, radix: nat) {
    forall i | 0 <= i < |s| :: DigitValue(s[i], radix).Some?
  }

  /** Decimal digits of `n`, most significant first, without leading zeros. */
  function Digits(n: nat): (r: string)
    ensures |r| >= 1
    ensures forall i | 0 <= i < |r| :: IsDecimalDigit(r[i])
    ensures r[0] == '0' ==> n == 0 && |r| == 1
    decreases n
  {
    if n < 10 then [DigitChar(n)]
    else
      var r := Digits(n / 10) + [DigitChar(n % 10)];
      assert r[0] == Digits(n / 10)[0];
      r
  }

  /** `n.toString()` for an integer whose magnitude is below 10^21 (no exponent form). */
  function IntToString(n: int): (r: string)
    ensures |r| >= 1 && (r[0] == '-' <==> n < 0)
    ensures n < 0 ==> |r| >= 2
    ensures forall i | (if n < 0 then 1 else 0) <= i < |r| :: IsDecimalDigit(r[i])
    ensures var d := if n < 0 then 1 else 0; |r| > d + 1 ==> r[d] != '0'
  {
    if n < 0 then "-" + Digits(-n) else Digits(n)
  }

  /** The value of a string of `radix` digits, most significant first. */
  function Value(s: string, radix: nat): nat
    requires AllDigits(s, radix)
    decreases |s|
  {
    if |s| == 0 then 0
    else Value(s[..|s| - 1], radix) * radix + DigitValue(s[|s| - 1], radix).value
  }

  /** Length of the longest prefix of `s` made of `radix` digits. */
  function DigitPrefix(s: string, radix: nat): (n: nat)
    ensures n <= |s|
    ensures AllDigits(s[..n], radix)
    ensures n < |s| ==> DigitValue(s[n], radix).None?
    decreases |s|
  {
    if |s| == 0 || DigitValue(s[0], radix).None? then 0
    else
      var n := 1 + DigitPrefix(s[1..], radix);
      assert s[..n] == [s[0]] + s[1..][..n - 1];
      n
  }

  /** The unsigned part of `parseInt`: a `0x`/`0X` prefix selects radix 16, then the
      longest run of digits is read; `None` is `NaN` (no digit at all). */
  function ParseUnsigned(u: string): Option<nat> {
    var hex := |u| >= 2 && u[0] == '0' && (u[1] == 'x' || u[1] == 'X');
    var radix := if hex then 16 else 10;
    var v := if hex then u[2..] else u;
    var n := DigitPrefix(v, radix);
    if n == 0 then None else Some(Value(v[..n], radix))
  }

  /** `parseInt(s)`: skip leading whitespace, read an optional sign, then the unsigned
      part; `None` is `NaN`. A negative zero is returned as 0, which is how an index of
      `-0` behaves. */
  function ParseInt(s: string): (r: Option<int>)
    ensures Text.IsBlank(s) ==> r.None?
    ensures var t := Text.TrimStart(s);
            |t| > 0 && IsDecimalDigit(t[0]) && !(|t| >= 2 && t[0] == '0' && (t[1] == 'x' || t[1] == 'X')) ==>
              r.Some? && r.value >= 0
    ensures var t := Text.TrimStart(s);
            |t| > 0 && !IsDecimalDigit(t[0]) && t[0] != '-' && t[0] != '+' ==> r.None?
    ensures r.Some? && r.value < 0 ==> Text.TrimStart(s)[0] == '-'
  {
    var t := Text.TrimStart(s);
    var sign := if |t| > 0 && t[0] == '-' then -1 else 1;
    var u := if |t| > 0 && (t[0] == '-' || t[0] == '+') then t[1..] else t;
    match ParseUnsigned(u)
    case None => None
    case Some(m) => Some(sign * m)
  }

  lemma {:induction false} ValueOfDigits(n: nat)
    ensures AllDigits(Digits(n), 10)
    ensures Value(Digits(n), 10) == n
    decreases n
  {
    if n >= 10 {
      ValueOfDigits(n / 10);
      var d := Digits(n);
      assert d[..|d| - 1] == Digits(n / 10);
    }
  }

  /** The unsigned reader reads back the digits `toString` writes. */
  lemma ParseUnsignedDigits(m: nat)
    ensures ParseUnsigned(Digits(m)) == Some(m)
  {
    var d := Digits(m);
    ValueOfDigits(m);
    assert !(|d| >= 2 && d[0] == '0');
    DigitPrefixOfDigits(d, 10);
    assert d[..|d|] == d;
    assert ParseUnsigned(d) == Some(Value(d, 10));
  }

  /** Reading back what `toString` wrote gives the number: `parseInt(String(n)) == n`. */
  lemma ParseIntToString(n: int)
    ensures ParseInt(IntToString(n)) == Some(n)
  {
    if n < 0 {
      ParseUnsignedDigits(-n);
      ParseNegative(Digits(-n), -n);
    } else {
      ParseUnsignedDigits(n);
      ParseNonNegative(Digits(n), n);
    }
  }

  /** A minus sign before a digit string negates what the digits read as. */
  lemma ParseNegative(d: string, m: nat)
    requires |d| > 0 && IsDecimalDigit(d[0]) && ParseUnsigned(d) == Some(m)
    ensures ParseInt("-" + d) == Some(-(m as int))
  {
    var s := "-" + d;
    NoLeadingWhitespace(s);
    assert s[1..] == d;
  }

  /** A digit string with no sign reads as its unsigned value. */
  lemma ParseNonNegative(d: string, m: nat)
    requires |d| > 0 && IsDecimalDigit(d[0]) && ParseUnsigned(d) == Some(m)
    ensures ParseInt(d) == Some(m)
  {
    NoLeadingWhitespace(d);
  }

  lemma NoLeadingWhitespace(s: string)
    requires |s| > 0 && (s[0] == '-' || IsDecimalDigit(s[0]))
    ensures Text.TrimStart(s) == s
  {
    assert !Text.IsWhitespace(s[0]);
  }

  lemma {:induction false} DigitPrefixOfDigits(s: string, radix: nat)
    requires AllDigits(s, radix)
    ensures DigitPrefix(s, radix) == |s|
    decreases |s|
  {
    if |s| > 0 {
      DigitPrefixOfDigits(s[1..], radix);
    }
  }

  /** Distinct integers have distinct renderings. */
  lemma IntToStringInjective(a: int, b: int)
    requires IntToString(a) == IntToString(b)
    ensures a == b
  {
    ParseIntToString(a);
    ParseIntToString(b);
  }

  function Pow10(k: nat): (p: nat)
    ensures p >= 1
  {
    if k == 0 then 1 else 10 * Pow10(k - 1)
  }

  /** A number with k + 1 digits is written with k + 1 characters. */
  lemma {:induction false} DigitsLength(n: nat, k: nat)
    requires Pow10(k) <= n < Pow10(k + 1)
    ensures |Digits(n)| == k + 1
    decreases k
  {
    if k > 0 {
      DigitsLength(n / 10, k - 1);
    }
  }

  /** Six-digit numbers are written with six decimal digits and read back unchanged. */
  lemma SixDigits(n: nat)
    requires 100000 <= n < 1000000
    ensures |IntToString(n)| == 6
    ensures forall i | 0 <= i < 6 :: IsDecimalDigit(IntToString(n)[i])
    ensures ParseInt(IntToString(n)) == Some(n)
  {
    assert Pow10(5) == 100000 && Pow10(6) == 1000000 by {
      assert Pow10(1) == 10;
      assert Pow10(2) == 100;
      assert Pow10(3) == 1000;
      assert Pow10(4) == 10000;
    }
    DigitsLength(n, 5);
    ParseIntToString(n);
  }
}

=== FILE: options.dfy ===
/** A value that JavaScript may leave `undefined` (a missing body field, a query that found nothing). */
module Options {

  datatype Option<+T> = None | Some(value: T) {

    /** Returns the value, or `default` when there is none. */
    function GetOr(default: T): T {
      match this
      case Some(v) => v
      case None => default
    }
  }

  /** JavaScript truthiness of an optional string: present and not the empty string. */
  predicate Truthy(s: Option<string>) {
    s.Some? && |s.value| > 0
  }
}

=== FILE: reviews.dfy ===
/** Reviews: who may review a booking and when, and the review that gets stored. */
module Reviews {
  import opened Options
  import opened Model
  import Text

  /** The gate both review routes share, in its order: the booking lookup (no try: a
      malformed id throws), 403 for a missing booking, a thrown TypeError when there is no
      requester, 403 for anyone but the booking's traveler, and 400 until the booking's end
      date has passed. `Allow(i)`: the booking at `i` may be reviewed. */
  function Eligible(store: Store, user: Option<AuthUser>, bookingId: string, now: Time): (r: Result)
    ensures !IsObjectId(bookingId) ==> r == Refuse(NoResponse)
    ensures Locate(store.bookings, BookingId, bookingId).Missing? ==> r == Refuse(Forbidden)
    ensures r.Allow? <==>
              && Locate(store.bookings, BookingId, bookingId).At?
              && user.Some?
              && var b := store.bookings[Locate(store.bookings, BookingId, bookingId).index];
                 b.traveler == user.value.id && now > b.endDate
    ensures r.Allow? ==> r.index == Locate(store.bookings, BookingId, bookingId).index
    ensures Locate(store.bookings, BookingId, bookingId).At? && user.Some? ==>
              var b := store.bookings[Locate(store.bookings, BookingId, bookingId).index];
              && (b.traveler != user.value.id ==> r == Refuse(Forbidden))
              && (b.traveler == user.value.id && now <= b.endDate ==> r == Refuse(BadRequest))
  {
    match Locate(store.bookings, BookingId, bookingId)
    case BadId => Refuse(NoResponse)
    case Missing => Refuse(Forbidden)
    case At(i) =>
      if user.None? then Refuse(NoResponse)
      else if store.bookings[i].traveler != user.value.id then Refuse(Forbidden)
      else if now <= store.bookings[i].endDate then Refuse(BadRequest)
      else Allow(i)
  }

  datatype Result = Refuse(reply: Reply) | Allow(index: nat)

  /** GET /:bookingId/new: the review form for an eligible booking. */
  function ReviewForm(store: Store, user: Option<AuthUser>, bookingId: string, now: Time): (r: Shown<BookingRequest>)
    ensures r.Shown? <==> Eligible(store, user, bookingId, now).Allow?
    ensures r.Refused? ==> r.reply == Eligible(store, user, bookingId, now).reply
    ensures r.Shown? ==> r.view in store.bookings && r.view.id == bookingId
                         && r.view.traveler == user.value.id && now > r.view.endDate
  {
    match Eligible(store, user, bookingId, now)
    case Refuse(reply) => Refused(reply)
    case Allow(i) => Shown(store.bookings[i])
  }

  /** `Review.findOne({bookingId, travelerId})`. */
  predicate ReviewOf(v: Review, key: (Id, Id)) {
    v.bookingId == key.0 && v.travelerId == key.1
  }

  predicate Reviewed(reviews: seq<Review>, bookingId: Id, traveler: Id) {
    exists i | 0 <= i < |reviews| :: ReviewOf(reviews[i], (bookingId, traveler))
  }

  /** The review the handler stores: the comment is trimmed by the schema, the guide is the
      booking's. */
  function NewReview(id: Id, b: BookingRequest, traveler: Id, rating: int, comment: Option<string>, now: Time): Review {
    Review(id, b.id, traveler, b.guide, rating,
           if comment.Some? then Some(Text.Trim(comment.value)) else None, now)
  }

  /** The schema's `rating` rule: required, between 1 and 5. */
  predicate ValidRating(rating: Option<int>) {
    rating.Some? && 1 <= rating.value <= 5
  }

  /** POST /:bookingId. Nothing here has a try: a rating the schema refuses makes `save`
      throw and gets no answer. */
  function CreateReview(store: Store, user: Option<AuthUser>, bookingId: string, rating: Option<int>,
                        comment: Option<string>, freshId: Id, now: Time): (r: Handled<Reply>)
    ensures Eligible(store, user, bookingId, now).Refuse? ==>
              r == Handled(Eligible(store, user, bookingId, now).reply, store)
    ensures Eligible(store, user, bookingId, now).Allow? && Reviewed(store.reviews, bookingId, user.value.id) ==>
              r == Handled(BadRequest, store)
    ensures (Eligible(store, user, bookingId, now).Allow? && !Reviewed(store.reviews, bookingId, user.value.id)
             && !ValidRating(rating)) ==> r == Handled(NoResponse, store)
    ensures r.store != store ==>
              && r.out == Ok && ValidRating(rating)
              && Eligible(store, user, bookingId, now).Allow?
              && !Reviewed(store.reviews, bookingId, user.value.id)
              && r.store == store.(reviews := store.reviews +
                                   [NewReview(freshId, store.bookings[Eligible(store, user, bookingId, now).index],
                                              user.value.id, rating.value, comment, now)])
    ensures r.out == Ok ==> r.store != store
    ensures Eligible(store, user, bookingId, now).Allow? && !Reviewed(store.reviews, bookingId, user.value.id) ==>
              ValidRating(rating) ==> r.out == Ok
  {
    match Eligible(store, user, bookingId, now)
    case Refuse(reply) => Handled(reply, store)
    case Allow(i) =>
      if Reviewed(store.reviews, bookingId, user.value.id) then Handled(BadRequest, store)
      else if !ValidRating(rating) then Handled(NoResponse, store)
      else
        var v := NewReview(freshId, store.bookings[i], user.value.id, rating.value, comment, now);
        assert |store.reviews + [v]| != |store.reviews|;
        Handled(Ok, store.(reviews := store.reviews + [v]))
  }

  /** A stored review names the booking, its guide and the requester as traveler. */
  lemma CreatedReviewFields(store: Store, user: Option<AuthUser>, bookingId: string, rating: Option<int>,
                            comment: Option<string>, freshId: Id, now: Time)
    requires CreateReview(store, user, bookingId, rating, comment, freshId, now).out == Ok
    ensures var v := CreateReview(store, user, bookingId, rating, comment, freshId, now).store.reviews[|store.reviews|];
            && v.bookingId == bookingId && v.travelerId == user.value.id
            && (exists b | b in store.bookings ::
                  b.id == bookingId && v.guideId == b.guide && b.traveler == user.value.id && now > b.endDate)
            && 1 <= v.rating <= 5
            && (v.comment.Some? ==> Text.IsTrimmed(v.comment.value))
  {
    var i := Eligible(store, user, bookingId, now).index;
    assert store.bookings[i] in store.bookings;
  }

  /** At most one review per booking and traveler. */
  predicate OneReviewPerBooking(reviews: seq<Review>) {
    forall i, j | 0 <= i < j < |reviews| ::
      reviews[i].bookingId != reviews[j].bookingId || reviews[i].travelerId != reviews[j].travelerId
  }

  /** Creating a review keeps one review per booking and traveler. */
  lemma CreateReviewKeepsOnePerBooking(store: Store, user: Option<AuthUser>, bookingId: string,
                                       rating: Option<int>, comment: Option<string>, freshId: Id, now: Time)
    requires OneReviewPerBooking(store.reviews)
    ensures OneReviewPerBooking(CreateReview(store, user, bookingId, rating, comment, freshId, now).store.reviews)
  {
    var r := CreateReview(store, user, bookingId, rating, comment, freshId, now);
    if r.store != store {
      var rs := r.store.reviews;
      var n := |store.reviews|;
      forall i, j | 0 <= i < j < |rs|
        ensures rs[i].bookingId != rs[j].bookingId || rs[i].travelerId != rs[j].travelerId
      {
        assert rs[i] == store.reviews[i];
        if j == n {
          assert !ReviewOf(store.reviews[i], (bookingId, user.value.id));
        } else {
          assert rs[j] == store.reviews[j];
        }
      }
    }
  }

  /** A second review attempt for the same booking is refused with 400 and adds nothing. */
  lemma SecondReviewRefused(store: Store, user: Option<AuthUser>, bookingId: string,
                            rating: Option<int>, comment: Option<string>, freshId: Id, now: Time,
                            rating': Option<int>, comment': Option<string>, freshId': Id)
    requires CreateReview(store, user, bookingId, rating, comment, freshId, now).out == Ok
    ensures var s1 := CreateReview(store, user, bookingId, rating, comment, freshId, now).store;
            CreateReview(s1, user, bookingId, rating', comment', freshId', now) == Handled(BadRequest, s1)
  {
    var s1 := CreateReview(store, user, bookingId, rating, comment, freshId, now).store;
    assert ReviewOf(s1.reviews[|store.reviews|], (bookingId, user.value.id));
  }
}

=== FILE: seqs.dfy ===
/** Generic sequence operations the handlers are built from: order-preserving filters,
    removal by index and sorting by a numeric key. */
module Seqs {

  /** `a` is `b` with some elements dropped and the others kept in their order. */
  predicate IsSubsequence<T(==)>(a: seq<T>, b: seq<T>)
    decreases |b|
  {
    if |a| == 0 then true
    else if |b| == 0 then false
    else if a[0] == b[0] then IsSubsequence(a[1..], b[1..])
    else IsSubsequence(a, b[1..])
  }

  /** `xs.filter(x => keep(x, k))`: the elements that pass, in their original order. */
  function FilterBy<T(==), K>(keep: (T, K) -> bool, k: K, xs: seq<T>): (r: seq<T>)
    ensures |r| <= |xs|
    ensures forall x | x in r :: x in xs && keep(x, k)
    ensures forall x | x in xs && keep(x, k) :: x in r
    ensures IsSubsequence(r, xs)
    decreases |xs|
  {
    if |xs| == 0 then []
    else
      var rest := FilterBy(keep, k, xs[1..]);
      if keep(xs[0], k) then
        assert ([xs[0]] + rest)[1..] == rest;
        [xs[0]] + rest
      else
        assert |rest| > 0 ==> rest[0] != xs[0] by {
          if |rest| > 0 { assert rest[0] in rest; }
        }
        rest
  }

  /** How many elements pass `keep` (what `countDocuments` reports). */
  function CountWhere<T, K>(keep: (T, K) -> bool, k: K, xs: seq<T>): nat
    decreases |xs|
  {
    if |xs| == 0 then 0 else (if keep(xs[0], k) then 1 else 0) + CountWhere(keep, k, xs[1..])
  }

  /** A filter keeps every passing element as often as it occurs and nothing else, so its
      length is the number of passing elements. */
  lemma {:induction false} FilterByCounts<T, K>(keep: (T, K) -> bool, k: K, xs: seq<T>)
    ensures |FilterBy(keep, k, xs)| == CountWhere(keep, k, xs)
    ensures forall x :: multiset(FilterBy(keep, k, xs))[x] == if keep(x, k) then multiset(xs)[x] else 0
    decreases |xs|
  {
    if |xs| > 0 {
      FilterByCounts(keep, k, xs[1..]);
      assert xs == [xs[0]] + xs[1..];
      assert multiset(xs) == multiset{xs[0]} + multiset(xs[1..]);
      var rest := FilterBy(keep, k, xs[1..]);
      if keep(xs[0], k) {
        assert FilterBy(keep, k, xs) == [xs[0]] + rest;
        assert multiset(FilterBy(keep, k, xs)) == multiset{xs[0]} + multiset(rest);
      } else {
        assert FilterBy(keep, k, xs) == rest;
      }
    }
  }

  /** A filter that every element passes returns its input. */
  lemma {:induction false} FilterAllKept<T, K>(keep: (T, K) -> bool, k: K, xs: seq<T>)
    requires forall i | 0 <= i < |xs| :: keep(xs[i], k)
    ensures FilterBy(keep, k, xs) == xs
    decreases |xs|
  {
    if |xs| > 0 {
      FilterAllKept(keep, k, xs[1..]);
    }
  }

  /** A filter that no element passes returns the empty sequence. */
  lemma {:induction false} FilterNoneKept<T, K>(keep: (T, K) -> bool, k: K, xs: seq<T>)
    requires forall i | 0 <= i < |xs| :: !keep(xs[i], k)
    ensures FilterBy(keep, k, xs) == []
    decreases |xs|
  {
    if |xs| > 0 {
      FilterNoneKept(keep, k, xs[1..]);
    }
  }

  /** Filtering twice by the same test is filtering once. */
  lemma FilterIdempotent<T, K>(keep: (T, K) -> bool, k: K, xs: seq<T>)
    ensures FilterBy(keep, k, FilterBy(keep, k, xs)) == FilterBy(keep, k, xs)
  {
    var r := FilterBy(keep, k, xs);
    forall i | 0 <= i < |r| ensures keep(r[i], k) {
      assert r[i] in r;
    }
    FilterAllKept(keep, k, r);
  }

  /** Filtering a concatenation filters each part. */
  lemma {:induction false} FilterAppend<T, K>(keep: (T, K) -> bool, k: K, xs: seq<T>, ys: seq<T>)
    ensures FilterBy(keep, k, xs + ys) == FilterBy(keep, k, xs) + FilterBy(keep, k, ys)
    decreases |xs|
  {
    if |xs| == 0 {
      assert xs + ys == ys;
    } else {
      var zs := xs + ys;
      assert zs[0] == xs[0] && zs[1..] == xs[1..] + ys;
      var rest := FilterBy(keep, k, xs[1..]);
      var tail := FilterBy(keep, k, ys);
      FilterAppend(keep, k, xs[1..], ys);
      if keep(xs[0], k) {
        calc {
          FilterBy(keep, k, zs);
          [xs[0]] + FilterBy(keep, k, zs[1..]);
          [xs[0]] + (rest + tail);
          ([xs[0]] + rest) + tail;
          FilterBy(keep, k, xs) + tail;
        }
      } else {
        calc {
          FilterBy(keep, k, zs);
          FilterBy(keep, k, zs[1..]);
          rest + tail;
          FilterBy(keep, k, xs) + tail;
        }
      }
    }
  }

  /** Filters that agree on every element of `xs` give the same result. */
  lemma {:induction false} FilterCongruent<T, K>(keep: (T, K) -> bool, k: K, keep': (T, K) -> bool, k': K, xs: seq<T>)
    requires forall i | 0 <= i < |xs| :: keep(xs[i], k) == keep'(xs[i], k')
    ensures FilterBy(keep, k, xs) == FilterBy(keep', k', xs)
    decreases |xs|
  {
    if |xs| > 0 {
      FilterCongruent(keep, k, keep', k', xs[1..]);
    }
  }

  /** `xs.splice(i, 1)`: drop the element at index `i`, shifting the later ones down. */
  function RemoveAt<T>(xs: seq<T>, i: nat): (r: seq<T>)
    requires i < |xs|
    ensures |r| == |xs| - 1
    ensures forall j | 0 <= j < i :: r[j] == xs[j]
    ensures forall j | i <= j < |r| :: r[j] == xs[j + 1]
  {
    xs[..i] + xs[i + 1..]
  }

  /** Removing one element keeps the others in order. */
  lemma {:induction false} RemoveAtIsSubsequence<T>(xs: seq<T>, i: nat)
    requires i < |xs|
    ensures IsSubsequence(RemoveAt(xs, i), xs)
    decreases |xs|
  {
    var r := RemoveAt(xs, i);
    if i == 0 {
      assert r == xs[1..];
      SubsequenceOfTail(xs);
    } else {
      assert r[0] == xs[0];
      assert r[1..] == RemoveAt(xs[1..], i - 1);
      RemoveAtIsSubsequence(xs[1..], i - 1);
    }
  }

  /** Every sequence is a subsequence of itself. */
  lemma {:induction false} SubsequenceReflexive<T>(xs: seq<T>)
    ensures IsSubsequence(xs, xs)
    decreases |xs|
  {
    if |xs| > 0 {
      SubsequenceReflexive(xs[1..]);
    }
  }

  /** Dropping the first element gives a subsequence. */
  lemma SubsequenceOfTail<T>(xs: seq<T>)
    requires |xs| > 0
    ensures IsSubsequence(xs[1..], xs)
  {
    DropPrefixSubsequence(xs[1..], xs[0]);
  }

  lemma {:induction false} DropPrefixSubsequence<T>(ys: seq<T>, x: T)
    ensures IsSubsequence(ys, [x] + ys)
    decreases |ys|
  {
    if |ys| > 0 {
      if ys[0] == x {
        assert ([x] + ys)[1..] == ys;
        assert ys[1..] == ys[1..];
        DropPrefixSubsequence(ys[1..], ys[0]);
        assert [ys[0]] + ys[1..] == ys;
      } else {
        assert ([x] + ys)[1..] == ys;
        SubsequenceReflexive(ys);
      }
    }
  }

  /** `xs` is ordered by `key`, smallest first. */
  predicate SortedBy<T>(key: T -> int, xs: seq<T>) {
    forall i, j | 0 <= i < j < |xs| :: key(xs[i]) <= key(xs[j])
  }

  /** Inserts `x` into an ordered sequence in front of the first element with a larger or equal key. */
  function Insert<T>(key: T -> int, x: T, xs: seq<T>): (r: seq<T>)
    requires SortedBy(key, xs)
    ensures SortedBy(key, r)
    ensures multiset(r) == multiset(xs) + multiset{x}
    decreases |xs|
  {
    if |xs| == 0 then [x]
    else if key(x) <= key(xs[0]) then [x] + xs
    else
      var rest := Insert(key, x, xs[1..]);
      assert xs == [xs[0]] + xs[1..];
      HeadBoundsRest(key, xs, x, rest);
      SortedCons(key, xs[0], rest);
      [xs[0]] + rest
  }

  /** When `x` goes after the head, every element of the insertion into the tail is at
      least the head. */
  lemma HeadBoundsRest<T>(key: T -> int, xs: seq<T>, x: T, rest: seq<T>)
    requires |xs| > 0 && SortedBy(key, xs) && key(xs[0]) < key(x)
    requires multiset(rest) == multiset(xs[1..]) + multiset{x}
    ensures forall y | y in rest :: key(xs[0]) <= key(y)
  {
    forall y | y in rest ensures key(xs[0]) <= key(y) {
      assert y in multiset(rest);
      assert y == x || y in multiset(xs[1..]);
      if y != x {
        var j :| 0 <= j < |xs[1..]| && xs[1..][j] == y;
        assert xs[j + 1] == y;
      }
    }
  }

  /** An ordered sequence stays ordered behind a head no larger than any of its elements. */
  lemma SortedCons<T>(key: T -> int, h: T, rest: seq<T>)
    requires SortedBy(key, rest)
    requires forall y | y in rest :: key(h) <= key(y)
    ensures SortedBy(key, [h] + rest)
  {
    var r := [h] + rest;
    forall i, j | 0 <= i < j < |r| ensures key(r[i]) <= key(r[j]) {
      assert r[j] == rest[j - 1];
      if i == 0 {
        assert rest[j - 1] in rest;
      } else {
        assert r[i] == rest[i - 1];
      }
    }
  }

  /** Orders `xs` by `key` (what a database `.sort(field)` returns). */
  function SortBy<T>(key: T -> int, xs: seq<T>): (r: seq<T>)
    ensures SortedBy(key, r)
    ensures multiset(r) == multiset(xs)
    decreases |xs|
  {
    if |xs| == 0 then []
    else
      assert xs == [xs[0]] + xs[1..];
      Insert(key, xs[0], SortBy(key, xs[1..]))
  }
}

=== FILE: text.dfy ===
/** The JavaScript string operations the handlers use: `trim()` and `split(c)` with a
    one-character separator, plus the `join` that inverts `split`. */
module Text {

  /** The code points `String.prototype.trim` strips: ECMAScript WhiteSpace and LineTerminator. */
  predicate IsWhitespace(c: char)
    ensures c == ' ' || c == '\t' || c == '\n' || c == '\r' || c as int == 0xA0 || c as int == 0xFEFF ==> IsWhitespace(c)
    ensures ('0' <= c <= '9') || ('a' <= c <= 'z') || ('A' <= c <= 'Z') || c == ',' || c == '-' ==> !IsWhitespace(c)
  {
    var n := c as int;
    || n == 0x09 || n == 0x0A || n == 0x0B || n == 0x0C || n == 0x0D
    || n == 0x20 || n == 0xA0 || n == 0x1680
    || (0x2000 <= n <= 0x200A)
    || n == 0x2028 || n == 0x2029 || n == 0x202F || n == 0x205F
    || n == 0x3000 || n == 0xFEFF
  }

  /** Empty or whitespace only. */
  predicate IsBlank(s: string) {
    forall i | 0 <= i < |s| :: IsWhitespace(s[i])
  }

  /** Neither starts nor ends with whitespace. */
  predicate IsTrimmed(s: string) {
    |s| == 0 || (!IsWhitespace(s[0]) && !IsWhitespace(s[|s| - 1]))
  }

  /** `trimStart()`: the suffix left after the leading whitespace. */
  function TrimStart(s: string): (r: string)
    ensures |r| <= |s| && r == s[|s| - |r|..]
    ensures IsBlank(s[..|s| - |r|])
    ensures |r| == 0 || !IsWhitespace(r[0])
    decreases |s|
  {
    if |s| > 0 && IsWhitespace(s[0]) then
      var r := TrimStart(s[1..]);
      assert s[..|s| - |r|] == [s[0]] + s[1..][..|s[1..]| - |r|];
      r
    else s
  }

  /** `trimEnd()`: the prefix left before the trailing whitespace. */
  function TrimEnd(s: string): (r: string)
    ensures |r| <= |s| && r == s[..|r|]
    ensures IsBlank(s[|r|..])
    ensures |r| == 0 || !IsWhitespace(r[|r| - 1])
    decreases |s|
  {
    if |s| > 0 && IsWhitespace(s[|s| - 1]) then
      var r := TrimEnd(s[..|s| - 1]);
      assert s[|r|..] == s[..|s| - 1][|r|..] + [s[|s| - 1]];
      r
    else s
  }

  /** `trim()`. */
  function Trim(s: string): (r: string)
    ensures |r| <= |s|
    ensures IsTrimmed(r)
    ensures |r| == 0 <==> IsBlank(s)
    ensures IsTrimmed(s) ==> r == s
  {
    var t := TrimStart(s);
    var r := TrimEnd(t);
    assert |t| == 0 <==> IsBlank(s) by {
      if |t| > 0 {
        assert t[0] == s[|s| - |t|];
      } else {
        assert s[..|s|] == s;
      }
    }
    assert |r| == 0 ==> |t| == 0 by {
      if |t| > 0 {
        assert !IsBlank(t) by { assert !IsWhitespace(t[0]); }
        assert t[0..] == t;
      }
    }
    assert |r| > 0 ==> r[0] == t[0];
    r
  }

  /** `trim()` leaves a piece of its input: only whitespace is cut, and only at the ends. */
  lemma TrimIsInfix(s: string)
    ensures exists i, j :: 0 <= i <= j <= |s| && Trim(s) == s[i..j] && IsBlank(s[..i]) && IsBlank(s[j..])
  {
    var t := TrimStart(s);
    var r := TrimEnd(t);
    var i := |s| - |t|;
    var j := i + |r|;
    assert s[j..] == t[|r|..];
    assert r == s[i..j];
  }

  /** Leading whitespace in front of `s` does not survive `trimStart()`. */
  lemma {:induction false} TrimStartBlankPrefix(left: string, s: string)
    requires IsBlank(left)
    ensures TrimStart(left + s) == TrimStart(s)
    decreases |left|
  {
    if |left| > 0 {
      assert (left + s)[0] == left[0];
      assert (left + s)[1..] == left[1..] + s;
      TrimStartBlankPrefix(left[1..], s);
    } else {
      assert left + s == s;
    }
  }

  /** Trailing whitespace after `s` does not survive `trimEnd()`. */
  lemma {:induction false} TrimEndBlankSuffix(s: string, right: string)
    requires IsBlank(right)
    ensures TrimEnd(s + right) == TrimEnd(s)
    decreases |right|
  {
    if |right| > 0 {
      var k := |right| - 1;
      assert (s + right)[|s + right| - 1] == right[k];
      assert (s + right)[..|s + right| - 1] == s + right[..k];
      TrimEndBlankSuffix(s, right[..k]);
    } else {
      assert s + right == s;
    }
  }

  /** `trim()` recovers a trimmed, non-empty text from any whitespace padding around it. */
  lemma TrimPadded(name: string, left: string, right: string)
    requires IsTrimmed(name) && |name| > 0
    requires IsBlank(left) && IsBlank(right)
    ensures Trim(left + name + right) == name
  {
    assert left + name + right == left + (name + right);
    TrimStartBlankPrefix(left, name + right);
    assert (name + right)[0] == name[0];
    TrimEndBlankSuffix(name, right);
  }

  /** Trimming twice is trimming once. */
  lemma TrimIdempotent(s: string)
    ensures Trim(Trim(s)) == Trim(s)
  {
  }

  /** Number of occurrences of `c` in `s`. */
  function Count(s: string, c: char): nat
    decreases |s|
  {
    if |s| == 0 then 0 else (if s[0] == c then 1 else 0) + Count(s[1..], c)
  }

  /** `Array.prototype.join(sep)` for a one-character separator. */
  function Join(parts: seq<string>, sep: char): (r: string)
    ensures |parts| > 0 ==> parts[0] <= r
    ensures |parts| > 1 ==> |r| > |parts[0]| && r[|parts[0]|] == sep
    decreases |parts|
  {
    if |parts| == 0 then ""
    else if |parts| == 1 then parts[0]
    else parts[0] + [sep] + Join(parts[1..], sep)
  }

  /** `s.split(sep)` for a one-character separator: the pieces between the separators,
      so the empty string yields one empty piece. */
  function Split(s: string, sep: char): (r: seq<string>)
    ensures |r| == Count(s, sep) + 1
    ensures forall i | 0 <= i < |r| :: sep !in r[i]
    ensures Join(r, sep) == s
    decreases |s|
  {
    if |s| == 0 then [""]
    else
      var rest := Split(s[1..], sep);
      if s[0] == sep then
        assert Join([""] + rest, sep) == [sep] + Join(rest, sep);
        assert s == [s[0]] + s[1..];
        [""] + rest
      else
        var r := [[s[0]] + rest[0]] + rest[1..];
        assert Join(r, sep) == [s[0]] + Join(rest, sep) by {
          if |rest| > 1 {
            assert r[1..] == rest[1..];
          }
        }
        assert s == [s[0]] + s[1..];
        r
  }

  /** `split` undoes `join` when no part contains the separator. */
  lemma {:induction false} SplitJoin(parts: seq<string>, sep: char)
    requires |parts| > 0
    requires forall i | 0 <= i < |parts| :: sep !in parts[i]
    ensures Split(Join(parts, sep), sep) == parts
    decreases |parts|, |parts[0]|
  {
    if |parts| == 1 {
      SplitFree(parts[0], sep);
    } else if |parts[0]| == 0 {
      SplitJoin(parts[1..], sep);
      SplitJoinEmptyHead(parts[1..], sep);
      assert parts == [""] + parts[1..];
    } else {
      var p := parts[0];
      var shorter := [p[1..]] + parts[1..];
      forall i | 0 <= i < |shorter| ensures sep !in shorter[i] {
        if i == 0 {
          assert forall c | c in p[1..] :: c in p;
        }
      }
      SplitJoin(shorter, sep);
      assert p[0] in p;
      SplitJoinLongerHead(p, parts[1..], sep);
      assert parts == [p] + parts[1..];
    }
  }

  /** One step of `SplitJoin`: an empty first part. */
  lemma SplitJoinEmptyHead(tail: seq<string>, sep: char)
    requires |tail| > 0
    requires Split(Join(tail, sep), sep) == tail
    ensures Split(Join([""] + tail, sep), sep) == [""] + tail
  {
    assert ([""] + tail)[1..] == tail;
    assert Join([""] + tail, sep) == [sep] + Join(tail, sep);
    SplitAfterSep(Join(tail, sep), sep);
  }

  /** One step of `SplitJoin`: a first part one character longer. */
  lemma SplitJoinLongerHead(p: string, tail: seq<string>, sep: char)
    requires |p| > 0 && p[0] != sep && |tail| > 0
    requires Split(Join([p[1..]] + tail, sep), sep) == [p[1..]] + tail
    ensures Split(Join([p] + tail, sep), sep) == [p] + tail
  {
    var shorter := [p[1..]] + tail;
    assert ([p] + tail)[1..] == tail;
    assert shorter[1..] == tail;
    assert Join([p] + tail, sep) == [p[0]] + Join(shorter, sep) by {
      assert Join(shorter, sep) == p[1..] + [sep] + Join(tail, sep);
      assert p == [p[0]] + p[1..];
    }
    SplitAfterChar(p[0], Join(shorter, sep), sep);
    assert Split(Join(shorter, sep), sep)[0] == p[1..];
    assert Split(Join(shorter, sep), sep)[1..] == tail;
    assert [p[0]] + p[1..] == p;
  }

  /** A leading separator closes an empty first piece. */
  lemma SplitAfterSep(t: string, sep: char)
    ensures Split([sep] + t, sep) == [""] + Split(t, sep)
  {
    assert ([sep] + t)[1..] == t;
  }

  /** Any other leading character joins the first piece. */
  lemma SplitAfterChar(c: char, t: string, sep: char)
    requires c != sep
    ensures Split([c] + t, sep) == [[c] + Split(t, sep)[0]] + Split(t, sep)[1..]
  {
    assert ([c] + t)[1..] == t;
  }

  /** A string without the separator splits into itself alone. */
  lemma {:induction false} SplitFree(s: string, sep: char)
    requires sep !in s
    ensures Split(s, sep) == [s]
    decreases |s|
  {
    if |s| > 0 {
      assert forall c | c in s[1..] :: c in s;
      SplitFree(s[1..], sep);
      assert [s[0]] + s[1..] == s;
    }
  }
}

=== FILE: trip_lists.dfy ===
/** The list edits the trip-plan handlers make on a trip's packing list, budget lines and
    itinerary, and the rule that picks the booking a trip page shows. Each is a pure
    function of the old list and the request values. */
module TripLists {
  import opened Options
  import opened Model
  import opened Seqs
  import Text
  import Numerals
  import CommaList

  /** `req.body.item?.trim()`, pushed as `{name, packed: false}` only when non-empty. */
  function AddPackingItem(list: seq<PackingItem>, item: Option<string>): (r: seq<PackingItem>)
    ensures item.None? || Text.IsBlank(item.value) ==> r == list
    ensures item.Some? && !Text.IsBlank(item.value) ==>
              |r| == |list| + 1 && r[..|list|] == list
              && !r[|list|].packed && Text.IsTrimmed(r[|list|].name) && |r[|list|].name| > 0
              && r[|list|].name == Text.Trim(item.value)
  {
    if item.Some? && |Text.Trim(item.value)| > 0 then
      list + [PackingItem(Text.Trim(item.value), false)]
    else list
  }

  /** The item added by a non-blank input is the input without its surrounding
      whitespace: adding "  tent " and adding "tent" give the same list. */
  lemma AddPackingItemIgnoresPadding(list: seq<PackingItem>, name: string, left: string, right: string)
    requires Text.IsTrimmed(name) && |name| > 0
    requires Text.IsBlank(left) && Text.IsBlank(right)
    ensures AddPackingItem(list, Some(left + name + right)) == AddPackingItem(list, Some(name))
  {
    Text.TrimPadded(name, left, right);
  }

  /** `trip.packingList[index]` is a stored item exactly when the parsed index is an
      integer inside the list; `parseInt` failing (NaN) or a negative index selects nothing. */
  predicate ValidIndex<T>(list: seq<T>, index: Option<int>) {
    index.Some? && 0 <= index.value < |list|
  }

  /** Flip `packed` of the item at `index` when there is one. */
  function ToggleAt(list: seq<PackingItem>, index: Option<int>): (r: seq<PackingItem>)
    ensures |r| == |list|
    ensures forall j | 0 <= j < |list| :: r[j].name == list[j].name
    ensures forall j | 0 <= j < |list| && index != Some(j) :: r[j] == list[j]
    ensures ValidIndex(list, index) ==> r[index.value].packed == !list[index.value].packed
    ensures !ValidIndex(list, index) ==> r == list
  {
    if ValidIndex(list, index) then
      var i := index.value;
      list[i := list[i].(packed := !list[i].packed)]
    else list
  }

  /** Toggling the same index twice restores the list. */
  lemma ToggleTwice(list: seq<PackingItem>, index: Option<int>)
    ensures ToggleAt(ToggleAt(list, index), index) == list
  {
    var once := ToggleAt(list, index);
    var twice := ToggleAt(once, index);
    assert forall j | 0 <= j < |list| :: twice[j] == list[j];
  }

  /** Toggles of different items commute. */
  lemma ToggleCommutes(list: seq<PackingItem>, a: Option<int>, b: Option<int>)
    ensures ToggleAt(ToggleAt(list, a), b) == ToggleAt(ToggleAt(list, b), a) || a == b
  {
    if a != b {
      var ab := ToggleAt(ToggleAt(list, a), b);
      var ba := ToggleAt(ToggleAt(list, b), a);
      assert forall j | 0 <= j < |list| :: ab[j] == ba[j];
    }
  }

  /** `splice(index, 1)` behind the `!isNaN(index) && index >= 0 && index < length` guard. */
  function DeleteAt<T>(list: seq<T>, index: Option<int>): (r: seq<T>)
    ensures ValidIndex(list, index) ==> |r| == |list| - 1
    ensures ValidIndex(list, index) ==>
              forall j | 0 <= j < |r| :: r[j] == (if j < index.value then list[j] else list[j + 1])
    ensures !ValidIndex(list, index) ==> r == list
  {
    if ValidIndex(list, index) then RemoveAt(list, index.value) else list
  }

  /** Deleting the last index right after adding an item restores the list. */
  lemma DeleteLastAdded(list: seq<PackingItem>, item: string)
    requires !Text.IsBlank(item)
    ensures DeleteAt(AddPackingItem(list, Some(item)), Some(|list|)) == list
  {
    var longer := AddPackingItem(list, Some(item));
    var r := DeleteAt(longer, Some(|list|));
    assert longer[..|list|] == list;
    assert forall j | 0 <= j < |r| :: r[j] == longer[j];
  }

  /** The same, with the index written out in the URL and read back by `parseInt`. */
  lemma DeleteRenderedLastAdded(list: seq<PackingItem>, item: string)
    requires !Text.IsBlank(item)
    ensures DeleteAt(AddPackingItem(list, Some(item)), Numerals.ParseInt(Numerals.IntToString(|list|))) == list
  {
    Numerals.ParseIntToString(|list|);
    DeleteLastAdded(list, item);
  }

  /** Deleting keeps the remaining items in their original order. */
  lemma DeleteAtKeepsOrder<T>(list: seq<T>, index: Option<int>)
    ensures IsSubsequence(DeleteAt(list, index), list)
  {
    if ValidIndex(list, index) {
      RemoveAtIsSubsequence(list, index.value);
    } else {
      SubsequenceReflexive(list);
    }
  }

  /** Deleting index i removes one occurrence of the item at i and nothing else. */
  lemma DeleteAtRemovesOne<T>(list: seq<T>, i: int)
    requires 0 <= i < |list|
    ensures multiset(DeleteAt(list, Some(i))) + multiset{list[i]} == multiset(list)
  {
    assert list == list[..i] + [list[i]] + list[i + 1..];
    assert DeleteAt(list, Some(i)) == list[..i] + list[i + 1..];
  }

  /** `item.category !== category`: an entry without a category never equals the URL value. */
  predicate CategoryDiffers(item: BudgetItem, category: string) {
    item.category != Some(category)
  }

  /** `budget.filter(item => item.category !== category)`. */
  function DeleteCategory(budget: seq<BudgetItem>, category: string): (r: seq<BudgetItem>)
    ensures forall x | x in r :: x in budget && x.category != Some(category)
    ensures forall x | x in budget && x.category != Some(category) :: x in r
    ensures IsSubsequence(r, budget)
    ensures forall x :: multiset(r)[x] == if x.category != Some(category) then multiset(budget)[x] else 0
  {
    FilterByCounts(CategoryDiffers, category, budget);
    FilterBy(CategoryDiffers, category, budget)
  }

  /** Deleting a category twice is deleting it once. */
  lemma DeleteCategoryIdempotent(budget: seq<BudgetItem>, category: string)
    ensures DeleteCategory(DeleteCategory(budget, category), category) == DeleteCategory(budget, category)
  {
    FilterIdempotent(CategoryDiffers, category, budget);
  }

  /** Deleting a category no entry has changes nothing. */
  lemma DeleteAbsentCategory(budget: seq<BudgetItem>, category: string)
    requires forall i | 0 <= i < |budget| :: budget[i].category != Some(category)
    ensures DeleteCategory(budget, category) == budget
  {
    FilterAllKept(CategoryDiffers, category, budget);
  }

  /** `item.day.toString() !== day` for an entry that has a day, with `day` taken from the URL. */
  predicate DayDiffers(item: ItineraryDay, day: string) {
    item.day.Some? && Numerals.IntToString(item.day.value) != day
  }

  /** `itinerary.filter(item => item.day.toString() !== day)`. The filter throws as soon as it
      reaches an entry stored without a day, which gives `None`. */
  function DeleteDay(itinerary: seq<ItineraryDay>, day: string): (r: Option<seq<ItineraryDay>>)
    ensures r.None? <==> exists i | 0 <= i < |itinerary| :: itinerary[i].day.None?
    ensures r.Some? ==> forall x | x in r.value ::
              x in itinerary && x.day.Some? && Numerals.IntToString(x.day.value) != day
    ensures r.Some? ==> forall x | x in itinerary && x.day.Some? && Numerals.IntToString(x.day.value) != day ::
              x in r.value
    ensures r.Some? ==> IsSubsequence(r.value, itinerary)
    ensures r.Some? ==>
              forall x :: multiset(r.value)[x] ==
                (if x.day.Some? && Numerals.IntToString(x.day.value) != day then multiset(itinerary)[x] else 0)
  {
    if exists i | 0 <= i < |itinerary| :: itinerary[i].day.None? then None
    else
      FilterByCounts(DayDiffers, day, itinerary);
      Some(FilterBy(DayDiffers, day, itinerary))
  }

  /** Given the canonical rendering of a day number, exactly the entries for that day go. */
  lemma DeleteRenderedDay(itinerary: seq<ItineraryDay>, d: int)
    ensures var r := DeleteDay(itinerary, Numerals.IntToString(d));
            r.Some? ==>
              && (forall x | x in r.value :: x.day != Some(d))
              && (forall x | x in itinerary && x.day != Some(d) :: x in r.value)
  {
    var r := DeleteDay(itinerary, Numerals.IntToString(d));
    if r.Some? {
      forall x | x in itinerary && x.day != Some(d)
        ensures x.day.Some? && Numerals.IntToString(x.day.value) != Numerals.IntToString(d)
      {
        var i :| 0 <= i < |itinerary| && itinerary[i] == x;
        if Numerals.IntToString(x.day.value) == Numerals.IntToString(d) {
          Numerals.IntToStringInjective(x.day.value, d);
        }
      }
    }
  }

  /** A day written with a leading zero ("01") matches no entry, so nothing is deleted. */
  lemma DeleteZeroPaddedDay(itinerary: seq<ItineraryDay>, day: string)
    requires |day| >= 2 && day[0] == '0'
    ensures DeleteDay(itinerary, day).Some? ==> DeleteDay(itinerary, day).value == itinerary
  {
    if DeleteDay(itinerary, day).Some? {
      forall i | 0 <= i < |itinerary| ensures DayDiffers(itinerary[i], day) {
        var n := itinerary[i].day.value;
        if n >= 0 {
          assert Numerals.IntToString(n) == Numerals.Digits(n);
        }
      }
      FilterAllKept(DayDiffers, day, itinerary);
    }
  }

  /** Deleting a day number after appending an entry for that number is deleting it before. */
  lemma DeleteAddedDay(itinerary: seq<ItineraryDay>, entry: ItineraryDay, d: int)
    requires entry.day == Some(d)
    ensures DeleteDay(itinerary + [entry], Numerals.IntToString(d)) == DeleteDay(itinerary, Numerals.IntToString(d))
  {
    var day := Numerals.IntToString(d);
    var both := itinerary + [entry];
    assert (exists i | 0 <= i < |both| :: both[i].day.None?) <==>
           (exists i | 0 <= i < |itinerary| :: itinerary[i].day.None?) by {
      if exists i | 0 <= i < |both| :: both[i].day.None? {
        var i :| 0 <= i < |both| && both[i].day.None?;
        assert i < |itinerary| && itinerary[i] == both[i];
      }
      if exists i | 0 <= i < |itinerary| :: itinerary[i].day.None? {
        var i :| 0 <= i < |itinerary| && itinerary[i].day.None?;
        assert both[i] == itinerary[i];
      }
    }
    FilterAppend(DayDiffers, day, itinerary, [entry]);
    assert !DayDiffers(entry, day);
    assert FilterBy(DayDiffers, day, [entry]) == [];
    assert FilterBy(DayDiffers, day, both) == FilterBy(DayDiffers, day, itinerary) + [];
    assert FilterBy(DayDiffers, day, itinerary) + [] == FilterBy(DayDiffers, day, itinerary);
  }

  /** One entry without a day makes every delete-by-day on that itinerary throw. */
  lemma UndatedEntryBlocksDelete(itinerary: seq<ItineraryDay>, entry: ItineraryDay, day: string)
    requires entry in itinerary && entry.day.None?
    ensures DeleteDay(itinerary, day).None?
  {
    var i :| 0 <= i < |itinerary| && itinerary[i] == entry;
  }

  /** `{day, title, activities: activities.split(',').map(a => a.trim())}`. */
  function NewItineraryDay(day: Option<int>, title: Option<string>, activities: string): (r: ItineraryDay)
    ensures r.day == day && r.title == title
    ensures |r.activities| == Text.Count(activities, ',') + 1
    ensures forall i | 0 <= i < |r.activities| :: Text.IsTrimmed(r.activities[i]) && ',' !in r.activities[i]
    ensures r.activities == CommaList.ParseList(activities)
  {
    ItineraryDay(day, title, CommaList.ParseList(activities))
  }

  /** An empty activities field gives one empty activity, not none. */
  lemma EmptyActivities(day: Option<int>, title: Option<string>)
    ensures NewItineraryDay(day, title, "").activities == [""]
  {
    CommaList.ParseEmpty();
  }

  /** The activities entered as a list written with commas come back as that list. */
  lemma ActivitiesRoundTrip(day: Option<int>, title: Option<string>, items: seq<string>)
    requires |items| > 0
    requires forall i | 0 <= i < |items| :: Text.IsTrimmed(items[i]) && ',' !in items[i]
    ensures NewItineraryDay(day, title, Text.Join(items, ',')).activities == items
  {
    CommaList.ParseJoined(items);
  }

  /** The stored string of a booking status. */
  function StatusName(s: BookingStatus): string {
    match s
    case Pending => "pending"
    case Accepted => "accepted"
    case Rejected => "rejected"
  }

  function BookingStatusName(b: BookingRequest): string {
    StatusName(b.status)
  }

  /** `bookings.find(b => b.status === s)`, as an index. */
  function FirstWithStatus(bookings: seq<BookingRequest>, s: BookingStatus): (r: Option<nat>)
    ensures r.Some? ==> r.value < |bookings| && bookings[r.value].status == s
    ensures r.Some? ==> forall j | 0 <= j < r.value :: bookings[j].status != s
    ensures r.None? <==> forall j | 0 <= j < |bookings| :: bookings[j].status != s
  {
    assert forall b: BookingRequest :: BookingStatusName(b) == StatusName(s) <==> b.status == s;
    FirstIndex(bookings, BookingStatusName, StatusName(s))
  }

  /** `acceptedBooking || pendingBooking || null`. */
  function ActiveBooking(bookings: seq<BookingRequest>): (r: Option<nat>)
    ensures r.Some? ==> r.value < |bookings| && bookings[r.value].status != Rejected
    ensures r.None? <==> forall j | 0 <= j < |bookings| :: bookings[j].status == Rejected
    ensures (exists j | 0 <= j < |bookings| :: bookings[j].status == Accepted) ==>
              r == FirstWithStatus(bookings, Accepted)
    ensures (forall j | 0 <= j < |bookings| :: bookings[j].status != Accepted) ==>
              r == FirstWithStatus(bookings, Pending)
  {
    var accepted := FirstWithStatus(bookings, Accepted);
    if accepted.Some? then accepted else FirstWithStatus(bookings, Pending)
  }

  /** An accepted booking is preferred to any pending one, wherever it sits in the list. */
  lemma AcceptedBeatsPending(bookings: seq<BookingRequest>, i: nat)
    requires i < |bookings| && bookings[i].status == Accepted
    ensures ActiveBooking(bookings).Some?
    ensures bookings[ActiveBooking(bookings).value].status == Accepted
  {
  }

  /** Only rejections come after the active booking is gone: adding a rejected booking
      never changes which booking is active. */
  lemma RejectedNeverActive(bookings: seq<BookingRequest>, b: BookingRequest)
    requires b.status == Rejected
    ensures ActiveBooking(bookings + [b]) == ActiveBooking(bookings)
  {
    var xs := bookings + [b];
    assert forall j | 0 <= j < |bookings| :: xs[j] == bookings[j];
    FirstIndexAfterAppend(bookings, BookingStatusName, b, StatusName(Accepted));
    FirstIndexAfterAppend(bookings, BookingStatusName, b, StatusName(Pending));
  }
}

=== FILE: trip_planner.dfy ===
/** The trip-plan handlers: creating and listing trips, the trip page with its active
    booking, the list edits behind the ownership middleware (and the packing routes that
    have none), and the guarded trip delete. */
module TripPlanner {
  import opened Options
  import opened Model
  import opened Seqs
  import opened TripLists
  import Middleware
  import Numerals
  import Text

  /** The reply the ownership middleware sends when it stops a request. */
  function GateReply(g: Middleware.TripGate): (r: Reply)
    requires !g.Pass?
    ensures r.Answered() && r.Status() == g.Status()
  {
    match g
    case TripNotFound => NotFound
    case AccessDenied => Forbidden
    case GateError => ServerError
  }

  /** The store with trip `i` replaced and every other document as it was. */
  function WithTrip(store: Store, i: nat, t: TripPlan): (r: Store)
    requires i < |store.trips|
    ensures |r.trips| == |store.trips| && r.trips[i] == t
    ensures forall j | 0 <= j < |store.trips| && j != i :: r.trips[j] == store.trips[j]
    ensures r.(trips := store.trips) == store
  {
    store.(trips := store.trips[i := t])
  }

  /** Saving trip `i` twice keeps only the second save. */
  lemma WithTripTwice(store: Store, i: nat, t: TripPlan, t': TripPlan)
    requires i < |store.trips|
    ensures WithTrip(WithTrip(store, i, t), i, t') == WithTrip(store, i, t')
  {
    var a := store.trips[i := t][i := t'];
    var b := store.trips[i := t'];
    assert |a| == |b|;
    assert forall j | 0 <= j < |a| :: a[j] == b[j];
  }

  // ---- Creating and listing trips ----

  /** The trip form: a date is `None` when it is missing or not a parseable date. */
  datatype TripForm = TripForm(startDate: Option<Time>, endDate: Option<Time>, notes: Option<string>)

  /** `new Date(startDate) > new Date(endDate)`: an invalid date compares as NaN, which is
      never greater. */
  predicate StartsAfterEnd(start: Option<Time>, end: Option<Time>) {
    start.Some? && end.Some? && start.value > end.value
  }

  /** `req.user._id`: the authentication middleware builds `req.user` from `id`, `email` and
      `role` only, so this is always undefined. */
  function UnderscoreId(user: AuthUser): Option<Id> {
    None
  }

  /** `{user: owner, destination}` as a trip query. An undefined owner is sent as `null`,
      which matches no trip: every trip has an owner. */
  predicate TripTo(t: TripPlan, owner: Option<Id>, destination: Id) {
    owner.Some? && t.user == owner.value && t.destination == destination
  }

  predicate HasTripTo(trips: seq<TripPlan>, owner: Option<Id>, destination: Id) {
    exists i | 0 <= i < |trips| :: TripTo(trips[i], owner, destination)
  }

  /** The document `TripPlan.create` stores; `notes` falls back to the schema default ''. */
  function NewTrip(id: Id, owner: Id, destination: Id, start: Time, end: Time,
                   notes: Option<string>, now: Time): TripPlan {
    TripPlan(id, owner, destination, start, end, Some(notes.GetOr("")), [], [], [], now)
  }

  /** The add-trip handler once the duplicate query has been formed with `owner`. */
  function AddTripWith(store: Store, owner: Option<Id>, user: AuthUser, destination: Id,
                       form: TripForm, freshId: Id, now: Time): (r: Handled<Reply>)
    ensures HasTripTo(store.trips, owner, destination) ==> r == Handled(Ok, store)
    ensures !HasTripTo(store.trips, owner, destination) && StartsAfterEnd(form.startDate, form.endDate) ==>
              r == Handled(BadRequest, store)
    ensures r.store != store ==>
              && r.out == Ok && form.startDate.Some? && form.endDate.Some?
              && r.store == store.(trips := store.trips + [NewTrip(freshId, user.id, destination,
                                                               form.startDate.value, form.endDate.value, form.notes, now)])
    ensures r.out == Ok && !HasTripTo(store.trips, owner, destination) ==> r.store != store
    ensures !HasTripTo(store.trips, owner, destination) && !StartsAfterEnd(form.startDate, form.endDate) ==>
              (form.startDate.None? || form.endDate.None?) ==> r == Handled(ServerError, store)
    ensures !HasTripTo(store.trips, owner, destination) && form.startDate.Some? && form.endDate.Some? ==>
              form.startDate.value <= form.endDate.value ==> r.out == Ok && r.store != store
  {
    if HasTripTo(store.trips, owner, destination) then Handled(Ok, store)
    else if StartsAfterEnd(form.startDate, form.endDate) then Handled(BadRequest, store)
    else if form.startDate.None? || form.endDate.None? then Handled(ServerError, store)
    else
      var t := NewTrip(freshId, user.id, destination, form.startDate.value, form.endDate.value, form.notes, now);
      assert |store.trips + [t]| != |store.trips|;
      Handled(Ok, store.(trips := store.trips + [t]))
  }

  /** POST /add/:id as written: the duplicate query is keyed on `req.user._id`. A missing
      `req.user` or a malformed destination id throws inside the try block: 500. */
  function AddTripAsWritten(store: Store, user: Option<AuthUser>, destination: string,
                            form: TripForm, freshId: Id, now: Time): (r: Handled<Reply>)
    ensures user.None? || !IsObjectId(destination) ==> r == Handled(ServerError, store)
    ensures user.Some? && IsObjectId(destination) ==>
              r == AddTripWith(store, UnderscoreId(user.value), user.value, destination, form, freshId, now)
  {
    if user.None? || !IsObjectId(destination) then Handled(ServerError, store)
    else AddTripWith(store, UnderscoreId(user.value), user.value, destination, form, freshId, now)
  }

  /** The duplicate check as written never fires: a second trip to the same destination is
      created for the same traveler. */
  lemma AddTripAsWrittenDuplicates(store: Store, user: AuthUser, destination: string,
                                   start: Time, end: Time, freshId: Id, now: Time)
    requires IsObjectId(destination) && start <= end
    requires HasTripTo(store.trips, Some(user.id), destination)
    ensures var r := AddTripAsWritten(store, Some(user), destination,
                                      TripForm(Some(start), Some(end), None), freshId, now);
            && r.out == Ok
            && |r.store.trips| == |store.trips| + 1
            && exists i, j | 0 <= i < j < |r.store.trips| ::
                 TripTo(r.store.trips[i], Some(user.id), destination)
                 && TripTo(r.store.trips[j], Some(user.id), destination)
  {
    var r := AddTripAsWritten(store, Some(user), destination, TripForm(Some(start), Some(end), None), freshId, now);
    var i :| 0 <= i < |store.trips| && TripTo(store.trips[i], Some(user.id), destination);
    assert !HasTripTo(store.trips, None, destination);
    assert r.store.trips[i] == store.trips[i];
    assert TripTo(r.store.trips[|store.trips|], Some(user.id), destination);
  }

  /** POST /add/:id with the duplicate query keyed on `req.user.id`, the owner every trip
      is created with. */
  function AddTrip(store: Store, user: Option<AuthUser>, destination: string,
                   form: TripForm, freshId: Id, now: Time): (r: Handled<Reply>)
    ensures user.None? || !IsObjectId(destination) ==> r == Handled(ServerError, store)
    ensures user.Some? && IsObjectId(destination) && HasTripTo(store.trips, Some(user.value.id), destination) ==>
              r == Handled(Ok, store)
    ensures user.Some? && IsObjectId(destination) && !HasTripTo(store.trips, Some(user.value.id), destination) ==>
              && (StartsAfterEnd(form.startDate, form.endDate) ==> r == Handled(BadRequest, store))
              && (!StartsAfterEnd(form.startDate, form.endDate) && (form.startDate.None? || form.endDate.None?) ==>
                    r == Handled(ServerError, store))
              && (form.startDate.Some? && form.endDate.Some? && form.startDate.value <= form.endDate.value ==>
                    r.out == Ok && r.store != store)
    ensures r.store != store ==>
              && user.Some? && r.out == Ok && form.startDate.Some? && form.endDate.Some?
              && !StartsAfterEnd(form.startDate, form.endDate)
              && r.store == store.(trips := store.trips + [NewTrip(freshId, user.value.id, destination,
                                                               form.startDate.value, form.endDate.value, form.notes, now)])
  {
    if user.None? || !IsObjectId(destination) then Handled(ServerError, store)
    else AddTripWith(store, Some(user.value.id), user.value, destination, form, freshId, now)
  }

  /** A start date after the end date is refused with 400 and creates nothing. */
  lemma AddTripRejectsReversedDates(store: Store, user: AuthUser, destination: string,
                                    form: TripForm, freshId: Id, now: Time)
    requires IsObjectId(destination) && StartsAfterEnd(form.startDate, form.endDate)
    requires !HasTripTo(store.trips, Some(user.id), destination)
    ensures AddTrip(store, Some(user), destination, form, freshId, now) == Handled(BadRequest, store)
  {
  }

  /** Each traveler has at most one trip per destination. */
  predicate OneTripPerDestination(trips: seq<TripPlan>) {
    forall i, j | 0 <= i < j < |trips| ::
      trips[i].user != trips[j].user || trips[i].destination != trips[j].destination
  }

  /** With the corrected duplicate check, adding a trip keeps one trip per destination. */
  lemma AddTripKeepsOneTripPerDestination(store: Store, user: Option<AuthUser>, destination: string,
                                          form: TripForm, freshId: Id, now: Time)
    requires OneTripPerDestination(store.trips)
    ensures OneTripPerDestination(AddTrip(store, user, destination, form, freshId, now).store.trips)
  {
    var r := AddTrip(store, user, destination, form, freshId, now);
    if r.store != store {
      var n := |store.trips|;
      var ts := r.store.trips;
      forall i, j | 0 <= i < j < |ts|
        ensures ts[i].user != ts[j].user || ts[i].destination != ts[j].destination
      {
        if j == n {
          assert ts[i] == store.trips[i];
          assert !TripTo(store.trips[i], Some(user.value.id), destination);
        } else {
          assert ts[i] == store.trips[i] && ts[j] == store.trips[j];
        }
      }
    }
  }

  predicate OwnedBy(t: TripPlan, owner: Id) {
    t.user == owner
  }

  /** GET /: the requester's trips, in store order; no `req.user` throws inside the try: 500. */
  function MyTrips(store: Store, user: Option<AuthUser>): (r: Shown<seq<TripPlan>>)
    ensures user.None? <==> r == Refused(ServerError)
    ensures r.Shown? ==> forall t :: t in r.view <==> t in store.trips && t.user == user.value.id
    ensures r.Shown? ==> IsSubsequence(r.view, store.trips)
    ensures r.Shown? ==> forall t :: multiset(r.view)[t] == if t.user == user.value.id then multiset(store.trips)[t] else 0
  {
    if user.None? then Refused(ServerError)
    else
      FilterByCounts(OwnedBy, user.value.id, store.trips);
      Shown(FilterBy(OwnedBy, user.value.id, store.trips))
  }

  // ---- The trip page ----

  /** `{trip, traveler}` as a booking query. */
  predicate ForTripAndTraveler(b: BookingRequest, key: (Id, Id)) {
    b.trip == key.0 && b.traveler == key.1
  }

  /** `sort({createdAt: -1})` as an ascending key. */
  function NewestFirst(b: BookingRequest): int {
    -b.createdAt
  }

  /** What GET /:tripId answers with. */
  datatype TripView = TripView(trip: TripPlan, bookings: seq<BookingRequest>, booking: Option<BookingRequest>,
                               showBookingButton: bool, rejectedBooking: Option<BookingRequest>)

  function Pick(bookings: seq<BookingRequest>, i: Option<nat>): (r: Option<BookingRequest>)
    requires i.Some? ==> i.value < |bookings|
    ensures r.Some? <==> i.Some?
    ensures r.Some? ==> r.value == bookings[i.value]
  {
    if i.Some? then Some(bookings[i.value]) else None
  }

  /** The page for a trip given its bookings, newest first. */
  function ViewOf(trip: TripPlan, bookings: seq<BookingRequest>): (v: TripView)
    ensures v.trip == trip && v.bookings == bookings
    ensures v.showBookingButton <==> v.booking.None?
    ensures v.booking.None? <==> forall b | b in bookings :: b.status == Rejected
    ensures v.booking.Some? ==> v.booking.value in bookings && v.booking.value.status != Rejected
    ensures (exists b | b in bookings :: b.status == Accepted) ==> v.booking.Some? && v.booking.value.status == Accepted
    ensures v.rejectedBooking.Some? ==> v.rejectedBooking.value in bookings && v.rejectedBooking.value.status == Rejected
  {
    var active := ActiveBooking(bookings);
    var accepted := FirstWithStatus(bookings, Accepted);
    assert (exists b | b in bookings :: b.status == Accepted) ==> accepted.Some?;
    assert (forall b | b in bookings :: b.status == Rejected) ==> active.None?;
    TripView(trip, bookings, Pick(bookings, active), active.None?, Pick(bookings, FirstWithStatus(bookings, Rejected)))
  }

  /** The requester's bookings for the trip, newest first. */
  function TripBookings(store: Store, tripId: Id, traveler: Id): (r: seq<BookingRequest>)
    ensures forall b :: b in r <==> b in store.bookings && b.trip == tripId && b.traveler == traveler
    ensures forall b :: multiset(r)[b] ==
                          if b.trip == tripId && b.traveler == traveler then multiset(store.bookings)[b] else 0
    ensures SortedBy(NewestFirst, r)
  {
    var mine := FilterBy(ForTripAndTraveler, (tripId, traveler), store.bookings);
    var r := SortBy(NewestFirst, mine);
    FilterByCounts(ForTripAndTraveler, (tripId, traveler), store.bookings);
    assert forall b :: b in r <==> b in multiset(mine);
    r
  }

  /** GET /:tripId behind the ownership middleware. The page shows the booking button
      exactly when every one of the requester's bookings for the trip was rejected. */
  function TripDetails(store: Store, user: Option<AuthUser>, tripId: string): (r: Shown<TripView>)
    ensures !Middleware.Authorize(store, user, tripId).Pass? ==>
              r == Refused(GateReply(Middleware.Authorize(store, user, tripId)))
    ensures r.Shown? ==>
              && Middleware.Authorize(store, user, tripId).Pass?
              && r.view.trip == Middleware.Authorize(store, user, tripId).trip
              && r.view.bookings == TripBookings(store, tripId, user.value.id)
              && r.view == ViewOf(r.view.trip, r.view.bookings)
    ensures Middleware.Authorize(store, user, tripId).Pass? ==> r.Shown?
  {
    var gate := Middleware.Authorize(store, user, tripId);
    if !gate.Pass? then Refused(GateReply(gate))
    else Shown(ViewOf(gate.trip, TripBookings(store, tripId, user.value.id)))
  }

  /** The booking button is offered exactly when none of the requester's bookings for the
      trip is pending or accepted. */
  lemma BookingButtonIffNoActiveBooking(store: Store, user: Option<AuthUser>, tripId: string)
    requires TripDetails(store, user, tripId).Shown?
    ensures var v := TripDetails(store, user, tripId).view;
            v.showBookingButton <==>
              forall b | b in store.bookings && b.trip == tripId && b.traveler == user.value.id ::
                b.status == Rejected
  {
  }

  /** An accepted booking is the one shown whenever the requester has one for the trip. */
  lemma AcceptedBookingShown(store: Store, user: Option<AuthUser>, tripId: string, b: BookingRequest)
    requires TripDetails(store, user, tripId).Shown?
    requires b in store.bookings && b.trip == tripId && b.traveler == user.value.id && b.status == Accepted
    ensures var v := TripDetails(store, user, tripId).view;
            v.booking.Some? && v.booking.value.status == Accepted
  {
    var v := TripDetails(store, user, tripId).view;
    assert b in v.bookings;
  }

  /** GET /:tripId/booking/:bookingId behind the ownership middleware. The booking lookup
      has no try: a malformed booking id, or a booking whose trip or traveler document is
      gone, throws and gets no answer. */
  function BookingDetails(store: Store, user: Option<AuthUser>, tripId: string, bookingId: string): (r: Shown<BookingRequest>)
    ensures !Middleware.Authorize(store, user, tripId).Pass? ==>
              r == Refused(GateReply(Middleware.Authorize(store, user, tripId)))
    ensures Middleware.Authorize(store, user, tripId).Pass? && !IsObjectId(bookingId) ==> r == Refused(NoResponse)
    ensures Middleware.Authorize(store, user, tripId).Pass? && Locate(store.bookings, BookingId, bookingId).Missing? ==>
              r == Refused(Forbidden)
    ensures r.Shown? ==> r.view in store.bookings && r.view.id == bookingId
                         && r.view.trip == tripId && r.view.traveler == user.value.id
    ensures Middleware.Authorize(store, user, tripId).Pass? && Locate(store.bookings, BookingId, bookingId).At? ==>
              var b := store.bookings[Locate(store.bookings, BookingId, bookingId).index];
              && (b.trip == tripId && b.traveler == user.value.id && FirstIndex(store.users, UserId, b.traveler).Some? ==>
                    r == Shown(b))
              && (b.trip == tripId && FirstIndex(store.users, UserId, b.traveler).None? ==> r == Refused(NoResponse))
              && (b.trip == tripId && FirstIndex(store.users, UserId, b.traveler).Some? && b.traveler != user.value.id ==>
                    r == Refused(Forbidden))
  {
    var gate := Middleware.Authorize(store, user, tripId);
    if !gate.Pass? then Refused(GateReply(gate))
    else match Locate(store.bookings, BookingId, bookingId)
      case BadId => Refused(NoResponse)
      case Missing => Refused(Forbidden)
      case At(i) =>
        var b := store.bookings[i];
        if FirstIndex(store.trips, TripId, b.trip).None? then Refused(NoResponse)
        else if b.trip != tripId then Refused(Forbidden)
        else if FirstIndex(store.users, UserId, b.traveler).None? then Refused(NoResponse)
        else if b.traveler != user.value.id then Refused(Forbidden)
        else Shown(b)
  }

  /** `Guide.find({location: name, status: 'verified'})`: every verified guide located at
      `name`, as often as it is stored, and in store order. */
  ghost predicate ListsGuidesAt(view: seq<GuideProfile>, guides: seq<GuideProfile>, name: string) {
    && (forall g :: g in view <==> g in guides && VerifiedAt(g, name))
    && (forall g :: multiset(view)[g] == if VerifiedAt(g, name) then multiset(guides)[g] else 0)
    && IsSubsequence(view, guides)
  }

  /** GET /:id/book-guide: the verified guides whose location is the trip's destination
      name. No ownership check; a malformed id, or a trip whose destination document is
      gone, fails inside the try: 500. */
  function BookGuide(store: Store, tripId: string): (r: Shown<seq<GuideProfile>>)
    ensures !IsObjectId(tripId) ==> r == Refused(ServerError)
    ensures Locate(store.trips, TripId, tripId).Missing? ==> r == Refused(NotFound)
    ensures r.Shown? ==>
              && Locate(store.trips, TripId, tripId).At?
              && var t := store.trips[Locate(store.trips, TripId, tripId).index];
                 exists d | d in store.destinations :: d.id == t.destination && ListsGuidesAt(r.view, store.guides, d.name)
    ensures Locate(store.trips, TripId, tripId).At? ==>
              var t := store.trips[Locate(store.trips, TripId, tripId).index];
              r.Shown? <==> exists j | 0 <= j < |store.destinations| :: store.destinations[j].id == t.destination
  {
    match Locate(store.trips, TripId, tripId)
    case BadId => Refused(ServerError)
    case Missing => Refused(NotFound)
    case At(i) =>
      match FirstIndex(store.destinations, DestinationId, store.trips[i].destination)
      case None => Refused(ServerError)
      case Some(k) =>
        var d := store.destinations[k];
        var guides := FilterBy(VerifiedAt, d.name, store.guides);
        FilterByCounts(VerifiedAt, d.name, store.guides);
        assert ListsGuidesAt(guides, store.guides, d.name);
        assert d in store.destinations;
        Shown(guides)
  }

  // ---- Edits behind the ownership middleware ----

  /** Saves `t` in place of the trip the ownership middleware let through: that trip, owned
      by the requester and carrying the id asked for, is replaced; no other trip and no
      other collection changes. */
  function EditOwnedTrip(store: Store, user: Option<AuthUser>, tripId: string, t: TripPlan): (r: Handled<Reply>)
    requires Middleware.Authorize(store, user, tripId).Pass?
    ensures r.out == Ok
    ensures |r.store.trips| == |store.trips|
    ensures var i := Middleware.Authorize(store, user, tripId).index;
            && store.trips[i].id == tripId && store.trips[i].user == user.value.id
            && r.store.trips[i] == t
            && forall j | 0 <= j < |store.trips| && j != i :: r.store.trips[j] == store.trips[j]
    ensures r.store.(trips := store.trips) == store
  {
    Handled(Ok, WithTrip(store, Middleware.Authorize(store, user, tripId).index, t))
  }

  /** POST /:tripId/itinerary. No try: a missing `activities` field throws on `split`. A
      missing `day` (`None`) is stored as an entry without a day. */
  function AddItinerary(store: Store, user: Option<AuthUser>, tripId: string, day: Option<int>,
                        title: Option<string>, activities: Option<string>): (r: Handled<Reply>)
    ensures !Middleware.Authorize(store, user, tripId).Pass? ==>
              r == Handled(GateReply(Middleware.Authorize(store, user, tripId)), store)
    ensures Middleware.Authorize(store, user, tripId).Pass? && activities.None? ==> r == Handled(NoResponse, store)
    ensures Middleware.Authorize(store, user, tripId).Pass? && activities.Some? ==> r.out == Ok
    ensures r.out == Ok ==>
              && activities.Some?
              && var gate := Middleware.Authorize(store, user, tripId);
                 && gate.Pass?
                 && r.store == WithTrip(store, gate.index,
                      gate.trip.(itinerary := gate.trip.itinerary + [NewItineraryDay(day, title, activities.value)]))
  {
    var gate := Middleware.Authorize(store, user, tripId);
    if !gate.Pass? then Handled(GateReply(gate), store)
    else if activities.None? then Handled(NoResponse, store)
    else EditOwnedTrip(store, user, tripId,
                       gate.trip.(itinerary := gate.trip.itinerary + [NewItineraryDay(day, title, activities.value)]))
  }

  /** POST /:tripId/budget: `$push` of `{category, amount}`; `amount` is the number the form
      value converts to. */
  function AddBudget(store: Store, user: Option<AuthUser>, tripId: string, category: Option<string>,
                     amount: int): (r: Handled<Reply>)
    ensures !Middleware.Authorize(store, user, tripId).Pass? ==>
              r == Handled(GateReply(Middleware.Authorize(store, user, tripId)), store)
    ensures Middleware.Authorize(store, user, tripId).Pass? ==>
              var gate := Middleware.Authorize(store, user, tripId);
              r == Handled(Ok, WithTrip(store, gate.index,
                                        gate.trip.(budget := gate.trip.budget + [BudgetItem(category, amount)])))
  {
    var gate := Middleware.Authorize(store, user, tripId);
    if !gate.Pass? then Handled(GateReply(gate), store)
    else EditOwnedTrip(store, user, tripId, gate.trip.(budget := gate.trip.budget + [BudgetItem(category, amount)]))
  }

  /** POST /:tripId/budget/:category/delete. */
  function DeleteBudget(store: Store, user: Option<AuthUser>, tripId: string, category: string): (r: Handled<Reply>)
    ensures !Middleware.Authorize(store, user, tripId).Pass? ==>
              r == Handled(GateReply(Middleware.Authorize(store, user, tripId)), store)
    ensures Middleware.Authorize(store, user, tripId).Pass? ==>
              var gate := Middleware.Authorize(store, user, tripId);
              r == Handled(Ok, WithTrip(store, gate.index,
                                        gate.trip.(budget := DeleteCategory(gate.trip.budget, category))))
  {
    var gate := Middleware.Authorize(store, user, tripId);
    if !gate.Pass? then Handled(GateReply(gate), store)
    else EditOwnedTrip(store, user, tripId, gate.trip.(budget := DeleteCategory(gate.trip.budget, category)))
  }

  /** After the delete, the trip's budget has no entry of the category and every other entry
      is still there, in its order. */
  lemma DeleteBudgetRemovesCategory(store: Store, user: Option<AuthUser>, tripId: string, category: string)
    requires Middleware.Authorize(store, user, tripId).Pass?
    ensures var gate := Middleware.Authorize(store, user, tripId);
            var after := DeleteBudget(store, user, tripId, category).store.trips[gate.index].budget;
            && (forall x | x in after :: x.category != Some(category))
            && (forall x | x in gate.trip.budget && x.category != Some(category) :: x in after)
            && IsSubsequence(after, gate.trip.budget)
            && forall x :: multiset(after)[x] ==
                 if x.category != Some(category) then multiset(gate.trip.budget)[x] else 0
  {
  }

  /** POST /:tripId/notes: the submitted notes replace the old ones, even when absent. */
  function UpdateNotes(store: Store, user: Option<AuthUser>, tripId: string, notes: Option<string>): (r: Handled<Reply>)
    ensures !Middleware.Authorize(store, user, tripId).Pass? ==>
              r == Handled(GateReply(Middleware.Authorize(store, user, tripId)), store)
    ensures Middleware.Authorize(store, user, tripId).Pass? ==>
              var gate := Middleware.Authorize(store, user, tripId);
              r == Handled(Ok, WithTrip(store, gate.index, gate.trip.(notes := notes)))
  {
    var gate := Middleware.Authorize(store, user, tripId);
    if !gate.Pass? then Handled(GateReply(gate), store)
    else EditOwnedTrip(store, user, tripId, gate.trip.(notes := notes))
  }

  /** POST /:tripId/itinerary/delete/:day. No try: when the trip holds an entry without a
      day, the filter throws, nothing is saved and no answer is sent. */
  function DeleteItineraryDay(store: Store, user: Option<AuthUser>, tripId: string, day: string): (r: Handled<Reply>)
    ensures !Middleware.Authorize(store, user, tripId).Pass? ==>
              r == Handled(GateReply(Middleware.Authorize(store, user, tripId)), store)
    ensures r.out == NoResponse <==>
              && Middleware.Authorize(store, user, tripId).Pass?
              && DeleteDay(Middleware.Authorize(store, user, tripId).trip.itinerary, day).None?
    ensures r.out == NoResponse ==> r.store == store
    ensures Middleware.Authorize(store, user, tripId).Pass? ==>
              DeleteDay(Middleware.Authorize(store, user, tripId).trip.itinerary, day).Some? ==> r.out == Ok
    ensures r.out == Ok ==>
              var gate := Middleware.Authorize(store, user, tripId);
              && gate.Pass?
              && DeleteDay(gate.trip.itinerary, day).Some?
              && r.store == WithTrip(store, gate.index,
                                     gate.trip.(itinerary := DeleteDay(gate.trip.itinerary, day).value))
  {
    var gate := Middleware.Authorize(store, user, tripId);
    if !gate.Pass? then Handled(GateReply(gate), store)
    else match DeleteDay(gate.trip.itinerary, day)
      case None => Handled(NoResponse, store)
      case Some(rest) => EditOwnedTrip(store, user, tripId, gate.trip.(itinerary := rest))
  }

  /** An edit that keeps the trip's id and owner keeps the ownership gate open, at the same
      position, with the edited trip. */
  lemma GateAfterEdit(store: Store, user: Option<AuthUser>, tripId: string, t: TripPlan)
    requires Middleware.Authorize(store, user, tripId).Pass?
    requires t.id == Middleware.Authorize(store, user, tripId).trip.id
    requires t.user == Middleware.Authorize(store, user, tripId).trip.user
    ensures var i := Middleware.Authorize(store, user, tripId).index;
            Middleware.Authorize(WithTrip(store, i, t), user, tripId) == Middleware.Pass(i, t)
  {
    var i := Middleware.Authorize(store, user, tripId).index;
    FirstIndexAfterUpdate(store.trips, TripId, i, t, tripId);
  }

  /** Adding a budget line and then deleting its category is deleting the category. */
  lemma AddThenDeleteBudget(store: Store, user: Option<AuthUser>, tripId: string, category: string, amount: int)
    ensures DeleteBudget(AddBudget(store, user, tripId, Some(category), amount).store, user, tripId, category)
            == DeleteBudget(store, user, tripId, category)
  {
    var gate := Middleware.Authorize(store, user, tripId);
    if gate.Pass? {
      var line := BudgetItem(Some(category), amount);
      var t := gate.trip.(budget := gate.trip.budget + [line]);
      GateAfterEdit(store, user, tripId, t);
      FilterAppend(CategoryDiffers, category, gate.trip.budget, [line]);
      assert FilterBy(CategoryDiffers, category, [line]) == [];
      var s1 := WithTrip(store, gate.index, t);
      var done := gate.trip.(budget := DeleteCategory(gate.trip.budget, category));
      assert t.(budget := DeleteCategory(t.budget, category)) == done;
      WithTripTwice(store, gate.index, t, done);
    }
  }

  /** The last notes saved are the ones kept. */
  lemma NotesLastWins(store: Store, user: Option<AuthUser>, tripId: string, first: Option<string>,
                      second: Option<string>)
    ensures UpdateNotes(UpdateNotes(store, user, tripId, first).store, user, tripId, second)
            == UpdateNotes(store, user, tripId, second)
  {
    var gate := Middleware.Authorize(store, user, tripId);
    if gate.Pass? {
      var t := gate.trip.(notes := first);
      GateAfterEdit(store, user, tripId, t);
      var s1 := WithTrip(store, gate.index, t);
      WithTripTwice(store, gate.index, t, gate.trip.(notes := second));
    }
  }

  /** Adding a day and then deleting that day's number answers as deleting the number alone,
      and when that delete goes through it leaves the same store. */
  lemma AddThenDeleteDay(store: Store, user: Option<AuthUser>, tripId: string, day: int,
                         title: Option<string>, activities: string)
    ensures var d := Numerals.IntToString(day);
            var added := AddItinerary(store, user, tripId, Some(day), title, Some(activities)).store;
            var a := DeleteItineraryDay(added, user, tripId, d);
            var b := DeleteItineraryDay(store, user, tripId, d);
            && a.out == b.out
            && a.store == (if b.out == Ok then b.store else added)
  {
    var gate := Middleware.Authorize(store, user, tripId);
    if gate.Pass? {
      var d := Numerals.IntToString(day);
      var entry := NewItineraryDay(Some(day), title, activities);
      var t := gate.trip.(itinerary := gate.trip.itinerary + [entry]);
      var s1 := WithTrip(store, gate.index, t);
      assert AddItinerary(store, user, tripId, Some(day), title, Some(activities)).store == s1;
      GateAfterEdit(store, user, tripId, t);
      DeleteAddedDay(gate.trip.itinerary, entry, day);
      var done := DeleteDay(gate.trip.itinerary, d);
      if done.Some? {
        var edited := gate.trip.(itinerary := done.value);
        assert DeleteItineraryDay(s1, user, tripId, d).store == WithTrip(s1, gate.index, edited);
        WithTripTwice(store, gate.index, t, edited);
      }
    }
  }

  /** Once an entry without a day is stored, every delete-by-day on the trip goes
      unanswered and changes nothing. */
  lemma UndatedDayBlocksDeletes(store: Store, user: Option<AuthUser>, tripId: string,
                                title: Option<string>, activities: string, day: string)
    requires Middleware.Authorize(store, user, tripId).Pass?
    ensures var added := AddItinerary(store, user, tripId, None, title, Some(activities)).store;
            DeleteItineraryDay(added, user, tripId, day) == Handled(NoResponse, added)
  {
    var gate := Middleware.Authorize(store, user, tripId);
    var entry := NewItineraryDay(None, title, activities);
    var t := gate.trip.(itinerary := gate.trip.itinerary + [entry]);
    var added := WithTrip(store, gate.index, t);
    assert AddItinerary(store, user, tripId, None, title, Some(activities)).store == added;
    GateAfterEdit(store, user, tripId, t);
    assert entry in t.itinerary;
    UndatedEntryBlocksDelete(t.itinerary, entry, day);
    assert Middleware.Authorize(added, user, tripId) == Middleware.Pass(gate.index, t);
  }

  // ---- Packing routes: no ownership middleware ----

  /** POST /:id/packing. Any requester may edit any trip's packing list. */
  function AddPacking(store: Store, tripId: string, item: Option<string>): (r: Handled<Reply>)
    ensures !IsObjectId(tripId) ==> r == Handled(ServerError, store)
    ensures Locate(store.trips, TripId, tripId).Missing? ==> r == Handled(NotFound, store)
    ensures Locate(store.trips, TripId, tripId).At? ==>
              var i := Locate(store.trips, TripId, tripId).index;
              r == Handled(Ok, WithTrip(store, i,
                                        store.trips[i].(packingList := AddPackingItem(store.trips[i].packingList, item))))
  {
    match Locate(store.trips, TripId, tripId)
    case BadId => Handled(ServerError, store)
    case Missing => Handled(NotFound, store)
    case At(i) =>
      Handled(Ok, WithTrip(store, i, store.trips[i].(packingList := AddPackingItem(store.trips[i].packingList, item))))
  }

  /** POST /:id/packing/:index/toggle, with the index read by `parseInt`. */
  function TogglePacking(store: Store, tripId: string, index: string): (r: Handled<Reply>)
    ensures !IsObjectId(tripId) ==> r == Handled(ServerError, store)
    ensures Locate(store.trips, TripId, tripId).Missing? ==> r == Handled(NotFound, store)
    ensures Locate(store.trips, TripId, tripId).At? ==>
              var i := Locate(store.trips, TripId, tripId).index;
              r == Handled(Ok, WithTrip(store, i,
                                        store.trips[i].(packingList := ToggleAt(store.trips[i].packingList, Numerals.ParseInt(index)))))
  {
    match Locate(store.trips, TripId, tripId)
    case BadId => Handled(ServerError, store)
    case Missing => Handled(NotFound, store)
    case At(i) =>
      var list := ToggleAt(store.trips[i].packingList, Numerals.ParseInt(index));
      Handled(Ok, WithTrip(store, i, store.trips[i].(packingList := list)))
  }

  /** POST /:id/packing/:index/delete. No try: a malformed trip id throws and gets no answer. */
  function DeletePacking(store: Store, tripId: string, index: string): (r: Handled<Reply>)
    ensures !IsObjectId(tripId) ==> r == Handled(NoResponse, store)
    ensures Locate(store.trips, TripId, tripId).Missing? ==> r == Handled(NotFound, store)
    ensures Locate(store.trips, TripId, tripId).At? ==>
              var i := Locate(store.trips, TripId, tripId).index;
              r == Handled(Ok, WithTrip(store, i,
                                        store.trips[i].(packingList := DeleteAt(store.trips[i].packingList, Numerals.ParseInt(index)))))
  {
    match Locate(store.trips, TripId, tripId)
    case BadId => Handled(NoResponse, store)
    case Missing => Handled(NotFound, store)
    case At(i) =>
      var list := DeleteAt(store.trips[i].packingList, Numerals.ParseInt(index));
      Handled(Ok, WithTrip(store, i, store.trips[i].(packingList := list)))
  }

  /** Toggling the item at a rendered index twice restores the trip. */
  lemma TogglePackingTwice(store: Store, tripId: string, k: nat)
    ensures TogglePacking(TogglePacking(store, tripId, Numerals.IntToString(k)).store, tripId,
                          Numerals.IntToString(k)).store == store
  {
    if Locate(store.trips, TripId, tripId).At? {
      var i := Locate(store.trips, TripId, tripId).index;
      var t := store.trips[i];
      var t1 := t.(packingList := ToggleAt(t.packingList, Some(k)));
      var s1 := PackingToggled(store, tripId, k);
      assert s1 == WithTrip(store, i, t1);
      var s2 := PackingToggled(s1, tripId, k);
      ToggleTwice(t.packingList, Some(k));
      assert t1.(packingList := ToggleAt(t1.packingList, Some(k))) == t;
      assert s2 == WithTrip(s1, i, t);
      WithTripTwice(store, i, t1, t);
      assert store.trips[i := t] == store.trips;
    }
  }

  /** The store after toggling the item at a rendered index, with the trip still found
      where it was. */
  lemma PackingToggled(store: Store, tripId: string, k: nat) returns (s1: Store)
    requires Locate(store.trips, TripId, tripId).At?
    ensures var i := Locate(store.trips, TripId, tripId).index;
            && s1 == TogglePacking(store, tripId, Numerals.IntToString(k)).store
            && s1 == WithTrip(store, i, store.trips[i].(packingList := ToggleAt(store.trips[i].packingList, Some(k))))
            && Locate(s1.trips, TripId, tripId) == At(i)
  {
    var i := Locate(store.trips, TripId, tripId).index;
    Numerals.ParseIntToString(k);
    s1 := WithTrip(store, i, store.trips[i].(packingList := ToggleAt(store.trips[i].packingList, Some(k))));
    FirstIndexAfterUpdate(store.trips, TripId, i, s1.trips[i], tripId);
  }

  /** Adding an item and then deleting the last index restores the trip. */
  lemma AddThenDeletePacking(store: Store, tripId: string, item: string)
    requires Locate(store.trips, TripId, tripId).At?
    requires !Text.IsBlank(item)
    ensures var n := |store.trips[Locate(store.trips, TripId, tripId).index].packingList|;
            DeletePacking(AddPacking(store, tripId, Some(item)).store, tripId, Numerals.IntToString(n)).store == store
  {
    var i := Locate(store.trips, TripId, tripId).index;
    var list := store.trips[i].packingList;
    var s1 := PackingAdded(store, tripId, item);
    var t := s1.trips[i];
    DeleteRenderedLastAdded(list, item);
    assert t.(packingList := DeleteAt(t.packingList, Numerals.ParseInt(Numerals.IntToString(|list|)))) == store.trips[i];
    WithTripTwice(store, i, t, store.trips[i]);
    assert store.trips[i := store.trips[i]] == store.trips;
  }

  /** The store after adding a packing item, with the trip still found where it was. */
  lemma PackingAdded(store: Store, tripId: string, item: string) returns (s1: Store)
    requires Locate(store.trips, TripId, tripId).At?
    ensures var i := Locate(store.trips, TripId, tripId).index;
            && s1 == AddPacking(store, tripId, Some(item)).store
            && s1 == WithTrip(store, i, store.trips[i].(packingList := AddPackingItem(store.trips[i].packingList, Some(item))))
            && Locate(s1.trips, TripId, tripId) == At(i)
  {
    var i := Locate(store.trips, TripId, tripId).index;
    s1 := WithTrip(store, i, store.trips[i].(packingList := AddPackingItem(store.trips[i].packingList, Some(item))));
    FirstIndexAfterUpdate(store.trips, TripId, i, s1.trips[i], tripId);
  }

  // ---- Deleting a trip ----

  /** A booking that stops a trip from being deleted: pending or accepted. */
  predicate Blocks(b: BookingRequest, tripId: Id) {
    b.trip == tripId && b.status != Rejected
  }

  /** `deleteMany({trip: tripId, status: 'rejected'})` keeps every other booking. */
  predicate SurvivesPurge(b: BookingRequest, tripId: Id) {
    !(b.trip == tripId && b.status == Rejected)
  }

  /** `findByIdAndDelete`: removes the first trip with that id, if any. Exactly one trip goes
      when some trip has the id, and then every trip before it and the order of those after
      it are kept; otherwise nothing changes. */
  function RemoveTrip(trips: seq<TripPlan>, tripId: Id): (r: seq<TripPlan>)
    ensures |r| == |trips| - 1 <==> exists k | 0 <= k < |trips| :: trips[k].id == tripId
    ensures (forall k | 0 <= k < |trips| :: trips[k].id != tripId) ==> r == trips
    ensures |r| == |trips| - 1 ==>
              exists i | 0 <= i < |trips| ::
                && trips[i].id == tripId
                && (forall k | 0 <= k < i :: trips[k].id != tripId)
                && r == trips[..i] + trips[i + 1..]
  {
    match FirstIndex(trips, TripId, tripId)
    case None => trips
    case Some(i) => RemoveAt(trips, i)
  }

  /** POST /:tripId/delete. No ownership check and no `req.user` needed; a malformed id
      fails inside the try: 500. A trip id that names no trip still answers 200. */
  function DeleteTrip(store: Store, tripId: string): (r: Handled<Reply>)
    ensures !IsObjectId(tripId) ==> r == Handled(ServerError, store)
    ensures (exists b | b in store.bookings :: Blocks(b, tripId)) ==> r.store == store && r.out != Ok
    ensures IsObjectId(tripId) && (exists b | b in store.bookings :: Blocks(b, tripId)) ==> r.out == BadRequest
    ensures IsObjectId(tripId) && !(exists b | b in store.bookings :: Blocks(b, tripId)) ==> r.out == Ok
    ensures r.out == Ok ==>
              && r.store.bookings == FilterBy(SurvivesPurge, tripId, store.bookings)
              && r.store.trips == RemoveTrip(store.trips, tripId)
              && r.store.(bookings := store.bookings, trips := store.trips) == store
  {
    if !IsObjectId(tripId) then Handled(ServerError, store)
    else if exists b | b in store.bookings :: Blocks(b, tripId) then Handled(BadRequest, store)
    else
      Handled(Ok, store.(bookings := FilterBy(SurvivesPurge, tripId, store.bookings),
                         trips := RemoveTrip(store.trips, tripId)))
  }

  /** After a successful delete no booking refers to the trip, every booking of another
      trip is still there in its order, and the trip is gone. */
  lemma DeleteTripLeavesNoBookings(store: Store, tripId: string)
    requires DeleteTrip(store, tripId).out == Ok
    ensures var after := DeleteTrip(store, tripId).store;
            && (forall b | b in after.bookings :: b.trip != tripId)
            && (forall b | b in store.bookings && b.trip != tripId :: b in after.bookings)
            && IsSubsequence(after.bookings, store.bookings)
            && |after.trips| == |store.trips| - (if FirstIndex(store.trips, TripId, tripId).Some? then 1 else 0)
  {
    var after := DeleteTrip(store, tripId).store;
    forall b | b in after.bookings ensures b.trip != tripId {
      assert b in store.bookings && SurvivesPurge(b, tripId);
      assert !Blocks(b, tripId);
    }
  }
}
